=== FILE: README.md ===
# Unified editor core in Dafny

This project models the logic at the centre of a browser markdown editor.
Everything around it (DOM building, CDN loading, modals, notifications) is
plumbing and is not modelled. Three scripts form the core:

- **`FormatConverter`** (`scripts/format-converter.js`) converts between
  Markdown, HTML and an Editor.js block document:
  - a fallback regex chain turns Markdown into HTML;
  - a fixed chain of tag rewrites, then strip, collapse and trim, turns HTML into Markdown;
  - a per-block serialiser turns blocks into Markdown;
  - a line scanner with a pending-paragraph buffer turns Markdown into blocks;
  - `convert` dispatches on `from + '_to_' + to`. Its fallback is to return the input.
- **`ModeManager`** (`scripts/mode-manager.js`) tracks the current mode, the previous mode and a history of at most ten modes. It also holds:
  - the mode→format and mode→view tables;
  - the Ctrl/Meta digit keys;
  - the hand-over of content through an editor core. That core is a parameter here.
- **`UnifiedEditor`** (`scripts/unified-editors.js`) keeps one text in four views: a markdown textarea with a preview, a WYSIWYG surface holding HTML, a code textarea, and a split textarea with a preview. It covers:
  - the flush-then-load mode switch;
  - toolbar insertion, in wrap and line-start forms, with the cursor;
  - the command and shortcut tables;
  - the link and image dialogs' markup;
  - the status-bar counters;
  - its own markdown-to-HTML chain;
  - save and load;
  - the auto-save debounce.

## Modules

| file | module | what it holds |
|---|---|---|
| `options.dfy` | `Options` | `Option<T>` |
| `js_string.dfy` | `JsString` | the JavaScript string built-ins the core uses: `trim`, `split`, `join`, `repeat`, `startsWith`, `\s`, ASCII case folding for the `i` flag, exact for the ASCII patterns used |
| `regex_passes.dfy` | `RegexPasses` | each regular expression of the core as a concrete pass on `seq<char>`. The `m`-flag passes apply line by line; the lazy tag pairs and `ReplaceAll` scan the whole string |
| `editor_blocks.dfy` | `EditorBlocks` | the block datatype and `editorJsToMarkdown` |
| `block_scanner.dfy` | `BlockScanner` | `markdownToEditorJs` and its round trip |
| `html_conversion.dfy` | `HtmlConversion` | the converter's `markdownToHtml` fallback and `htmlToMarkdown` |
| `format_converter.dfy` | `FormatConverter` | `convert` |
| `mode_manager.dfy` | `ModeManager` | the mode state machine |
| `editor_markdown.dfy` | `EditorMarkdown` | `UnifiedEditor.markdownToHtml` |
| `text_insertion.dfy` | `TextInsertion` | `insertText`'s string and cursor arithmetic |
| `editor_stats.dfy` | `EditorStats` | `updateStats` |
| `unified_editor.dfy` | `UnifiedEditor` | the editor's state, mode switch, commands, save and load |
| `autosave.dfy` | `AutoSave` | `setupAutoSave` as an event machine with the clock as a parameter |

These points describe the code as it is, which is what the model follows:

- `UnifiedEditor.switchMode` carries raw text between views.
  - Leaving the WYSIWYG view stores its `innerHTML` in `content`, with no HTML→Markdown step (`scripts/unified-editors.js:326-327`).
  - So a markdown → WYSIWYG → markdown detour leaves the rendered HTML in the markdown textarea. `UnifiedEditor.WysiwygDetourKeepsHtml` proves this.
- There is no "dirty" flag. The only trace of an edit is the status label. `switchMode` accepts any mode name, with no check against a set of available views.
- `htmlToMarkdown` trims its result, so `<h2>X</h2>` becomes `## X` with no trailing blank line.
- `markdownToEditorJs` does not parse fenced code:
  - a fence line flushes the pending paragraph and then starts a new paragraph buffer holding the fence line;
  - a one-line code block comes back as two paragraphs (`BlockScanner.CodeBlockDoesNotRoundTrip`).
  - The round trip does hold for headers, paragraphs and quotes (`BlockScanner.BlocksRoundTrip`).
- The `code` toolbar command inserts with `lineStart = true`, and in that form `insertText` ignores `after`. So only the opening fence is inserted (`UnifiedEditor.CodeFenceUnclosed`).
- `insertText` calls `handleContentChange(currentMode)`, which refreshes the split preview only when the source is `'markdown'` and the mode is `'split'`. Both cannot hold at once, so an insertion never refreshes a preview.
- `getContent` and `setContent` are declared twice in the class. The later declarations (`scripts/unified-editors.js:752-753`) call themselves, and they replace the bodies at lines 614 and 624.
  - As written, every call of either one recurses until the engine throws a `RangeError`. Every path that reaches `updateStats` (:566-567), `save` (:641) or `loadContent` (:688, :690) therefore throws part-way. "## Left out" gives the outcome member by member.
  - The model uses the bodies at 614 and 624, which are evidently the intended ones.

## Model

| member | source | states |
|---|---|---|
| FormatConverter.Convert | scripts/format-converter.js:197-224 | equal format names return the content unchanged; a name outside `markdown`, `html`, `editorjs` (an unsupported route) returns the content unchanged |
| FormatConverter.ConvertTakesRoute | scripts/format-converter.js:200-223 | for two different known formats, `convert` is the matching case's result, or the content itself when that case throws and the `catch` returns it |
| FormatConverter.SwitchCase | scripts/format-converter.js:201 | the switch label `from + '_to_' + to` equals the label of formats a and b exactly when `from` names a and `to` names b |
| FormatConverter.RouteNameSplits | scripts/format-converter.js:201 | two labels built from underscore-free names are equal only if both names are |
| FormatConverter.FormatNamed | scripts/format-converter.js:201-215 | a recognised name is the name of the format it yields |
| FormatConverter.FormatNameParses | scripts/format-converter.js:201-215 | each format's name is recognised as that format |
| FormatConverter.BlocksOrSelf | scripts/format-converter.js:207 | `content.blocks \|\| content` throws exactly on a missing value, yields a document's block array, and passes anything else through |
| FormatConverter.EditorJsToMarkdown | scripts/format-converter.js:57-83 | a non-array gives `''`; an array gives the in-order concatenation of its blocks' fragments, or throws when a fragment throws |
| FormatConverter.StringMethodKeepsNonText | scripts/format-converter.js:202-212 | from markdown or html, a content that is not a string makes the string method throw, and `convert` returns the content unchanged |
| FormatConverter.MarkdownToHtmlRoute | scripts/format-converter.js:202-203 | `markdown_to_html` is the fallback `markdownToHtml` |
| FormatConverter.HtmlToMarkdownRoute | scripts/format-converter.js:204-205 | `html_to_markdown` is `htmlToMarkdown` |
| FormatConverter.MarkdownToEditorJsRoute | scripts/format-converter.js:208-209 | `markdown_to_editorjs` is the scanned block list stamped with the clock |
| FormatConverter.HtmlToEditorJsRoute | scripts/format-converter.js:210-212 | `html_to_editorjs` scans the markdown of the HTML |
| FormatConverter.EditorJsToMarkdownRoute | scripts/format-converter.js:206-207 | `editorjs_to_markdown` gives the blocks' markdown for a document or array, `''` for any other value, and the content unchanged when reading `blocks` or serialising throws |
| FormatConverter.EditorJsToHtmlRoute | scripts/format-converter.js:213-215 | `editorjs_to_html` renders the blocks' markdown, with the same fallbacks |
| FormatConverter.HtmlToEditorJsPivot | scripts/format-converter.js:210-212 | html→editorjs equals html→markdown followed by markdown→editorjs |
| FormatConverter.EditorJsToHtmlPivot | scripts/format-converter.js:213-215 | editorjs→html equals editorjs→markdown followed by markdown→html |
| FormatConverter.NegativeHeaderKeepsContent | scripts/format-converter.js:63 | a header with a negative level makes `'#'.repeat` throw, and `convert` returns the document unchanged |
| FormatConverter.BlocksSurviveMarkdown | scripts/format-converter.js:206-209 | a document of headers, paragraphs and quotes that read back survives editorjs→markdown→editorjs, stamped with the new time |
| FormatConverter.HtmlHeadingConverts | scripts/format-converter.js:44-53 | `<hk>text</hk>` for k = 1..3 converts to k hashes, a space and the text, without the blank line the rewrite added |
| FormatConverter.HeaderParagraphConverts | scripts/format-converter.js:106-122 | a header line, a blank line and a plain line convert to exactly a header block and a paragraph block |
| EditorBlocks.ItemLines | scripts/format-converter.js:66-73 | list item i renders as `(i+1). item` when ordered and `- item` otherwise, one line per item |
| EditorBlocks.Fragment | scripts/format-converter.js:61-81 | a block's fragment throws exactly for a negative header level; every known block's fragment ends in a blank line; an unknown type gives `''` |
| EditorBlocks.Serialize | scripts/format-converter.js:60-82 | the serialisation exists exactly when every block's fragment does |
| EditorBlocks.SerializeAppend | scripts/format-converter.js:60-82 | serialising a concatenation concatenates the serialisations, in order |
| EditorBlocks.UnknownBlockVanishes | scripts/format-converter.js:79-80 | a block of unknown type contributes nothing anywhere in the array |
| EditorBlocks.ListLinesSplit | scripts/format-converter.js:66-73 | a list's lines joined by single newlines split back into those lines |
| BlockScanner.HeadingMatch | scripts/format-converter.js:106 | a match of `^(#{1,6})\s+(.*)$` has 1 to 6 hashes, and its text is a proper suffix of the line |
| BlockScanner.HeadingMatchIsRegexMatch | scripts/format-converter.js:106 | the match found is the regex's: a split into hashes, whitespace and text exists exactly when one is returned, with the greedy whitespace run |
| BlockScanner.NoHeadingWithoutHash | scripts/format-converter.js:106 | a line not starting with `#` is no heading |
| BlockScanner.Classify | scripts/format-converter.js:94-179 | a line is blank exactly when it is empty; a header line has level 1 to 6 |
| BlockScanner.ClassifiedShape | scripts/format-converter.js:106-179 | the tests run in order: a header is a heading match, a fence starts with three backticks, a quote is `> ` and its text, a bullet's item follows the marker and its whitespace, and plain text is exactly what no test accepts |
| BlockScanner.FlushedWellFormed | scripts/format-converter.js:95-101 | a flush appends the trimmed pending paragraph, when there is one, and empties the buffer |
| BlockScanner.ApplyWellFormed | scripts/format-converter.js:94-179 | every line keeps the emitted blocks as a prefix, and every emitted block is one the scanner can emit |
| BlockScanner.StepWellFormed | scripts/format-converter.js:91-180 | the same for one raw line, trimmed first |
| BlockScanner.FlushBeforeEmit | scripts/format-converter.js:108-165 | with a pending paragraph, every non-plain line first emits that paragraph, trimmed; a plain line extends the buffer with the line and a space |
| BlockScanner.ScanWellFormed | scripts/format-converter.js:91-180 | a scan of any lines keeps the earlier blocks as a prefix and emits only emittable blocks |
| BlockScanner.FinishEmittable | scripts/format-converter.js:183-188 | the final flush keeps a non-blank pending paragraph and emits nothing else |
| BlockScanner.MarkdownToBlocks | scripts/format-converter.js:86-193 | every emitted paragraph is trimmed and non-empty, every header has level 1 to 6, and every list has one unordered item |
| BlockScanner.HeaderLineReads | scripts/format-converter.js:106-122 | `k` hashes, a space and trimmed one-line text read back as that header |
| BlockScanner.QuoteLineReads | scripts/format-converter.js:141-154 | `> ` and trimmed text reads back as a quote of that text |
| BlockScanner.BulletLineReads | scripts/format-converter.js:158-175 | a dash or star, a space and trimmed text read as a one-item unordered list |
| BlockScanner.BulletLineStep | scripts/format-converter.js:158-175 | a bullet line flushes the pending paragraph and emits its one-item list |
| BlockScanner.BulletLinesStaySeparate | scripts/format-converter.js:167-174 | two consecutive bullet lines become two lists, never one list of two items |
| BlockScanner.FenceLineRestartsParagraph | scripts/format-converter.js:127-137 | a fence line flushes the pending paragraph and starts a new buffer holding the fence line and a newline |
| BlockScanner.BlockLine | scripts/format-converter.js:63-78 | a readable block's fragment is its single line and a blank line |
| BlockScanner.BlockLinesRead | scripts/format-converter.js:91-180 | a readable block's line, then the blank line, appends exactly that block |
| BlockScanner.RoundTripFrom | scripts/format-converter.js:86-180 | scanning the markdown of readable blocks appends exactly those blocks, in order |
| BlockScanner.BlocksRoundTrip | scripts/format-converter.js:57-193 | headers (level 1..6), paragraphs and quotes with non-empty, trimmed, one-line text re-parse to exactly themselves |
| BlockScanner.CodeBlockDoesNotRoundTrip | scripts/format-converter.js:127-137 | a one-line code block serialises to a fenced block that re-parses as two paragraphs: the opening fence with the code, then the closing fence |
| BlockScanner.HeaderThenParagraph | scripts/format-converter.js:87-188 | a header line, a blank line and a plain line scan to that header and a paragraph of that line |
| HtmlConversion.MarkdownToHtml | scripts/format-converter.js:31-38 | the fallback chain's output holds no newline |
| HtmlConversion.NewlinesToBr | scripts/format-converter.js:38 | replacing every newline by `<br>` leaves none |
| HtmlConversion.PrefixRuleIdentity | scripts/format-converter.js:32-34 | a heading pass changes nothing in text without its first character |
| HtmlConversion.GreedyRuleIdentity | scripts/format-converter.js:35-37 | an emphasis or code pass changes nothing in text without its delimiter |
| HtmlConversion.HeadingPassesIdentity | scripts/format-converter.js:32-34 | text without `#` passes the heading passes unchanged |
| HtmlConversion.EmphasisPassesIdentity | scripts/format-converter.js:35-37 | text without `*` or a backtick passes the emphasis passes unchanged |
| HtmlConversion.HeadingRuleOnLine | scripts/format-converter.js:32-34 | a k-hash heading line is rewritten by the k pass only |
| HtmlConversion.HeadingPassesOnHeading | scripts/format-converter.js:32-34 | a heading line of level 1 to 3 becomes exactly its `<hk>` element |
| HtmlConversion.MarkdownHeadingToHtml | scripts/format-converter.js:31-38 | a heading line without emphasis renders as its `<hk>` element |
| HtmlConversion.MarkdownPlainToHtml | scripts/format-converter.js:31-38 | one line without `#`, `*` or a backtick renders as itself |
| HtmlConversion.HtmlToMarkdown | scripts/format-converter.js:42-54 | the output has no leading or trailing whitespace and no run of three newlines |
| HtmlConversion.HtmlToMarkdownIdentity | scripts/format-converter.js:42-54 | input with no `<`, no run of three newlines and no surrounding whitespace is returned unchanged |
| HtmlConversion.TagRewritesIdentity | scripts/format-converter.js:44-50 | text without `<` passes the tag rewrites unchanged |
| HtmlConversion.HeadingPassOnElement | scripts/format-converter.js:44-46 | the `<hm>` rewrite turns an `<hk>` element into k hashes, the text and a blank line when m = k, and leaves it alone otherwise |
| HtmlConversion.HeadingRewritesOnElement | scripts/format-converter.js:44-46 | the three heading rewrites together turn an `<hk>` element into its markdown line and a blank line |
| HtmlConversion.HtmlHeadingToMarkdown | scripts/format-converter.js:42-54 | an `<hk>` element becomes its markdown heading line, trimmed |
| HtmlConversion.HeadingSurvivesHtmlRoundTrip | scripts/format-converter.js:31-54 | a heading line of level 1 to 3 survives markdown→HTML→markdown |
| HtmlConversion.TrimKeepsNoTripleNewline | scripts/format-converter.js:52-53 | trimming after the collapse cannot create a run of three newlines |
| RegexPasses.MapLinesIdentity | scripts/format-converter.js:32-37 | a line pass that fixes every line fixes the text |
| RegexPasses.FirstMatch | scripts/unified-editors.js:553-554 | the first occurrence of a pattern, case-folded as under the `i` flag, at or after a position |
| RegexPasses.GreedySpan | scripts/format-converter.js:35-37 | the span `X(.*)X` matches: leftmost start, then the longest match, and none when the line has no such span |
| RegexPasses.LinkLineIdentity | scripts/unified-editors.js:553-554 | the image and link passes change nothing on a line without their first character |
| RegexPasses.ReplaceAllIdentity | scripts/unified-editors.js:558-559 | a global replacement changes nothing in text without the pattern's first character |
| RegexPasses.ReplaceAllRemovesChar | scripts/format-converter.js:38 | replacing every occurrence of a character by text without it leaves none |
| RegexPasses.LazyPairsIdentity | scripts/format-converter.js:44-49 | a lazy tag-pair rewrite changes nothing in text without `<` |
| RegexPasses.LazyPairsOnPair | scripts/format-converter.js:44-49 | a lone `<t>text</t>` is rewritten to the replacement around the text |
| RegexPasses.StripTags | scripts/format-converter.js:51 | no `<` is followed later by `>` in the result, and text without `<` is returned unchanged |
| RegexPasses.CollapseNewlines | scripts/format-converter.js:52 | the result has no run of three newlines |
| RegexPasses.CollapseNewlinesIdentity | scripts/format-converter.js:52 | text without such a run is returned unchanged |
| RegexPasses.SpacedPairsIdentity | scripts/unified-editors.js:560-563 | a list-tidy pass changes nothing in text without its opening tag |
| RegexPasses.SpacedPairsKeepsOut | scripts/unified-editors.js:560-563 | a list-tidy pass adds no character that is in neither the text nor the replacement |
| JsString.Trim | scripts/format-converter.js:92 | the result has no surrounding whitespace, is the input when it already had none, and is empty exactly when the input is all whitespace |
| JsString.Split | scripts/format-converter.js:87 | at least one piece, none holding the separator |
| JsString.JoinSplit | scripts/unified-editors.js:441-454 | joining the pieces of a split with the separator gives the text back |
| JsString.SplitJoin | scripts/unified-editors.js:441-454 | splitting a join of separator-free pieces gives the pieces back |
| JsString.SplitLength | scripts/unified-editors.js:570 | a split has one more piece than the text has separators |
| JsString.Repeat | scripts/format-converter.js:63 | `n` copies of the character |
| JsString.TrimDropsTrailingSpace | scripts/format-converter.js:179-186 | a trimmed non-empty text followed by whitespace trims back to itself |
| ModeManager.SwitchMode | scripts/mode-manager.js:48-61 | switching to the current mode changes nothing; otherwise the target becomes current, the old mode becomes previous and ends the history, the history is the tail of the old one plus the old mode, and it grows by one until it holds ten |
| ModeManager.InitialValid | scripts/mode-manager.js:4-6 | the constructor's state satisfies the invariant |
| ModeManager.SwitchKeepsValid | scripts/mode-manager.js:48-61 | `switchMode` keeps the history within ten entries and never ending in the current mode |
| ModeManager.GoBack | scripts/mode-manager.js:156-161 | with an empty history, `goBack` changes nothing |
| ModeManager.GoBackSwaps | scripts/mode-manager.js:156-161 | otherwise the last entry becomes current, the old current becomes previous and replaces that entry |
| ModeManager.GoBackKeepsValid | scripts/mode-manager.js:156-161 | `goBack` keeps the invariant |
| ModeManager.GoBackTwice | scripts/mode-manager.js:156-161 | two `goBack`s return to the starting mode with the starting history |
| ModeManager.HandleKeepsValid | scripts/mode-manager.js:10-45 | a button, key or `goBack` keeps the invariant |
| ModeManager.RunKeepsValid | scripts/mode-manager.js:55-58 | over any sequence of events the history never exceeds ten entries |
| ModeManager.KeyMode | scripts/mode-manager.js:21-44 | a mode is selected only with Ctrl or Meta held |
| ModeManager.KeyTable | scripts/mode-manager.js:22-42 | Ctrl or Meta with 1 to 5 selects markdown, wysiwyg, code, blocks and split, and nothing else selects them |
| ModeManager.FormatTable | scripts/mode-manager.js:106-115 | markdown, code and split map to `'markdown'`, wysiwyg to `'html'`, blocks to `'editorjs'`, each as an if-and-only-if |
| ModeManager.ViewTable | scripts/mode-manager.js:95-104 | two modes share a view exactly when they are equal or both are in {markdown, wysiwyg} |
| ModeManager.GetState | scripts/mode-manager.js:164-170 | the snapshot reports the current mode, previous mode and history as they are |
| ModeManager.Switch | scripts/mode-manager.js:48-67 | the content hand-over does the same bookkeeping, and switching to the current mode leaves the core alone |
| ModeManager.ContentFollowsSwitch | scripts/mode-manager.js:117-126 | with a core whose reads return what was written, the new mode's format reads what the old mode's format held before the switch |
| EditorMarkdown.EditorMarkdownToHtml | scripts/unified-editors.js:545-564 | the editor's rendering holds no newline |
| EditorMarkdown.ProseParagraphs | scripts/unified-editors.js:545-564 | two runs of plain prose around a blank line render as those runs around `</p><p>` |
| EditorMarkdown.ProseUntilBreaks | scripts/unified-editors.js:547-557 | prose without markup characters or digits passes the heading, emphasis, link and block passes unchanged |
| EditorMarkdown.BreakBetween | scripts/unified-editors.js:558 | a blank line between two single lines becomes `</p><p>` |
| EditorMarkdown.TidyAroundBreak | scripts/unified-editors.js:560-563 | the list-tidy passes leave a paragraph break between tag-free text unchanged |
| EditorMarkdown.ReplaceAllAfter | scripts/unified-editors.js:558 | a global replacement rewrites the first occurrence and continues after it |
| EditorMarkdown.LinkPassIdentity | scripts/unified-editors.js:553-554 | the image and link passes change nothing in text without `!` or `[` |
| EditorMarkdown.OrderedItemIdentity | scripts/unified-editors.js:557 | the ordered-item pass changes nothing in text without digits |
| EditorStats.SplitSpaces | scripts/unified-editors.js:569 | `split(/\s+/)` has at least one piece, and the first is empty exactly when the text is empty or opens with whitespace |
| EditorStats.WordsAreWordStarts | scripts/unified-editors.js:569 | the count of non-empty pieces equals the number of places where a word begins |
| EditorStats.LineCount | scripts/unified-editors.js:570 | the line count is the number of newlines plus one |
| EditorStats.StatsOf | scripts/unified-editors.js:566-570 | the counters are the length, the number of word beginnings, and the newlines plus one |
| TextInsertion.Wrap | scripts/unified-editors.js:456-459 | the new text is the prefix, `before`, the selection, `after` and the suffix; it grows by both insertions; the cursor lands after `after` |
| TextInsertion.WrapUndone | scripts/unified-editors.js:456-459 | removing the inserted `before` and `after` gives the original text back |
| TextInsertion.FindLine | scripts/unified-editors.js:441-451 | the loop finds the line whose span, counting its newline, holds the selection start |
| TextInsertion.LineStart | scripts/unified-editors.js:439-453 | the start of the line holding a position: at or before it, at the text's start or after a newline, with no newline in between |
| TextInsertion.LineStartUnique | scripts/unified-editors.js:439-453 | any position with those three properties is that line start |
| TextInsertion.InsertAtLineStart | scripts/unified-editors.js:439-455 | `before` is inserted at the start of the line holding `start`, the cursor moves by `before`'s length, and, when `before` holds no newline, every other line is unchanged |
| TextInsertion.PrefixedLine | scripts/unified-editors.js:441-454 | prefixing line k of the split and re-joining inserts `before` at that line's start |
| TextInsertion.CountAppend | scripts/unified-editors.js:570 | counting a character is additive over concatenation |
| UnifiedEditor.New | scripts/unified-editors.js:15-17 | a new editor is in markdown mode with the initial content |
| UnifiedEditor.ViewOf | scripts/unified-editors.js:322-335 | each of the four mode names selects its own view, each as an if-and-only-if |
| UnifiedEditor.SetContent | scripts/unified-editors.js:624-637 | `setContent` stores the text and shows the ready status. The WYSIWYG view holds it rendered; a textarea mode reads it back with its line breaks normalised (the text itself when it holds no CR); an unknown mode reads back `content`. Each preview renders its textarea's value, and no textarea holds a CR afterwards |
| UnifiedEditor.TextareaValue | scripts/unified-editors.js:628-631 | what a textarea reports after an assignment holds no CR, is never longer, and is the assigned text itself when that holds no CR |
| UnifiedEditor.TextareaValueIdempotent | scripts/unified-editors.js:628-631 | assigning a textarea's own value back to it changes nothing |
| UnifiedEditor.CrLfReadsAsLf | scripts/unified-editors.js:628-631 | in otherwise CR-free text, a CRLF pair reads back as one LF and everything around it is kept |
| UnifiedEditor.LoneCrReadsAsLf | scripts/unified-editors.js:628-631 | in otherwise CR-free text, a CR not followed by LF reads back as one LF and everything around it is kept |
| UnifiedEditor.SetThenGet | scripts/unified-editors.js:614-631 | `getContent` after `setContent` gives the text rendered in WYSIWYG mode, the textarea's normalised value in the other three modes, and the text itself under an unknown mode; outside WYSIWYG a CR-free text comes back unchanged |
| UnifiedEditor.SaveCurrent | scripts/unified-editors.js:321-336 | the live view is flushed into `content`, and nothing else changes |
| UnifiedEditor.SwitchMode | scripts/unified-editors.js:303-319 | a switch to the current mode is a no-op. Otherwise `content` becomes the old view's text and the mode changes; the new view reads back that text rendered for WYSIWYG, with normalised line breaks in a textarea, and unchanged under an unknown mode. CR-free textareas stay CR-free |
| UnifiedEditor.WysiwygDetourKeepsHtml | scripts/unified-editors.js:326-327 | markdown → WYSIWYG → markdown leaves the rendered HTML (as the textarea reports it), not the markdown, in the textarea |
| UnifiedEditor.TextModesShareText | scripts/unified-editors.js:363-381 | between markdown, code and split a switch there and back gives the text as a textarea reports it, which is the same text when it holds no CR |
| UnifiedEditor.Save | scripts/unified-editors.js:639-654 | the live view's text becomes `content` and the stored copy, and the status reads saved |
| UnifiedEditor.SaveIdempotent | scripts/unified-editors.js:639-654 | saving twice is saving once |
| UnifiedEditor.LoadContent | scripts/unified-editors.js:685-692 | a non-empty stored text wins, then a non-empty initial text; otherwise nothing changes |
| UnifiedEditor.SaveThenReload | scripts/unified-editors.js:685-692 | what was saved comes back on the next start in markdown mode, as the textarea reports it (unchanged when it holds no CR); a saved empty text falls back to the initial one |
| UnifiedEditor.StatsAfterSetContent | scripts/unified-editors.js:566-570 | after `setContent` outside WYSIWYG mode, the counters are those of the text the view reports, which are the new text's own when it holds no CR |
| UnifiedEditor.ActiveArea | scripts/unified-editors.js:469-476 | there is no textarea exactly in WYSIWYG mode or under an unknown mode name |
| UnifiedEditor.ActiveAreaIsContent | scripts/unified-editors.js:469-476 | in a textarea mode, the content is that textarea's value |
| UnifiedEditor.InsertText | scripts/unified-editors.js:428-467 | without a textarea nothing changes. Otherwise only that textarea and the status change. The line form puts `before` at the start of the line holding the selection start, with the cursor at `start + before.length`. The wrap form surrounds the selection, with the cursor after `after`. The editor and cursor are exactly those of the reference `Inserted` |
| UnifiedEditor.ExecuteCommand | scripts/unified-editors.js:384-426 | an unknown command does nothing; link and image open their dialog; an insertion command leaves exactly the editor and cursor `Inserted` gives for that command's `before`, `after` and line-start form |
| UnifiedEditor.CodeFenceUnclosed | scripts/unified-editors.js:413-414 | the `code` command is a line-start insertion, so only the opening fence's three backticks are added |
| UnifiedEditor.InsertMarkup | scripts/unified-editors.js:498-516 | with a URL the markup goes in at the selection, exactly as `Inserted` wraps it with an empty `after`, and the dialogs close; without one nothing changes |
| UnifiedEditor.InsertedKeepsAreasNormal | scripts/unified-editors.js:428-467 | inserting CR-free strings into CR-free textareas leaves them CR-free, so the insertions stay values a textarea could report |
| UnifiedEditor.MarkupRenders | scripts/unified-editors.js:553-554 | a line that is exactly `[t](u)` or `![t](u)`, with no `]` in `t` and no `)` in `u`, becomes exactly the anchor or `<img>` for `t` and `u` |
| UnifiedEditor.InsertedLinkRenders | scripts/unified-editors.js:554 | the markup the link dialog inserts renders as an anchor of that text and URL |
| UnifiedEditor.InsertedImageRenders | scripts/unified-editors.js:553 | the markup the image dialog inserts is parsed by the image pattern back into its alt text (`Изображение` when none was given) and URL, giving exactly that `<img>` element |
| UnifiedEditor.InsertedImagePreview | scripts/unified-editors.js:553-554 | in the preview's image-then-link passes, an inserted one-line image becomes its `<img>` element, which the link pass leaves alone |
| UnifiedEditor.InsertedLinkPreview | scripts/unified-editors.js:553-554 | in the same two passes, an inserted one-line link without `!` passes the image pass unchanged and becomes its anchor |
| UnifiedEditor.Shortcut | scripts/unified-editors.js:254-281 | a shortcut fires only with Ctrl or Meta held and Alt not held |
| UnifiedEditor.ModeKeys | scripts/unified-editors.js:258-261 | Ctrl or Meta without Alt, with digit k from 1 to 4, selects the k-th mode, and nothing else selects it |
| AutoSave.Setup | scripts/unified-editors.js:694-709 | nothing is scheduled at first, and the listener exists exactly when auto-save is on |
| AutoSave.Cancel | scripts/unified-editors.js:700 | `clearTimeout` removes exactly the timers with that id |
| AutoSave.Input | scripts/unified-editors.js:699-705 | with the listener, an input schedules a save `syncDelay` later and remembers its id; without it nothing changes |
| AutoSave.Advance | scripts/unified-editors.js:702-704 | each timer that comes due runs `save` once and is spent |
| AutoSave.InputReplacesPending | scripts/unified-editors.js:699-705 | an input replaces whatever was pending with exactly one new timer |
| AutoSave.RunKeepsValid | scripts/unified-editors.js:697-705 | after any sequence of inputs and clock ticks, at most one save is pending |
| AutoSave.BurstLeavesOneSave | scripts/unified-editors.js:699-705 | a burst of typing leaves one save pending, due `syncDelay` after the last keystroke, and runs none meanwhile |
| AutoSave.BurstSavesOnce | scripts/unified-editors.js:699-705 | after a burst, the clock runs no save before the delay has passed since the last keystroke, and exactly one after |
| AutoSave.DisabledNeverSaves | scripts/unified-editors.js:695 | with auto-save off, nothing is ever saved |

## Left out

- The `marked` and highlight.js path of `FormatConverter` (`scripts/format-converter.js:3-28`) calls a foreign library. Only the fallback chain is modelled.
- `Date.now()` in `markdownToEditorJs` is the parameter `now`. The auto-save clock is the time carried by each event.
- These parts are DOM, storage, network or foreign calls:
  - DOM construction, `updateModeUI`, `updateUI` and element visibility;
  - `ModeManager`'s `updateSplitView`, `updateStatus` and `updateStats` (scripts/mode-manager.js:134-153), which write the split preview, the mode label and the counters from `switchMode`;
  - the status-label strings;
  - notifications, modal display and clearing the modal inputs;
  - `exportContent`, `importContent` and `showFallbackEditor`;
  - `handleWysiwygPaste` and `handleWysiwygKeydown`;
  - `console` output;
  - `localStorage` failures, the other way into `save`'s `catch`. The stored entry is a field.
- `scripts/plugin-loader.js`, `scripts/integration.js`, `unified-integration.js` and `scripts/editor-core.js` are not part of this model. `ModeManager`'s editor core is a parameter: a state with a reader and a writer per format.
- `ModeManager`'s `switchMode` is `async`. The model runs each switch to completion and does not model interleaved calls; `goBack` does not await its switch.
- `ModeManager` modes are the five names its buttons and keys use. A button carrying any other name is not modelled.
- UnifiedEditor.SetContent, UnifiedEditor.SetThenGet, UnifiedEditor.StatsAfterSetContent, UnifiedEditor.SaveThenReload, UnifiedEditor.SwitchMode: a textarea's value normalisation (CRLF and lone CR become LF) is modelled by `TextareaValue`. The browser's normalisation of HTML assigned to `innerHTML` (entity escaping, tag and attribute canonicalisation) is not: the WYSIWYG clauses read back exactly the rendered string.
- UnifiedEditor.InsertText, UnifiedEditor.ExecuteCommand, UnifiedEditor.InsertMarkup: the normalisation of the assignment at :462 is not applied to the new text. It changes nothing when the textarea and the inserted strings hold no CR (`InsertedKeepsAreasNormal`): the command strings hold none, and a dialog's one-line `<input>` values cannot.
- Strings are sequences of Unicode scalar values, one `char` each. JavaScript strings are sequences of UTF-16 code units, so a character outside the Basic Multilingual Plane (an emoji, say) is one element here and two code units there. A lone surrogate cannot be written at all.
- EditorStats.StatsOf, TextInsertion.Wrap, TextInsertion.InsertAtLineStart, UnifiedEditor.InsertText: for text outside the Basic Multilingual Plane, lengths and positions count one per character where JavaScript counts two. This affects the `chars` counter (`content.length`, scripts/unified-editors.js:568), which `UnifiedEditor.StatsAfterSetContent` inherits. It also affects the selection offsets `selectionStart`/`selectionEnd` and the cursor position. Within the Basic Multilingual Plane the counts agree.
- `JsString.Fold` folds ASCII letters only. A non-unicode `i` regex also folds other letters (é with É); it only refuses a fold that would take a non-ASCII letter to an ASCII one. Every pattern the `i` flag meets here is ASCII, and no non-ASCII character canonicalises to an ASCII one, so matching is exact for these patterns.
- EditorBlocks.Fragment: block data with missing fields (`undefined` text), a non-integer header level, or an infinite one is not modelled. Neither is a `null` entry in the block array, nor a block without `data`: each throws a `TypeError` at scripts/format-converter.js:61-63, so `convert` returns its input. Levels are integers, and only a negative level throws.
- AutoSave.Setup: `syncDelay` is a natural number of milliseconds. Browser timer clamping is not modelled.
- The self-recursive `getContent`/`setContent` at `scripts/unified-editors.js:752-753` are not modelled, because they do not terminate. The bodies at lines 614 and 624 are modelled instead. What the program does as written differs as follows:
- UnifiedEditor.GetContent, UnifiedEditor.SetContent: as written, each call throws a `RangeError` and changes nothing (`setContent` throws before its first assignment). This includes the call from `importContent` (:677).
- UnifiedEditor.Save: as written, `getContent()` at :641 throws. The `catch` at :650-653 logs the error and shows an error notice. Nothing is stored, `content` is unchanged and the status label stays as it was. `SaveIdempotent` and `SaveThenReload` describe the intended body.
- UnifiedEditor.SwitchMode: as written, the flush, the load into the new view and the mode change all happen. Then `updateStatus` → `updateStats` → `getContent()` (:316, :582, :567) throws to the caller, so neither the counters nor the ready status are updated.
- UnifiedEditor.InsertText: as written, the text and cursor change. Then `handleContentChange` → `updateStats` (:466, :524) throws before the status turns unsaved. `ExecuteCommand` and `InsertMarkup`, which insert through it, end the same way.
- UnifiedEditor.LoadContent: as written, a non-empty stored or initial text makes `setContent` (:688, :690) throw. `init`'s `catch` (:32-35) then shows the fallback editor, and `setupAutoSave` never runs. Only when both texts are empty does `init` complete. `Init` and `SaveThenReload` describe the intended bodies.
- `updateMarkdownPreview` and `updateSplitPreview` are modelled where `setContent` and `loadContentToMode` call them (`SetContent`, `LoadInto`). They also run from the markdown and split textareas' `input` handlers (:228-231, :239-242), and `updateSplitPreview` runs from `handleContentChange` (:530).
- Typing into a view, through the `input` handlers at :226-247, is not modelled, except as `AutoSave`'s `Typed` event. Those handlers run `handleContentChange` (unsaved status) and then refresh the view's preview. As written, `handleContentChange` throws in `updateStats`, so the refresh after it never runs either.
- `init`'s `try`/`catch` around construction is not modelled beyond the outcome given above under UnifiedEditor.LoadContent.

=== FILE: autosave.dfy ===
/**
  The auto-save of `UnifiedEditor.setupAutoSave` (scripts/unified-editors.js):
  with auto-save on, every input event cancels the pending save timer, if
  any, and schedules a new one `syncDelay` milliseconds later; a timer that
  comes due runs `save`. With auto-save off no listener is installed. The
  clock is a parameter: events carry the time they happen at.
*/
module AutoSave {
  import opened Options

  /** A scheduled `setTimeout` callback: its id and the time it comes due. */
  datatype Timer = Timer(id: nat, due: nat)

  /**
    The listener's state: whether it was installed, the delay, the
    scheduled timers, the id held in `saveTimeout`, the id the next
    `setTimeout` returns, and how many saves have run.
  */
  datatype Debounce = Debounce(
    listening: bool,
    delay: nat,
    timers: seq<Timer>,
    handle: Option<nat>,
    nextId: nat,
    saves: nat)

  /** `setupAutoSave` with the `autoSave` and `syncDelay` options. Browser timer ids start at 1. */
  function Setup(autoSave: bool, delay: nat): (d: Debounce)
    ensures d.timers == [] && d.saves == 0 && d.listening == autoSave
  {
    Debounce(autoSave, delay, [], None, 1, 0)
  }

  /** `clearTimeout(id)`: the timer with that id no longer runs; clearing a spent id does nothing. */
  function Cancel(ts: seq<Timer>, id: nat): (r: seq<Timer>)
    ensures forall t :: t in r <==> t in ts && t.id != id
    ensures |r| <= |ts|
    ensures forall t :: t in ts && t.id == id ==> |r| < |ts|
  {
    if |ts| == 0 then []
    else if ts[0].id == id then Cancel(ts[1..], id)
    else [ts[0]] + Cancel(ts[1..], id)
  }

  /** The timers still waiting at time `now`. */
  function Waiting(ts: seq<Timer>, now: nat): (r: seq<Timer>)
    ensures forall t :: t in r <==> t in ts && t.due > now
  {
    if |ts| == 0 then []
    else if ts[0].due > now then [ts[0]] + Waiting(ts[1..], now)
    else Waiting(ts[1..], now)
  }

  /** How many of the timers are due at time `now`. */
  function DueCount(ts: seq<Timer>, now: nat): (n: nat)
    ensures n + |Waiting(ts, now)| == |ts|
  {
    if |ts| == 0 then 0
    else (if ts[0].due > now then 0 else 1) + DueCount(ts[1..], now)
  }

  /** `scheduleSave` on an input event at time `now`. */
  function Input(d: Debounce, now: nat): (r: Debounce)
    ensures !d.listening ==> r == d
    ensures d.listening ==> r.handle == Some(d.nextId) && r.saves == d.saves
    ensures d.listening ==> Timer(d.nextId, now + d.delay) in r.timers
  {
    if !d.listening then d
    else
      var kept := if d.handle.Some? then Cancel(d.timers, d.handle.value) else d.timers;
      d.(timers := kept + [Timer(d.nextId, now + d.delay)], handle := Some(d.nextId), nextId := d.nextId + 1)
  }

  /** The clock reaches `now`: every due timer runs `save` once and is spent. */
  function Advance(d: Debounce, now: nat): (r: Debounce)
    ensures r.saves == d.saves + DueCount(d.timers, now)
    ensures forall t :: t in r.timers ==> t.due > now
  {
    d.(timers := Waiting(d.timers, now), saves := d.saves + DueCount(d.timers, now))
  }

  /** What happens to the listener. */
  datatype Event = Typed(at: nat) | Clock(at: nat)

  function Step(d: Debounce, e: Event): Debounce {
    match e
    case Typed(t) => Input(d, t)
    case Clock(t) => Advance(d, t)
  }

  function Run(d: Debounce, events: seq<Event>): Debounce
    decreases |events|
  {
    if |events| == 0 then d else Run(Step(d, events[0]), events[1..])
  }

  /**
    At most one save is ever pending, and it is the one `saveTimeout`
    holds; ids handed out are below `nextId`; without a listener nothing is
    scheduled.
  */
  predicate Valid(d: Debounce) {
    |d.timers| <= 1
    && (|d.timers| == 1 ==> d.handle == Some(d.timers[0].id))
    && (forall t :: t in d.timers ==> t.id < d.nextId)
    && (!d.listening ==> d.timers == [])
  }

  // -------------------------------------------------------------- lemmas

  lemma SetupValid(autoSave: bool, delay: nat)
    ensures Valid(Setup(autoSave, delay))
  {
  }

  /** An input replaces whatever was pending by one save due `delay` after it. */
  lemma InputReplacesPending(d: Debounce, now: nat)
    requires Valid(d) && d.listening
    ensures Input(d, now).timers == [Timer(d.nextId, now + d.delay)]
    ensures Valid(Input(d, now))
  {
    assert |d.timers| == 1 ==> d.timers[0] in d.timers;
  }

  lemma {:induction false} WaitingShrinks(ts: seq<Timer>, now: nat)
    ensures |Waiting(ts, now)| <= |ts|
    ensures forall i :: 0 <= i < |Waiting(ts, now)| ==> Waiting(ts, now)[i] in ts
    decreases |ts|
  {
    if |ts| > 0 {
      WaitingShrinks(ts[1..], now);
    }
  }

  lemma AdvanceKeepsValid(d: Debounce, now: nat)
    requires Valid(d)
    ensures Valid(Advance(d, now))
  {
    var w := Waiting(d.timers, now);
    WaitingShrinks(d.timers, now);
    if |w| == 1 {
      assert w[0] in d.timers;
    }
  }

  lemma StepKeepsValid(d: Debounce, e: Event)
    requires Valid(d)
    ensures Valid(Step(d, e))
  {
    match e
    case Typed(t) =>
      if d.listening {
        InputReplacesPending(d, t);
      }
    case Clock(t) => AdvanceKeepsValid(d, t);
  }

  /** Whatever happens, at most one save is pending at any time. */
  lemma {:induction false} RunKeepsValid(d: Debounce, events: seq<Event>)
    requires Valid(d)
    ensures Valid(Run(d, events))
    ensures |Run(d, events).timers| <= 1
    decreases |events|
  {
    if |events| > 0 {
      StepKeepsValid(d, events[0]);
      RunKeepsValid(Step(d, events[0]), events[1..]);
    }
  }

  /** Only input events schedule anything. */
  predicate AllTyped(events: seq<Event>) {
    forall i :: 0 <= i < |events| ==> events[i].Typed?
  }

  /**
    A burst of typing leaves exactly one save pending, due `delay` after the
    last keystroke, and runs none meanwhile.
  */
  lemma {:induction false} BurstLeavesOneSave(d: Debounce, events: seq<Event>)
    requires Valid(d) && d.listening && |events| > 0 && AllTyped(events)
    ensures |Run(d, events).timers| == 1
    ensures Run(d, events).timers[0].due == events[|events| - 1].at + d.delay
    ensures Run(d, events).saves == d.saves && Run(d, events).delay == d.delay
    ensures Run(d, events).listening
    decreases |events|
  {
    InputReplacesPending(d, events[0].at);
    var next := Step(d, events[0]);
    if |events| > 1 {
      BurstLeavesOneSave(next, events[1..]);
      assert events[1..][|events[1..]| - 1] == events[|events| - 1];
    }
  }

  /**
    After a burst of typing the clock runs no save before `delay` has passed
    since the last keystroke, and exactly one once it has.
  */
  lemma BurstSavesOnce(d: Debounce, events: seq<Event>, now: nat)
    requires Valid(d) && d.listening && |events| > 0 && AllTyped(events)
    ensures var quiet := events[|events| - 1].at + d.delay;
      Advance(Run(d, events), now).saves == d.saves + (if now >= quiet then 1 else 0)
  {
    BurstLeavesOneSave(d, events);
  }

  /** With auto-save off, typing schedules nothing and saves nothing. */
  lemma {:induction false} DisabledNeverSaves(d: Debounce, events: seq<Event>)
    requires !d.listening && d.timers == []
    ensures Run(d, events).saves == d.saves
    decreases |events|
  {
    if |events| > 0 {
      var next := Step(d, events[0]);
      assert next.timers == [] && !next.listening && next.saves == d.saves;
      DisabledNeverSaves(next, events[1..]);
    }
  }
}

=== FILE: block_scanner.dfy ===
/**
  `markdownToEditorJs` of scripts/format-converter.js: a line scanner with a
  pending-paragraph buffer. Each line is trimmed and classified as blank,
  header, fence, quote, bullet or plain text; every kind but plain text
  first flushes the pending paragraph. Fenced code and ordered lists are not
  recognised: a fence line only restarts the paragraph buffer.
*/
module BlockScanner {
  import opened Options
  import opened JsString
  import opened EditorBlocks

  // ------------------------------------------------------------ headers

  /**
    A way for `^(#{1,6})\s+(.*)$` to match `line`: `n` hashes, whitespace up
    to `k`, then heading text free of line terminators up to the end.
  */
  predicate HeadingSplit(line: string, n: int, k: int) {
    && 1 <= n <= 6 && n < k <= |line|
    && (forall i :: 0 <= i < n ==> line[i] == '#')
    && (forall i :: n <= i < k ==> IsSpace(line[i]))
    && NoLineTerminator(line[k..])
  }

  /** A line that does not open with `#` is no heading. */
  lemma NoHeadingWithoutHash(line: string)
    requires |line| == 0 || line[0] != '#'
    ensures HeadingMatch(line).None?
  {
    assert LeadingRun(line, '#') == 0;
  }

  /** Any split has as many hashes as the line starts with, and its spaces stop at the end of their run. */
  lemma HeadingSplitBounds(line: string)
    ensures forall n, k :: HeadingSplit(line, n, k) ==>
              n == LeadingRun(line, '#') && k <= n + SpaceRun(line[n..])
  {
    var h := LeadingRun(line, '#');
    forall n, k | HeadingSplit(line, n, k)
      ensures n == h && k <= n + SpaceRun(line[n..])
    {
      assert IsSpace(line[n]) && !IsSpace('#');
      var r := SpaceRun(line[n..]);
      assert n + r < |line| ==> line[n..][r] == line[n + r];
    }
  }

  /**
    The match of `^(#{1,6})\s+(.*)$` on a trimmed line: the number of hashes
    and the heading text, a suffix of the line.
  */
  function HeadingMatch(line: string): (r: Option<(nat, string)>)
    ensures r.Some? ==> 1 <= r.value.0 <= 6
    ensures r.Some? ==> |r.value.1| < |line| && r.value.1 == line[|line| - |r.value.1|..]
  {
    var n := LeadingRun(line, '#');
    if 1 <= n <= 6 && n < |line| && IsSpace(line[n]) then
      var k := n + SpaceRun(line[n..]);
      if NoLineTerminator(line[k..]) then Some((n, line[k..])) else None
    else None
  }

  /**
    `HeadingMatch` is the regular expression's match: it finds a split
    exactly when there is one, the hash count is forced, and the greedy
    `\s+` takes the longest run of whitespace that still lets the text reach
    the end of the line.
  */
  lemma HeadingMatchIsRegexMatch(line: string)
    ensures HeadingMatch(line).Some? ==>
              HeadingSplit(line, HeadingMatch(line).value.0, |line| - |HeadingMatch(line).value.1|)
    ensures HeadingMatch(line).Some? ==> forall n, k :: HeadingSplit(line, n, k) ==>
              n == HeadingMatch(line).value.0 && k <= |line| - |HeadingMatch(line).value.1|
    ensures HeadingMatch(line).None? ==> forall n, k :: !HeadingSplit(line, n, k)
  {
    HeadingSplitBounds(line);
    var n := LeadingRun(line, '#');
    if 1 <= n <= 6 && n < |line| && IsSpace(line[n]) {
      var k := n + SpaceRun(line[n..]);
      assert forall i :: n <= i < k ==> line[n..][i - n] == line[i];
      if !NoLineTerminator(line[k..]) {
        assert forall k' :: n < k' <= k ==> line[k'..][k - k'..] == line[k..];
      }
    }
  }

  // ---------------------------------------------------- classification

  datatype LineKind =
    | BlankLine
    | HeaderLine(level: nat, text: string)
    | FenceLine
    | QuoteLine(text: string)
    | BulletLine(item: string)
    | TextLine

  /** `^[-*]\s+`: a dash or star followed by whitespace. */
  predicate IsBullet(line: string) {
    |line| >= 2 && (line[0] == '-' || line[0] == '*') && IsSpace(line[1])
  }

  /** What the scanner makes of a trimmed line, in the order it tests. */
  function Classify(line: string): (k: LineKind)
    ensures k == BlankLine <==> line == ""
    ensures k.HeaderLine? ==> 1 <= k.level <= 6
  {
    if line == "" then BlankLine
    else
      match HeadingMatch(line)
      case Some((n, text)) => HeaderLine(n, text)
      case None =>
        if StartsWith(line, "```") then FenceLine
        else if StartsWith(line, "> ") then QuoteLine(line[2..])
        else if IsBullet(line) then BulletLine(line[1 + SpaceRun(line[1..])..])
        else TextLine
  }

  /**
    The shape of each kind of line: a header is exactly a heading match, a
    quote is `> ` and its text, a bullet's item is what follows the marker
    and its whitespace, and plain text is whatever none of the tests accept.
  */
  lemma ClassifiedShape(line: string)
    ensures Classify(line).HeaderLine? <==> line != "" && HeadingMatch(line).Some?
    ensures Classify(line).HeaderLine? ==> HeadingMatch(line) == Some((Classify(line).level, Classify(line).text))
    ensures Classify(line) == FenceLine ==> StartsWith(line, "```")
    ensures Classify(line).QuoteLine? ==> line == "> " + Classify(line).text
    ensures Classify(line).BulletLine? ==> IsBullet(line)
    ensures Classify(line).BulletLine? ==> |Classify(line).item| < |line|
    ensures Classify(line).BulletLine? ==> Classify(line).item == line[|line| - |Classify(line).item|..]
    ensures Classify(line).BulletLine? && |Classify(line).item| > 0 ==> !IsSpace(Classify(line).item[0])
    ensures Classify(line) == TextLine <==>
              line != "" && HeadingMatch(line).None? && !StartsWith(line, "```")
              && !StartsWith(line, "> ") && !IsBullet(line)
  {
    if Classify(line).QuoteLine? {
      assert line == line[..2] + line[2..];
    }
  }

  // ----------------------------------------------------------- scanning

  /** The blocks emitted so far and the pending paragraph text. */
  datatype ScanState = ScanState(blocks: seq<Block>, pending: string)

  /** The blocks the scanner can emit. */
  predicate Emittable(b: Block) {
    match b
    case Header(level, _) => 1 <= level <= 6
    case Paragraph(text) => text != "" && IsTrimmed(text)
    case Quote(_) => true
    case List(ordered, items) => !ordered && |items| == 1
    case _ => false
  }

  predicate AllEmittable(bs: seq<Block>) {
    forall i :: 0 <= i < |bs| ==> Emittable(bs[i])
  }

  /**
    Every emitted block is one the scanner can emit, and a pending paragraph
    starts with the non-space first character of the line that opened it.
  */
  predicate WellFormed(st: ScanState) {
    AllEmittable(st.blocks) && (st.pending == "" || !IsSpace(st.pending[0]))
  }

  predicate IsPrefix(a: seq<Block>, b: seq<Block>) {
    |a| <= |b| && b[..|a|] == a
  }

  /** The pending paragraph, trimmed, appended as a block when there is one. */
  function Flushed(st: ScanState): ScanState {
    if st.pending != "" then ScanState(st.blocks + [Paragraph(Trim(st.pending))], "") else st
  }

  /** The pending paragraph flushed, then `b` emitted. */
  function Emit(st: ScanState, b: Block): ScanState {
    ScanState(Flushed(st).blocks + [b], "")
  }

  /** The pending paragraph flushed and a new buffer started with the fence line. */
  function Restart(st: ScanState, line: string): ScanState {
    ScanState(Flushed(st).blocks, line + "\n")
  }

  /** A plain line and a space appended to the pending paragraph. */
  function Extend(st: ScanState, line: string): ScanState {
    ScanState(st.blocks, st.pending + line + " ")
  }

  /** What a line of kind `k` does to the scan. */
  function Apply(st: ScanState, line: string, k: LineKind): ScanState {
    match k
    case BlankLine => Flushed(st)
    case HeaderLine(n, text) => Emit(st, Header(n, text))
    case FenceLine => Restart(st, line)
    case QuoteLine(text) => Emit(st, Quote(text))
    case BulletLine(item) => Emit(st, List(false, [item]))
    case TextLine => Extend(st, line)
  }

  /** One trimmed line of the scan. */
  function StepLine(st: ScanState, line: string): ScanState {
    Apply(st, line, Classify(line))
  }

  /** One line of the scan; the line is trimmed first. */
  function Step(st: ScanState, raw: string): ScanState {
    StepLine(st, Trim(raw))
  }

  /** The scan of a run of lines, first to last. */
  function ScanLines(st: ScanState, lines: seq<string>): ScanState
    decreases |lines|
  {
    if |lines| == 0 then st else ScanLines(Step(st, lines[0]), lines[1..])
  }

  /** The final flush: the pending paragraph is kept when it has non-space content. */
  function Finish(st: ScanState): seq<Block> {
    if Trim(st.pending) != "" then st.blocks + [Paragraph(Trim(st.pending))] else st.blocks
  }

  lemma AppendEmittable(bs: seq<Block>, b: Block)
    requires AllEmittable(bs) && Emittable(b)
    ensures AllEmittable(bs + [b])
  {
    assert forall i :: 0 <= i < |bs + [b]| ==> (bs + [b])[i] == if i < |bs| then bs[i] else b;
  }

  /** Flushing keeps the state well formed, keeps the blocks and adds the pending paragraph, if any. */
  lemma FlushedWellFormed(st: ScanState)
    requires WellFormed(st)
    ensures WellFormed(Flushed(st)) && Flushed(st).pending == ""
    ensures IsPrefix(st.blocks, Flushed(st).blocks)
    ensures st.pending != "" ==> Flushed(st).blocks == st.blocks + [Paragraph(Trim(st.pending))]
  {
    if st.pending != "" {
      assert Trim(st.pending) != "";
      AppendEmittable(st.blocks, Paragraph(Trim(st.pending)));
      assert (st.blocks + [Paragraph(Trim(st.pending))])[..|st.blocks|] == st.blocks;
    }
  }

  /** Emitting a block the scanner can emit keeps the state well formed and appends. */
  lemma EmitWellFormed(st: ScanState, b: Block)
    requires WellFormed(st) && Emittable(b)
    ensures WellFormed(Emit(st, b))
    ensures IsPrefix(st.blocks, Emit(st, b).blocks)
  {
    var f := Flushed(st);
    FlushedWellFormed(st);
    AppendEmittable(f.blocks, b);
    assert (f.blocks + [b])[..|st.blocks|] == f.blocks[..|st.blocks|];
  }

  /** A line of a kind `Classify` can return keeps the state well formed and only appends blocks. */
  lemma ApplyWellFormed(st: ScanState, line: string, k: LineKind)
    requires WellFormed(st) && IsTrimmed(line)
    requires k.HeaderLine? ==> 1 <= k.level <= 6
    requires k == FenceLine || k == TextLine ==> line != ""
    ensures WellFormed(Apply(st, line, k))
    ensures IsPrefix(st.blocks, Apply(st, line, k).blocks)
  {
    match k
    case BlankLine =>
      FlushedWellFormed(st);
    case HeaderLine(n, text) =>
      EmitWellFormed(st, Header(n, text));
    case FenceLine =>
      FlushedWellFormed(st);
    case QuoteLine(text) =>
      EmitWellFormed(st, Quote(text));
    case BulletLine(item) =>
      EmitWellFormed(st, List(false, [item]));
    case TextLine =>
      assert (st.pending + line + " ")[0] == if st.pending == "" then line[0] else st.pending[0];
  }

  /** A step keeps the state well formed and only ever appends blocks. */
  lemma StepWellFormed(st: ScanState, raw: string)
    requires WellFormed(st)
    ensures WellFormed(Step(st, raw))
    ensures IsPrefix(st.blocks, Step(st, raw).blocks)
  {
    ApplyWellFormed(st, Trim(raw), Classify(Trim(raw)));
  }

  /**
    Every kind of line but plain text first flushes the pending paragraph,
    so the next block after the earlier ones is that paragraph; a plain line
    emits nothing and only extends the buffer.
  */
  lemma FlushBeforeEmit(st: ScanState, raw: string)
    requires st.pending != ""
    ensures Classify(Trim(raw)) != TextLine ==>
              |Step(st, raw).blocks| > |st.blocks| && Step(st, raw).blocks[|st.blocks|] == Paragraph(Trim(st.pending))
    ensures Classify(Trim(raw)) == TextLine ==>
              Step(st, raw) == ScanState(st.blocks, st.pending + Trim(raw) + " ")
  {
    var line := Trim(raw);
    StepBy(st, raw, Classify(line));
    ApplyAfterPending(st, line, Classify(line));
  }

  /** `Step` is `Apply` with the trimmed line's kind. */
  lemma StepBy(st: ScanState, raw: string, k: LineKind)
    requires Classify(Trim(raw)) == k
    ensures Step(st, raw) == Apply(st, Trim(raw), k)
  {
  }

  lemma ApplyAfterPending(st: ScanState, line: string, k: LineKind)
    requires st.pending != ""
    ensures k != TextLine ==>
              |Apply(st, line, k).blocks| > |st.blocks| && Apply(st, line, k).blocks[|st.blocks|] == Paragraph(Trim(st.pending))
    ensures k == TextLine ==> Apply(st, line, k) == ScanState(st.blocks, st.pending + line + " ")
  {
    var f := st.blocks + [Paragraph(Trim(st.pending))];
    assert Flushed(st).blocks == f;
    assert forall b: Block :: (f + [b])[|st.blocks|] == Paragraph(Trim(st.pending));
  }

  /** A scan keeps the state well formed and only ever appends blocks. */
  lemma {:induction false} ScanWellFormed(st: ScanState, lines: seq<string>)
    requires WellFormed(st)
    ensures WellFormed(ScanLines(st, lines))
    ensures IsPrefix(st.blocks, ScanLines(st, lines).blocks)
    decreases |lines|
  {
    if |lines| > 0 {
      var next := Step(st, lines[0]);
      StepWellFormed(st, lines[0]);
      ScanWellFormed(next, lines[1..]);
    }
  }

  /** The final flush emits only blocks the scanner can emit and keeps the earlier ones. */
  lemma FinishEmittable(st: ScanState)
    requires WellFormed(st)
    ensures AllEmittable(Finish(st))
    ensures IsPrefix(st.blocks, Finish(st))
  {
    var t := Trim(st.pending);
    if t != "" {
      assert Emittable(Paragraph(t));
      AppendEmittable(st.blocks, Paragraph(t));
      assert (st.blocks + [Paragraph(t)])[..|st.blocks|] == st.blocks;
    }
  }

  /**
    `markdownToEditorJs` without its timestamp: every paragraph it emits is
    trimmed and non-empty, every header has level 1 to 6, every list holds
    one unordered item, and it never emits a code block.
  */
  function MarkdownToBlocks(md: string): (r: seq<Block>)
    ensures AllEmittable(r)
  {
    var st := ScanLines(ScanState([], ""), Split(md, '\n'));
    ScanWellFormed(ScanState([], ""), Split(md, '\n'));
    FinishEmittable(st);
    Finish(st)
  }

  // ------------------------------------------------------ line lemmas

  lemma ScanLinesCons(st: ScanState, a: string, rest: seq<string>)
    ensures ScanLines(st, [a] + rest) == ScanLines(Step(st, a), rest)
  {
    assert ([a] + rest)[0] == a && ([a] + rest)[1..] == rest;
  }

  lemma ScanLinesTwo(st: ScanState, a: string, b: string, rest: seq<string>)
    ensures ScanLines(st, [a, b] + rest) == ScanLines(Step(Step(st, a), b), rest)
  {
    var s1 := Step(st, a);
    assert [a, b] + rest == [a] + ([b] + rest);
    assert ScanLines(st, [a] + ([b] + rest)) == ScanLines(s1, [b] + rest) by {
      ScanLinesCons(st, a, [b] + rest);
    }
    ScanLinesCons(s1, b, rest);
  }

  lemma ScanLinesThree(st: ScanState, a: string, b: string, c: string)
    ensures ScanLines(st, [a] + ([b] + [c])) == Step(Step(Step(st, a), b), c)
  {
    ScanLinesCons(st, a, [b] + [c]);
    ScanLinesCons(Step(st, a), b, [c]);
    assert [c] == [c] + [];
    ScanLinesCons(Step(Step(st, a), b), c, []);
  }

  lemma ScanLinesPair(st: ScanState, a: string, b: string)
    ensures ScanLines(st, [a, b]) == Step(Step(st, a), b)
  {
    assert [a, b] == [a, b] + [];
    ScanLinesTwo(st, a, b, []);
  }

  /** A blank line only flushes the pending paragraph. */
  lemma BlankStep(st: ScanState)
    ensures Step(st, "") == Flushed(st)
  {
    assert Trim("") == "";
  }

  /** A plain trimmed line is appended to the pending paragraph with a space. */
  lemma TextStep(st: ScanState, line: string)
    requires IsTrimmed(line) && Classify(line) == TextLine
    ensures Step(st, line) == ScanState(st.blocks, st.pending + line + " ")
  {
  }

  /** A header line written as `k` hashes, a space and trimmed text reads back as that header. */
  lemma HeaderLineReads(level: nat, text: string)
    requires 1 <= level <= 6 && |text| > 0 && IsTrimmed(text) && NoLineTerminator(text)
    ensures Trim(Repeat('#', level) + " " + text) == Repeat('#', level) + " " + text
    ensures Classify(Repeat('#', level) + " " + text) == HeaderLine(level, text)
  {
    var line := Repeat('#', level) + " " + text;
    assert IsTrimmed(line) by {
      assert line[0] == '#' && line[|line| - 1] == text[|text| - 1];
    }
    HeaderLineMatches(level, text);
  }

  lemma HeaderLineMatches(level: nat, text: string)
    requires 1 <= level <= 6 && |text| > 0 && IsTrimmed(text) && NoLineTerminator(text)
    ensures HeadingMatch(Repeat('#', level) + " " + text) == Some((level, text))
  {
    var line := Repeat('#', level) + " " + text;
    assert line[level + 1..] == text;
    assert line[level + 1] == text[0] && !IsSpace(text[0]);
    assert HeadingSplit(line, level, level + 1);
    HeadingMatchIsRegexMatch(line);
  }

  /** `> ` and trimmed text reads back as a quote of that text. */
  lemma QuoteLineReads(text: string)
    requires |text| > 0 && IsTrimmed(text)
    ensures Trim("> " + text) == "> " + text
    ensures Classify("> " + text) == QuoteLine(text)
  {
    var line := "> " + text;
    assert line[0] == '>' && line[|line| - 1] == text[|text| - 1];
    NoHeadingWithoutHash(line);
    assert !StartsWith(line, "```") by {
      assert line[..3][0] == '>';
    }
    assert StartsWith(line, "> ");
    assert line[2..] == text;
  }

  /** A dash or star, a space and trimmed text becomes a one-item unordered list. */
  lemma BulletLineReads(marker: char, item: string)
    requires marker == '-' || marker == '*'
    requires |item| > 0 && IsTrimmed(item)
    ensures Trim([marker] + " " + item) == [marker] + " " + item
    ensures Classify([marker] + " " + item) == BulletLine(item)
  {
    var line := [marker] + " " + item;
    assert IsTrimmed(line) by {
      assert line[0] == marker && line[|line| - 1] == item[|item| - 1];
    }
    assert HeadingMatch(line).None? by {
      NoHeadingWithoutHash(line);
    }
    assert !StartsWith(line, "```") && !StartsWith(line, "> ") by {
      assert line[0] == marker;
    }
    assert IsBullet(line);
    assert line[1 + SpaceRun(line[1..])..] == item by {
      assert line[1..] == " " + item;
      assert SpaceRun(line[1..]) == 1 by {
        assert line[1..][1..] == item;
      }
    }
  }

  /** A bullet line flushes the pending paragraph and emits a one-item unordered list. */
  lemma BulletLineStep(st: ScanState, marker: char, item: string)
    requires marker == '-' || marker == '*'
    requires |item| > 0 && IsTrimmed(item)
    ensures Step(st, [marker] + " " + item) == ScanState(Flushed(st).blocks + [List(false, [item])], "")
  {
    BulletLineReads(marker, item);
  }

  /** Each bullet line becomes its own one-item list: consecutive bullets are never merged. */
  lemma BulletLinesStaySeparate(acc: seq<Block>, a: string, b: string)
    requires |a| > 0 && IsTrimmed(a) && |b| > 0 && IsTrimmed(b)
    ensures ScanLines(ScanState(acc, ""), ["- " + a, "- " + b])
         == ScanState(acc + [List(false, [a]), List(false, [b])], "")
  {
    var st := ScanState(acc, "");
    var st1 := ScanState(acc + [List(false, [a])], "");
    var st2 := ScanState(acc + [List(false, [a]), List(false, [b])], "");
    assert Step(st, "- " + a) == st1 by {
      DashStep(acc, a);
    }
    assert Step(st1, "- " + b) == st2 by {
      DashStep(st1.blocks, b);
      AppendTwo(acc, List(false, [a]), List(false, [b]));
    }
    ScanLinesPair(st, "- " + a, "- " + b);
  }

  lemma AppendTwo<T>(s: seq<T>, x: T, y: T)
    ensures s + [x] + [y] == s + [x, y]
  {
  }

  /** A dash bullet on a scan with nothing pending appends its one-item list. */
  lemma DashStep(acc: seq<Block>, item: string)
    requires |item| > 0 && IsTrimmed(item)
    ensures Step(ScanState(acc, ""), "- " + item) == ScanState(acc + [List(false, [item])], "")
  {
    assert ['-'] + " " + item == "- " + item;
    BulletLineStep(ScanState(acc, ""), '-', item);
  }

  /**
    A fence line does not start a code block: it flushes the pending
    paragraph and becomes the start of the next paragraph buffer.
  */
  lemma FenceLineRestartsParagraph(st: ScanState, raw: string)
    requires StartsWith(Trim(raw), "```")
    ensures Step(st, raw) == ScanState(Flushed(st).blocks, Trim(raw) + "\n")
  {
    var line := Trim(raw);
    assert line[0] == '`';
    NoHeadingWithoutHash(line);
  }

  // -------------------------------------------------------- round trip

  /** The blocks whose markdown the scanner reads back exactly. */
  predicate ReadsBack(b: Block) {
    match b
    case Header(level, text) => 1 <= level <= 6 && |text| > 0 && IsTrimmed(text) && NoLineTerminator(text)
    case Quote(text) => |text| > 0 && IsTrimmed(text) && '\n' !in text
    case Paragraph(text) => |text| > 0 && IsTrimmed(text) && '\n' !in text && Classify(text) == TextLine
    case _ => false
  }

  /** The one markdown line a block that reads back is written as. */
  function BlockLine(b: Block): (line: string)
    requires ReadsBack(b)
    ensures Fragment(b) == Some(line + "\n\n")
    ensures '\n' !in line
  {
    match b
    case Header(level, text) =>
      var line := Repeat('#', level) + " " + text;
      assert forall i :: level < i < |line| ==> line[i] == text[i - level - 1];
      line
    case Quote(text) =>
      var line := "> " + text;
      assert forall i :: 2 <= i < |line| ==> line[i] == text[i - 2];
      line
    case Paragraph(text) => text
  }

  /** A header's line emits that header. */
  lemma HeaderBlockStep(acc: seq<Block>, level: nat, text: string)
    requires 1 <= level <= 6 && |text| > 0 && IsTrimmed(text) && NoLineTerminator(text)
    ensures Step(ScanState(acc, ""), Repeat('#', level) + " " + text) == ScanState(acc + [Header(level, text)], "")
  {
    HeaderLineReads(level, text);
    StepBy(ScanState(acc, ""), Repeat('#', level) + " " + text, HeaderLine(level, text));
  }

  /** A quote's line emits that quote. */
  lemma QuoteBlockStep(acc: seq<Block>, text: string)
    requires |text| > 0 && IsTrimmed(text)
    ensures Step(ScanState(acc, ""), "> " + text) == ScanState(acc + [Quote(text)], "")
  {
    QuoteLineReads(text);
    StepBy(ScanState(acc, ""), "> " + text, QuoteLine(text));
  }

  /** A paragraph's line opens the pending paragraph. */
  lemma ParagraphBlockStep(acc: seq<Block>, text: string)
    requires IsTrimmed(text) && Classify(text) == TextLine
    ensures Step(ScanState(acc, ""), text) == ScanState(acc, text + " ")
  {
    StepBy(ScanState(acc, ""), text, TextLine);
    assert "" + text + " " == text + " ";
  }

  /** The blank line after a paragraph's line flushes it as that paragraph. */
  lemma ParagraphBlankStep(acc: seq<Block>, text: string)
    requires |text| > 0 && IsTrimmed(text)
    ensures Step(ScanState(acc, text + " "), "") == ScanState(acc + [Paragraph(text)], "")
  {
    BlankStep(ScanState(acc, text + " "));
    TrimDropsTrailingSpace(text, " ");
  }

  /** The line of a block, then a blank line, appends exactly that block. */
  lemma BlockLinesRead(acc: seq<Block>, b: Block)
    requires ReadsBack(b)
    ensures Step(Step(ScanState(acc, ""), BlockLine(b)), "") == ScanState(acc + [b], "")
  {
    match b
    case Header(level, text) =>
      HeaderBlockStep(acc, level, text);
      BlankStep(ScanState(acc + [b], ""));
    case Quote(text) =>
      QuoteBlockStep(acc, text);
      BlankStep(ScanState(acc + [b], ""));
    case Paragraph(text) =>
      ParagraphBlockStep(acc, text);
      ParagraphBlankStep(acc, text);
  }

  /** A line, a blank line and more text split into the line, an empty line and the rest's lines. */
  lemma SplitBlockLine(line: string, rest: string)
    requires '\n' !in line
    ensures Split(line + "\n\n" + rest, '\n') == [line, ""] + Split(rest, '\n')
  {
    assert line + "\n\n" + rest == line + ['\n'] + ("" + ['\n'] + rest);
    SplitAfterPiece(line, "" + ['\n'] + rest, '\n');
    SplitAfterPiece("", rest, '\n');
    assert [line] + ([""] + Split(rest, '\n')) == [line, ""] + Split(rest, '\n');
  }

  lemma SerializeCons(bs: seq<Block>)
    requires |bs| > 0 && Serialize(bs).Some?
    ensures Serialize(bs[1..]).Some?
    ensures Serialize(bs).value == Fragment(bs[0]).value + Serialize(bs[1..]).value
  {
  }

  /** Scanning one block's markdown, then the rest, appends the block and goes on with the rest. */
  lemma RoundTripStep(acc: seq<Block>, b: Block, rest: string, final: ScanState)
    requires ReadsBack(b)
    requires ScanLines(ScanState(acc + [b], ""), Split(rest, '\n')) == final
    ensures ScanLines(ScanState(acc, ""), Split(BlockLine(b) + "\n\n" + rest, '\n')) == final
  {
    var line := BlockLine(b);
    var lines := Split(rest, '\n');
    var st := ScanState(acc, "");
    SplitBlockLine(line, rest);
    ScanLinesTwo(st, line, "", lines);
    BlockLinesRead(acc, b);
  }

  /** Empty markdown is one empty line, which changes nothing when nothing is pending. */
  lemma ScanEmpty(acc: seq<Block>)
    ensures ScanLines(ScanState(acc, ""), Split("", '\n')) == ScanState(acc, "")
  {
    assert Split("", '\n') == [""];
    assert Step(ScanState(acc, ""), "") == ScanState(acc, "");
  }

  /** Blocks that read back serialise, the first as its line and a blank line. */
  lemma SerializeReadsBack(bs: seq<Block>)
    requires |bs| > 0
    requires forall i :: 0 <= i < |bs| ==> ReadsBack(bs[i])
    ensures Serialize(bs).Some? && Serialize(bs[1..]).Some?
    ensures Serialize(bs).value == BlockLine(bs[0]) + "\n\n" + Serialize(bs[1..]).value
    ensures forall i :: 0 <= i < |bs[1..]| ==> ReadsBack(bs[1..][i])
  {
    forall i | 0 <= i < |bs| ensures Fragment(bs[i]).Some? {
      var _ := BlockLine(bs[i]);
    }
    SerializeCons(bs);
    forall i | 0 <= i < |bs[1..]| ensures ReadsBack(bs[1..][i]) {
      assert bs[1..][i] == bs[i + 1];
    }
  }

  lemma {:induction false} RoundTripFrom(acc: seq<Block>, bs: seq<Block>)
    requires forall i :: 0 <= i < |bs| ==> ReadsBack(bs[i])
    ensures Serialize(bs).Some?
    ensures ScanLines(ScanState(acc, ""), Split(Serialize(bs).value, '\n')) == ScanState(acc + bs, "")
    decreases |bs|
  {
    if |bs| == 0 {
      ScanEmpty(acc);
      assert acc + bs == acc;
    } else {
      var b, tail := bs[0], bs[1..];
      assert Serialize(bs).Some? && Serialize(tail).Some?
        && Serialize(bs).value == BlockLine(b) + "\n\n" + Serialize(tail).value
        && forall i :: 0 <= i < |tail| ==> ReadsBack(tail[i])
      by {
        SerializeReadsBack(bs);
      }
      var rest := Serialize(tail).value;
      assert ScanLines(ScanState(acc + [b], ""), Split(rest, '\n')) == ScanState(acc + bs, "") by {
        RoundTripFrom(acc + [b], tail);
        assert acc + [b] + tail == acc + bs;
      }
      RoundTripStep(acc, b, rest, ScanState(acc + bs, ""));
    }
  }

  /**
    Headers of level 1 to 6, quotes and plain paragraphs, each with trimmed
    single-line text, survive serialising to markdown and scanning back.
  */
  lemma BlocksRoundTrip(bs: seq<Block>)
    requires forall i :: 0 <= i < |bs| ==> ReadsBack(bs[i])
    ensures Serialize(bs).Some?
    ensures MarkdownToBlocks(Serialize(bs).value) == bs
  {
    RoundTripFrom([], bs);
    assert [] + bs == bs;
  }

  /** The markdown of a one-line code block splits into its five lines. */
  lemma CodeBlockLines(lang: string, code: string)
    requires '\n' !in lang && '\n' !in code
    ensures Split("```" + lang + "\n" + code + "\n```\n\n", '\n')
         == ["```" + lang] + ([code] + (["```"] + ([""] + [""])))
  {
    var open := "```" + lang;
    var md := "```" + lang + "\n" + code + "\n```\n\n";
    assert md == open + ['\n'] + (code + ['\n'] + ("```" + ['\n'] + ("" + ['\n'] + "")));
    assert '\n' !in open by {
      assert forall i :: 3 <= i < |open| ==> open[i] == lang[i - 3];
    }
    SplitAfterPiece(open, code + ['\n'] + ("```" + ['\n'] + ("" + ['\n'] + "")), '\n');
    SplitAfterPiece(code, "```" + ['\n'] + ("" + ['\n'] + ""), '\n');
    SplitAfterPiece("```", "" + ['\n'] + "", '\n');
    SplitAfterPiece("", "", '\n');
  }

  /** The opening fence, with its language, starts the paragraph buffer. */
  lemma CodeOpenStep(lang: string)
    requires IsTrimmed(lang)
    ensures Step(ScanState([], ""), "```" + lang) == ScanState([], "```" + lang + "\n")
  {
    var open := "```" + lang;
    assert IsTrimmed(open) by {
      assert open[0] == '`' && open[|open| - 1] == (if |lang| == 0 then '`' else lang[|lang| - 1]);
    }
    assert open[..3] == "```";
    FenceLineRestartsParagraph(ScanState([], ""), open);
  }

  /** A bare fence line flushes the pending paragraph and starts a new one. */
  lemma BareFenceStep(st: ScanState)
    ensures Step(st, "```") == ScanState(Flushed(st).blocks, "```\n")
  {
    assert Trim("```") == "```";
    assert "```"[..3] == "```";
    FenceLineRestartsParagraph(st, "```");
  }

  /** A pending fence line, trimmed, is the bare fence. */
  lemma TrimFenceLine()
    ensures Trim("```\n") == "```"
  {
    TrimDropsTrailingSpace("```", "\n");
  }

  /** The closing fence flushes the buffered fence and code line as one paragraph. */
  lemma CodeCloseStep(open: string, code: string)
    requires |open| > 0 && open[0] == '`'
    requires |code| > 0 && IsTrimmed(code)
    ensures Step(ScanState([], open + "\n" + code + " "), "```")
         == ScanState([Paragraph(open + "\n" + code)], "```\n")
  {
    var para := open + "\n" + code;
    var st := ScanState([], para + " ");
    assert IsTrimmed(para) && |para| > 0 by {
      assert para[0] == '`' && para[|para| - 1] == code[|code| - 1];
    }
    assert Flushed(st).blocks == [Paragraph(para)] by {
      TrimDropsTrailingSpace(para, " ");
    }
    BareFenceStep(st);
  }

  /** The blank line after the closing fence flushes the fence as a paragraph of its own. */
  lemma CodeBlankStep(bs: seq<Block>)
    ensures Step(ScanState(bs, "```\n"), "") == ScanState(bs + [Paragraph("```")], "")
  {
    TrimFenceLine();
    BlankStep(ScanState(bs, "```\n"));
  }

  /** From the closing fence on, the scan flushes the code paragraph and then the fence. */
  lemma CodeTailScan(open: string, code: string)
    requires |open| > 0 && open[0] == '`'
    requires |code| > 0 && IsTrimmed(code)
    ensures ScanLines(ScanState([], open + "\n" + code + " "), ["```"] + ([""] + [""]))
         == ScanState([Paragraph(open + "\n" + code), Paragraph("```")], "")
  {
    var s2 := ScanState([], open + "\n" + code + " ");
    var s3 := ScanState([Paragraph(open + "\n" + code)], "```\n");
    var s4 := ScanState([Paragraph(open + "\n" + code), Paragraph("```")], "");
    CodeCloseStep(open, code);
    CodeBlankStep([Paragraph(open + "\n" + code)]);
    BlankStep(s4);
    ScanLinesCons(s2, "```", [""] + [""]);
    ScanLinesCons(s3, "", [""]);
    assert [""] == [""] + [];
    ScanLinesCons(s4, "", []);
  }

  /** The scan of a one-line code block: the fences open and close a paragraph buffer. */
  lemma CodeBlockScan(lang: string, code: string)
    requires IsTrimmed(lang)
    requires |code| > 0 && IsTrimmed(code) && Classify(code) == TextLine
    ensures ScanLines(ScanState([], ""), ["```" + lang] + ([code] + (["```"] + ([""] + [""]))))
         == ScanState([Paragraph("```" + lang + "\n" + code), Paragraph("```")], "")
  {
    var open := "```" + lang;
    var s1 := ScanState([], open + "\n");
    CodeOpenStep(lang);
    TextStep(s1, code);
    ScanLinesCons(ScanState([], ""), open, [code] + (["```"] + ([""] + [""])));
    ScanLinesCons(s1, code, ["```"] + ([""] + [""]));
    CodeTailScan(open, code);
  }

  /**
    A code block does not come back: its opening fence restarts the
    paragraph buffer, the code line joins it, and the closing fence flushes
    it, so a one-line code block reads back as two paragraphs.
  */
  lemma CodeBlockDoesNotRoundTrip(lang: string, code: string)
    requires '\n' !in lang && IsTrimmed(lang)
    requires |code| > 0 && '\n' !in code && IsTrimmed(code) && Classify(code) == TextLine
    ensures Serialize([Code(lang, code)]) == Some("```" + lang + "\n" + code + "\n```\n\n")
    ensures MarkdownToBlocks("```" + lang + "\n" + code + "\n```\n\n")
         == [Paragraph("```" + lang + "\n" + code), Paragraph("```")]
  {
    var md := "```" + lang + "\n" + code + "\n```\n\n";
    assert Serialize([Code(lang, code)]) == Some(md) by {
      assert [Code(lang, code)][1..] == [];
      assert md + "" == md;
    }
    CodeBlockLines(lang, code);
    CodeBlockScan(lang, code);
    assert Trim("") == "";
  }

  /** At the end, a pending line and its space become a paragraph of that line. */
  lemma FinishPending(bs: seq<Block>, text: string)
    requires |text| > 0 && IsTrimmed(text)
    ensures Finish(ScanState(bs, text + " ")) == bs + [Paragraph(text)]
  {
    TrimDropsTrailingSpace(text, " ");
  }

  /** The markdown of a header, a blank line and a paragraph line splits into those three lines. */
  lemma HeaderParagraphLines(level: nat, title: string, para: string)
    requires '\n' !in title && '\n' !in para
    ensures Split(Repeat('#', level) + " " + title + "\n\n" + para, '\n')
         == [Repeat('#', level) + " " + title] + ([""] + [para])
  {
    var head := Repeat('#', level) + " " + title;
    var md := head + "\n\n" + para;
    assert '\n' !in head by {
      assert forall i :: level < i < |head| ==> head[i] == title[i - level - 1];
    }
    assert md == head + ['\n'] + ("" + ['\n'] + para);
    SplitAfterPiece(head, "" + ['\n'] + para, '\n');
    SplitAfterPiece("", para, '\n');
    SplitWithoutSeparator(para, '\n');
  }

  /**
    A header line, a blank line and a plain line read as the header and a
    paragraph, however the paragraph line ends.
  */
  lemma HeaderThenParagraph(level: nat, title: string, para: string)
    requires 1 <= level <= 6 && |title| > 0 && IsTrimmed(title) && NoLineTerminator(title)
    requires |para| > 0 && '\n' !in para && IsTrimmed(para) && Classify(para) == TextLine
    ensures MarkdownToBlocks(Repeat('#', level) + " " + title + "\n\n" + para)
         == [Header(level, title), Paragraph(para)]
  {
    var head := Repeat('#', level) + " " + title;
    var lines := [head] + ([""] + [para]);
    var s0 := ScanState([], "");
    var s1 := ScanState([Header(level, title)], "");
    var s2 := ScanState([Header(level, title)], para + " ");
    assert Split(head + "\n\n" + para, '\n') == lines by {
      HeaderParagraphLines(level, title, para);
    }
    assert ScanLines(s0, lines) == s2 by {
      assert Step(s0, head) == s1 by {
        HeaderBlockStep([], level, title);
      }
      assert Step(s1, "") == s1 by {
        BlankStep(s1);
      }
      assert Step(s1, para) == s2 by {
        ParagraphBlockStep([Header(level, title)], para);
      }
      ScanLinesThree(s0, head, "", para);
    }
    assert Finish(s2) == [Header(level, title), Paragraph(para)] by {
      FinishPending([Header(level, title)], para);
    }
  }
}

=== FILE: editor_blocks.dfy ===
/**
  The Editor.js-style block list and its serialisation to markdown
  (`editorJsToMarkdown` in scripts/format-converter.js): one markdown
  fragment per block, concatenated in order.
*/
module EditorBlocks {
  import opened Options
  import opened JsString

  /**
    One block of an Editor.js document. `Other` stands for a block whose
    `type` the serialiser does not know; `ordered` is `style === 'ordered'`;
    a missing code language is the empty string, as `language || ''` reads it.
  */
  datatype Block =
    | Header(level: int, text: string)
    | Paragraph(text: string)
    | List(ordered: bool, items: seq<string>)
    | Code(language: string, code: string)
    | Quote(text: string)
    | Other(kind: string)

  predicate EndsWithBlankLine(s: string) {
    |s| >= 2 && s[|s| - 2..] == "\n\n"
  }

  /** The marker of list item `index`: `1. `, `2. `, ... when ordered, `- ` otherwise. */
  function ItemMarker(ordered: bool, index: nat): string {
    if ordered then Decimal(index + 1) + ". " else "- "
  }

  /** The rendered lines of a list, item by item. */
  function ItemLines(ordered: bool, items: seq<string>): (r: seq<string>)
    ensures |r| == |items|
    ensures forall i :: 0 <= i < |items| ==> r[i] == ItemMarker(ordered, i) + items[i]
    decreases |items|
  {
    if |items| == 0 then []
    else ItemLines(ordered, items[..|items| - 1]) + [ItemMarker(ordered, |items| - 1) + items[|items| - 1]]
  }

  /**
    The markdown fragment of one block. A header with a negative level makes
    `'#'.repeat` throw a RangeError, modelled as `None`; every other known
    block ends in a blank line and an unknown block contributes nothing.
  */
  function Fragment(b: Block): (r: Option<string>)
    ensures r.None? <==> b.Header? && b.level < 0
    ensures r.Some? && !b.Other? ==> EndsWithBlankLine(r.value)
    ensures b.Other? ==> r == Some("")
  {
    match b
    case Header(level, text) =>
      if level < 0 then None else Some(Repeat('#', level) + " " + text + "\n\n")
    case Paragraph(text) => Some(text + "\n\n")
    case List(ordered, items) => Some(Join(ItemLines(ordered, items), "\n") + "\n\n")
    case Code(language, code) => Some("```" + language + "\n" + code + "\n```\n\n")
    case Quote(text) => Some("> " + text + "\n\n")
    case Other(_) => Some("")
  }

  /**
    The markdown of a block array: the fragments in order, or `None` when
    some block throws.
  */
  function Serialize(bs: seq<Block>): (r: Option<string>)
    ensures r.Some? <==> forall i :: 0 <= i < |bs| ==> Fragment(bs[i]).Some?
    decreases |bs|
  {
    if |bs| == 0 then Some("")
    else
      var head, tail := Fragment(bs[0]), Serialize(bs[1..]);
      assert forall i :: 0 <= i < |bs| - 1 ==> bs[1..][i] == bs[i + 1];
      if head.Some? && tail.Some? then Some(head.value + tail.value) else None
  }

  /** Serialising a concatenation concatenates the two serialisations. */
  lemma {:induction false} SerializeAppend(a: seq<Block>, b: seq<Block>)
    requires Serialize(a).Some? && Serialize(b).Some?
    ensures Serialize(a + b) == Some(Serialize(a).value + Serialize(b).value)
    decreases |a|
  {
    if |a| == 0 {
      assert a + b == b;
      assert Serialize(a).value == "";
      assert "" + Serialize(b).value == Serialize(b).value;
    } else {
      assert (a + b)[0] == a[0];
      assert (a + b)[1..] == a[1..] + b;
      assert Serialize(a[1..]).Some? by {
        assert forall i :: 0 <= i < |a[1..]| ==> a[1..][i] == a[i + 1];
      }
      SerializeAppend(a[1..], b);
      var f := Fragment(a[0]).value;
      assert Serialize(a).value == f + Serialize(a[1..]).value;
      assert Serialize(a + b).value == f + Serialize(a[1..] + b).value;
      assert f + (Serialize(a[1..]).value + Serialize(b).value)
          == (f + Serialize(a[1..]).value) + Serialize(b).value;
    }
  }

  /** A block of unknown type leaves no trace in the markdown. */
  lemma UnknownBlockVanishes(a: seq<Block>, kind: string, b: seq<Block>)
    requires Serialize(a).Some? && Serialize(b).Some?
    ensures Serialize(a + [Other(kind)] + b) == Serialize(a + b)
  {
    var ob := [Other(kind)] + b;
    assert ob[0] == Other(kind) && ob[1..] == b;
    assert Fragment(ob[0]) == Some("");
    assert Serialize(ob) == Some("" + Serialize(b).value);
    assert "" + Serialize(b).value == Serialize(b).value;
    SerializeAppend(a, ob);
    SerializeAppend(a, b);
    assert a + [Other(kind)] + b == a + ob;
  }

  /** The markdown of a list splits back at its newlines into one line per item. */
  lemma ListLinesSplit(ordered: bool, items: seq<string>)
    requires |items| >= 1
    requires forall i :: 0 <= i < |items| ==> '\n' !in items[i]
    ensures Split(Join(ItemLines(ordered, items), "\n"), '\n') == ItemLines(ordered, items)
  {
    var lines := ItemLines(ordered, items);
    forall i | 0 <= i < |lines|
      ensures '\n' !in lines[i]
    {
      var m := ItemMarker(ordered, i);
      assert '\n' !in m by {
        if ordered {
          var d := Decimal(i + 1);
          assert forall j :: 0 <= j < |d| ==> IsDigit(d[j]);
        }
      }
      assert lines[i] == m + items[i];
    }
    SplitJoin(lines, '\n');
  }
}

=== FILE: editor_markdown.dfy ===
/**
  `UnifiedEditor.markdownToHtml` (scripts/unified-editors.js): the
  editor's own preview chain. It shares the heading and emphasis passes
  with the converter's fallback chain, then renders images, links, quotes
  and list items line by line, turns blank lines into paragraph breaks and
  the remaining newlines into `<br>`, and finally runs four list clean-up
  passes.
*/
module EditorMarkdown {
  import opened JsString
  import opened RegexPasses
  import opened HtmlConversion

  /** The opening tag `^> (.*$)` is rendered with. */
  const BlockquoteOpen: string :=
    "<blockquote style=\"border-left: 4px solid #007bff; padding-left: 15px; margin: 10px 0; color: #666;\">"

  /** `!\[(.*?)\]\((.*?)\)` then `\[(.*?)\]\((.*?)\)`. */
  function LinkPasses(s: string): string {
    MapLines(MapLines(s, LinkRule("![", true)), LinkRule("[", false))
  }

  /** `^> (.*$)`, `^- (.*$)` and `^(\d+)\. (.*$)`, under the `m` flag. */
  function BlockPasses(s: string): string {
    var quoted := MapLines(s, PrefixRule("> ", BlockquoteOpen, "</blockquote>"));
    var bulleted := MapLines(quoted, PrefixRule("- ", "<ul><li>", "</li></ul>"));
    MapLines(bulleted, OrderedItemRule())
  }

  /** `/\n\n/g` replaced by `</p><p>`. */
  function ParagraphBreaks(s: string): string {
    ReplaceAll(s, "\n\n", "</p><p>")
  }

  /** The four `<ul>\s*<li>`-style passes that close the chain. */
  function ListTidy(s: string): string {
    var a := SpacedPairs(s, "<ul>", "<li>", "<ul><li>");
    var b := SpacedPairs(a, "</li>", "<ul>", "</li></ul><ul>");
    var c := SpacedPairs(b, "<ol>", "<li>", "<ol><li>");
    SpacedPairs(c, "</li>", "<ol>", "</li></ol><ol>")
  }

  /** The clean-up passes bring no newline in. */
  lemma ListTidyKeepsNewlineOut(s: string)
    requires '\n' !in s
    ensures '\n' !in ListTidy(s)
  {
    var a := SpacedPairs(s, "<ul>", "<li>", "<ul><li>");
    var b := SpacedPairs(a, "</li>", "<ul>", "</li></ul><ul>");
    var c := SpacedPairs(b, "<ol>", "<li>", "<ol><li>");
    SpacedPairsKeepsOut(s, "<ul>", "<li>", "<ul><li>", '\n');
    SpacedPairsKeepsOut(a, "</li>", "<ul>", "</li></ul><ul>", '\n');
    SpacedPairsKeepsOut(b, "<ol>", "<li>", "<ol><li>", '\n');
    SpacedPairsKeepsOut(c, "</li>", "<ol>", "</li></ol><ol>", '\n');
  }

  /** The chain's stages in the order it runs them, each a run of consecutive `.replace` calls. */
  const Chain: seq<string -> string> :=
    [HeadingPasses, EmphasisPasses, LinkPasses, BlockPasses, ParagraphBreaks, NewlinesToBr, ListTidy]

  /** Runs the stages in order, each on the output of the one before. */
  function RunStages(stages: seq<string -> string>, s: string): string
    decreases |stages|
  {
    if |stages| == 0 then s else stages[|stages| - 1](RunStages(stages[..|stages| - 1], s))
  }

  lemma RunStagesSnoc(init: seq<string -> string>, f: string -> string, s: string)
    ensures RunStages(init + [f], s) == f(RunStages(init, s))
  {
    assert (init + [f])[..|init|] == init;
  }

  /** Seven stages, written out as nested calls. */
  lemma RunSeven(f1: string -> string, f2: string -> string, f3: string -> string, f4: string -> string,
                 f5: string -> string, f6: string -> string, f7: string -> string, s: string)
    ensures RunStages([f1, f2, f3, f4, f5, f6, f7], s) == f7(f6(f5(f4(f3(f2(f1(s)))))))
  {
    var c1 := [f1];
    var c2 := c1 + [f2];
    var c3 := c2 + [f3];
    var c4 := c3 + [f4];
    var c5 := c4 + [f5];
    var c6 := c5 + [f6];
    assert [f1, f2, f3, f4, f5, f6, f7] == c6 + [f7];
    RunStagesSnoc([], f1, s);
    assert c1 == [] + [f1];
    RunStagesSnoc(c1, f2, s);
    RunStagesSnoc(c2, f3, s);
    RunStagesSnoc(c3, f4, s);
    RunStagesSnoc(c4, f5, s);
    RunStagesSnoc(c5, f6, s);
    RunStagesSnoc(c6, f7, s);
  }

  /** The chain, written out stage by stage. */
  lemma ChainUnrolled(md: string)
    ensures RunStages(Chain, md)
      == ListTidy(NewlinesToBr(ParagraphBreaks(BlockPasses(LinkPasses(EmphasisPasses(HeadingPasses(md)))))))
  {
    RunSeven(HeadingPasses, EmphasisPasses, LinkPasses, BlockPasses, ParagraphBreaks, NewlinesToBr, ListTidy, md);
  }

  /** The whole chain. Every newline has become a `<br>` or a paragraph break. */
  function EditorMarkdownToHtml(md: string): (html: string)
    ensures '\n' !in html
  {
    ChainUnrolled(md);
    var broken := NewlinesToBr(ParagraphBreaks(BlockPasses(LinkPasses(EmphasisPasses(HeadingPasses(md))))));
    ListTidyKeepsNewlineOut(broken);
    RunStages(Chain, md)
  }

  // ------------------------------------------------------------ lemmas

  /**
    Prose the chain has nothing to do to: no heading, emphasis, code, link,
    quote or list marker, no digit, no tag and no line break.
  */
  predicate Prose(s: string) {
    forall i :: 0 <= i < |s| ==> s[i] !in "#*`[!>-<" && !IsDigit(s[i]) && !IsLineTerminator(s[i])
  }

  lemma LinkPassIdentity(s: string, lead: string, image: bool)
    requires |lead| > 0 && !IsLetter(lead[0]) && lead[0] !in s
    ensures MapLines(s, LinkRule(lead, image)) == s
  {
    var c := lead[0];
    LinesInherit(s, x => x != c);
    forall l | l in Lines(s)
      ensures LinkRule(lead, image)(l) == l
    {
      assert c !in l by {
        forall i | 0 <= i < |l| ensures l[i] != c { }
      }
      LinkLineIdentity(l, lead, image);
    }
    MapLinesIdentity(s, LinkRule(lead, image));
  }

  lemma OrderedItemIdentity(s: string)
    requires forall i :: 0 <= i < |s| ==> !IsDigit(s[i])
    ensures MapLines(s, OrderedItemRule()) == s
  {
    LinesInherit(s, x => !IsDigit(x));
    forall l | l in Lines(s)
      ensures OrderedItemRule()(l) == l
    {
      assert DigitRun(l) == 0;
    }
    MapLinesIdentity(s, OrderedItemRule());
  }

  /** Prose goes through every pass before the paragraph breaks untouched. */
  lemma ProseUntilBreaks(s: string)
    requires forall i :: 0 <= i < |s| ==> s[i] !in "#*`[!>-<" && !IsDigit(s[i])
    ensures BlockPasses(LinkPasses(EmphasisPasses(HeadingPasses(s)))) == s
  {
    assert '#' !in s && '*' !in s && '`' !in s && '[' !in s && '!' !in s && '>' !in s && '-' !in s by {
      assert forall i :: 0 <= i < |s| ==>
        s[i] != '#' && s[i] != '*' && s[i] != '`' && s[i] != '[' && s[i] != '!' && s[i] != '>' && s[i] != '-';
    }
    HeadingPassesIdentity(s);
    EmphasisPassesIdentity(s);
    LinkPassIdentity(s, "![", true);
    LinkPassIdentity(s, "[", false);
    PrefixRuleIdentity(s, "> ", BlockquoteOpen, "</blockquote>");
    PrefixRuleIdentity(s, "- ", "<ul><li>", "</li></ul>");
    OrderedItemIdentity(s);
  }

  /** A pattern met right after a stretch free of its first character is the first replacement. */
  lemma {:induction false} ReplaceAllAfter(a: string, pat: string, repl: string, b: string)
    requires |pat| > 0 && !IsLetter(pat[0]) && pat[0] !in a
    requires forall k :: 0 <= k < |pat| ==> Fold(pat[k]) == pat[k]
    ensures ReplaceAll(a + pat + b, pat, repl) == a + repl + ReplaceAll(b, pat, repl)
    decreases |a|
  {
    var s := a + pat + b;
    if |a| == 0 {
      assert s == pat + b;
      assert MatchesAt(s, 0, pat) by {
        assert forall k :: 0 <= k < |pat| ==> s[k] == pat[k];
      }
      assert s[|pat|..] == b;
    } else {
      FoldNonLetter(s[0 + 0], pat[0]);
      assert s[0] == a[0];
      assert s[1..] == a[1..] + pat + b;
      ReplaceAllAfter(a[1..], pat, repl, b);
      assert a == [a[0]] + a[1..];
    }
  }

  /**
    In `a</p><p>b` with tag-free `a` and `b`, a pattern that opens with `<`
    and continues with neither `p` nor `/p` matches nowhere.
  */
  lemma BreakSeamHasNoTag(a: string, b: string, pat: string)
    requires '<' !in a && '<' !in b
    requires |pat| >= 3 && pat[0] == '<' && pat[1] != 'p' && (pat[1] == '/' ==> pat[2] != 'p')
    ensures forall i :: 0 <= i < |a + "</p><p>" + b| ==> !MatchesAt(a + "</p><p>" + b, i, pat)
  {
    var x := a + "</p><p>" + b;
    assert forall j :: 0 <= j < |a| ==> x[j] == a[j];
    assert forall j :: |a| + 7 <= j < |x| ==> x[j] == b[j - |a| - 7];
    forall i | 0 <= i < |x|
      ensures !MatchesAt(x, i, pat)
    {
      FoldNonLetter(x[i + 0], '<');
      if x[i] == '<' && i + |pat| <= |x| {
        assert i == |a| || i == |a| + 4;
        if i == |a| {
          assert Fold(x[i + 1]) == '/' && Fold(x[i + 2]) == 'p';
        } else {
          assert Fold(x[i + 1]) == 'p';
        }
      }
    }
  }

  /** The blank line between two newline-free paragraphs is the only paragraph break. */
  lemma BreakBetween(a: string, b: string)
    requires '\n' !in a && '\n' !in b
    ensures ParagraphBreaks(a + "\n\n" + b) == a + "</p><p>" + b
  {
    ReplaceAllAfter(a, "\n\n", "</p><p>", b);
    ReplaceAllIdentity(b, "\n\n", "</p><p>");
  }

  /** Tag-free paragraphs around a paragraph break leave the list clean-up nothing to do. */
  lemma TidyAroundBreak(a: string, b: string)
    requires '<' !in a && '<' !in b
    ensures ListTidy(a + "</p><p>" + b) == a + "</p><p>" + b
  {
    var x := a + "</p><p>" + b;
    BreakSeamHasNoTag(a, b, "<ul>");
    BreakSeamHasNoTag(a, b, "</li>");
    BreakSeamHasNoTag(a, b, "<ol>");
    SpacedPairsIdentity(x, "<ul>", "<li>", "<ul><li>");
    SpacedPairsIdentity(x, "</li>", "<ul>", "</li></ul><ul>");
    SpacedPairsIdentity(x, "<ol>", "<li>", "<ol><li>");
    SpacedPairsIdentity(x, "</li>", "<ol>", "</li></ol><ol>");
  }

  lemma ProseAroundBlankLine(a: string, b: string)
    requires Prose(a) && Prose(b)
    ensures forall i :: 0 <= i < |a + "\n\n" + b| ==>
      (a + "\n\n" + b)[i] !in "#*`[!>-<" && !IsDigit((a + "\n\n" + b)[i])
  {
    var s := a + "\n\n" + b;
    forall i | 0 <= i < |s|
      ensures s[i] !in "#*`[!>-<" && !IsDigit(s[i])
    {
      if i < |a| {
        assert s[i] == a[i];
      } else if i >= |a| + 2 {
        assert s[i] == b[i - |a| - 2];
      }
    }
  }

  /** Two prose paragraphs separated by a blank line render around a paragraph break. */
  lemma ProseParagraphs(a: string, b: string)
    requires Prose(a) && Prose(b)
    ensures EditorMarkdownToHtml(a + "\n\n" + b) == a + "</p><p>" + b
  {
    ProseParagraphSteps(a, b);
    ChainFixes(a + "\n\n" + b, a + "</p><p>" + b);
  }

  /** Each stage of the chain on two prose paragraphs. */
  lemma ProseParagraphSteps(a: string, b: string)
    requires Prose(a) && Prose(b)
    ensures BlockPasses(LinkPasses(EmphasisPasses(HeadingPasses(a + "\n\n" + b)))) == a + "\n\n" + b
    ensures ParagraphBreaks(a + "\n\n" + b) == a + "</p><p>" + b
    ensures NewlinesToBr(a + "</p><p>" + b) == a + "</p><p>" + b
    ensures ListTidy(a + "</p><p>" + b) == a + "</p><p>" + b
  {
    var s := a + "\n\n" + b;
    var x := a + "</p><p>" + b;
    ProseAroundBlankLine(a, b);
    ProseUntilBreaks(s);
    ProseHasNoBreakOrTag(a);
    ProseHasNoBreakOrTag(b);
    BreakBetween(a, b);
    NoNewlineAtBreak(a, b);
    ReplaceAllIdentity(x, "\n", "<br>");
    TidyAroundBreak(a, b);
  }

  lemma ProseHasNoBreakOrTag(a: string)
    requires Prose(a)
    ensures '\n' !in a && '<' !in a
  {
    assert forall i :: 0 <= i < |a| ==> a[i] != '\n' && a[i] != '<';
  }

  lemma NoNewlineAtBreak(a: string, b: string)
    requires '\n' !in a && '\n' !in b
    ensures '\n' !in a + "</p><p>" + b
  {
    var x := a + "</p><p>" + b;
    forall i | 0 <= i < |x|
      ensures x[i] != '\n'
    {
      if i < |a| {
        assert x[i] == a[i];
      } else if i >= |a| + 7 {
        assert x[i] == b[i - |a| - 7];
      }
    }
  }

  /** Text the line passes leave alone, whose only change is at the paragraph breaks, renders as those breaks. */
  lemma ChainFixes(md: string, x: string)
    requires BlockPasses(LinkPasses(EmphasisPasses(HeadingPasses(md)))) == md
    requires ParagraphBreaks(md) == x && NewlinesToBr(x) == x && ListTidy(x) == x
    ensures EditorMarkdownToHtml(md) == x
  {
    ChainUnrolled(md);
  }
}

=== FILE: editor_stats.dfy ===
/**
  The status-bar counters of `UnifiedEditor.updateStats`
  (scripts/unified-editors.js): characters, words as the non-empty pieces
  of `split(/\s+/)`, and lines as the pieces of `split('\n')`.
*/
module EditorStats {
  import opened JsString

  /**
    `s.split(/\s+/)`: the pieces between maximal runs of whitespace. A
    leading run gives an empty first piece and a trailing run an empty last
    piece, as the engine's split does.
  */
  function SplitSpaces(s: string): (r: seq<string>)
    ensures |r| >= 1
    ensures r[0] == "" <==> |s| == 0 || IsSpace(s[0])
    decreases |s|
  {
    if |s| == 0 then [""]
    else if IsSpace(s[0]) then [""] + SplitSpaces(s[SpaceRun(s)..])
    else
      var rest := SplitSpaces(s[1..]);
      [[s[0]] + rest[0]] + rest[1..]
  }

  /** `.filter(word => word.length > 0).length`. */
  function NonEmptyCount(pieces: seq<string>): nat {
    if |pieces| == 0 then 0 else (if pieces[0] != "" then 1 else 0) + NonEmptyCount(pieces[1..])
  }

  /** The word count shown in the status bar. */
  function WordCount(s: string): nat {
    NonEmptyCount(SplitSpaces(s))
  }

  /**
    The number of places where a word begins: a non-space character that
    opens the text (`afterSpace` initially true) or follows a space.
  */
  function WordStarts(s: string, afterSpace: bool): nat
    decreases |s|
  {
    if |s| == 0 then 0
    else (if afterSpace && !IsSpace(s[0]) then 1 else 0) + WordStarts(s[1..], IsSpace(s[0]))
  }

  /** `content.split('\n').length`: one more than the number of newlines. */
  function LineCount(s: string): (n: nat)
    ensures n == Count(s, '\n') + 1
  {
    SplitLength(s, '\n');
    |Split(s, '\n')|
  }

  /** The three counters `updateStats` writes, for the text it is given. */
  datatype Stats = Stats(chars: nat, words: nat, lines: nat)

  function StatsOf(content: string): (r: Stats)
    ensures r.chars == |content|
    ensures r.words == WordStarts(content, true)
    ensures r.lines == Count(content, '\n') + 1
  {
    WordsAreWordStarts(content);
    Stats(|content|, WordCount(content), LineCount(content))
  }

  // ------------------------------------------------------------ lemmas

  /** A run of spaces begins no word, and what follows it is read as after a space. */
  lemma {:induction false} SkipSpaces(s: string, afterSpace: bool, n: nat)
    requires 0 < n <= |s|
    requires forall i :: 0 <= i < n ==> IsSpace(s[i])
    ensures WordStarts(s, afterSpace) == WordStarts(s[n..], true)
    decreases n
  {
    if n > 1 {
      assert forall i :: 0 <= i < n - 1 ==> s[1..][i] == s[i + 1];
      SkipSpaces(s[1..], true, n - 1);
      assert s[1..][n - 1..] == s[n..];
    }
  }

  /** Whether the text is read as following a space matters only when it opens with a non-space. */
  lemma StartsAfterNonSpace(s: string)
    ensures WordStarts(s, true) == WordStarts(s, false) + (if |s| > 0 && !IsSpace(s[0]) then 1 else 0)
  {
  }

  /** The filter-and-count of the split equals the number of word beginnings. */
  lemma {:induction false} WordsAreWordStarts(s: string)
    ensures WordCount(s) == WordStarts(s, true)
    decreases |s|
  {
    if |s| > 0 {
      if IsSpace(s[0]) {
        var n := SpaceRun(s);
        var pieces := [""] + SplitSpaces(s[n..]);
        assert pieces[1..] == SplitSpaces(s[n..]);
        WordsAreWordStarts(s[n..]);
        SkipSpaces(s, true, n);
      } else {
        var t := s[1..];
        var rest := SplitSpaces(t);
        var pieces := [[s[0]] + rest[0]] + rest[1..];
        assert pieces[1..] == rest[1..];
        WordsAreWordStarts(t);
        StartsAfterNonSpace(t);
      }
    }
  }
}

=== FILE: format_converter.dfy ===
/**
  `FormatConverter.convert` of scripts/format-converter.js: a dispatcher on
  the route `from + '_to_' + to` whose unsupported routes and caught
  exceptions both hand the input back unchanged.
*/
module FormatConverter {
  import opened Options
  import opened JsString
  import opened EditorBlocks
  import opened BlockScanner
  import opened HtmlConversion

  /**
    The JavaScript values `convert` is handed. `Document` is an Editor.js
    document `{ time, blocks }`, `Blocks` a bare block array, `Missing`
    stands for `null` or `undefined`, and `Opaque` for any other value (a
    number, an object without usable `blocks`).
  */
  datatype Content =
    | Text(text: string)
    | Blocks(blocks: seq<Block>)
    | Document(time: int, blocks: seq<Block>)
    | Missing
    | Opaque

  /**
    `content.blocks || content`: a document yields its block array (an
    empty array is truthy); reading `blocks` of a missing value throws.
  */
  function BlocksOrSelf(content: Content): (r: Option<Content>)
    ensures r.None? <==> content.Missing?
    ensures content.Document? ==> r == Some(Blocks(content.blocks))
    ensures !content.Document? && !content.Missing? ==> r == Some(content)
  {
    match content
    case Missing => None
    case Document(_, bs) => Some(Blocks(bs))
    case _ => Some(content)
  }

  /**
    `editorJsToMarkdown`: anything but an array gives the empty string; an
    array gives its blocks' markdown, or throws (`None`) when a header
    level makes `'#'.repeat` throw.
  */
  function EditorJsToMarkdown(value: Content): (r: Option<string>)
    ensures !value.Blocks? ==> r == Some("")
    ensures value.Blocks? ==> r == Serialize(value.blocks)
  {
    match value
    case Blocks(bs) => Serialize(bs)
    case _ => Some("")
  }

  /** `markdownToEditorJs` with the clock reading `now` as its `time`. */
  function ToDocument(md: string, now: int): Content {
    Document(now, MarkdownToBlocks(md))
  }

  /** `editorJsToMarkdown(content.blocks || content)`, throwing when either step throws. */
  function EditorJsContentToMarkdown(content: Content): Option<string> {
    match BlocksOrSelf(content)
    case None => None
    case Some(v) => EditorJsToMarkdown(v)
  }

  /** The three formats the converter has rules for. */
  datatype Format = Markdown | Html | EditorJs

  /** The name a format goes by in `convert`'s arguments. */
  function FormatName(f: Format): string {
    match f
    case Markdown => "markdown"
    case Html => "html"
    case EditorJs => "editorjs"
  }

  /** The format a name stands for, if any. */
  function FormatNamed(name: string): (r: Option<Format>)
    ensures r.Some? ==> FormatName(r.value) == name
  {
    if name == "markdown" then Some(Markdown)
    else if name == "html" then Some(Html)
    else if name == "editorjs" then Some(EditorJs)
    else None
  }

  /** The string `convert` switches on. */
  function RouteName(from: string, to: string): string {
    from + "_to_" + to
  }

  /**
    The body of the `try` block for the case `a_to_b`: `Some` of what it
    returns, or `None` when it throws. A string method handed a non-string
    throws; the `default` case returns the content itself.
  */
  function Route(content: Content, a: Format, b: Format, now: int): Option<Content> {
    match a
    case Markdown => FromMarkdown(content, b, now)
    case Html => FromHtml(content, b, now)
    case EditorJs => FromEditorJs(content, b)
  }

  /** The `markdown_to_html` and `markdown_to_editorjs` cases. */
  function FromMarkdown(content: Content, b: Format, now: int): Option<Content> {
    match b
    case Html => if content.Text? then Some(Text(MarkdownToHtml(content.text))) else None
    case EditorJs => if content.Text? then Some(ToDocument(content.text, now)) else None
    case Markdown => Some(content)
  }

  /** The `html_to_markdown` and `html_to_editorjs` cases. */
  function FromHtml(content: Content, b: Format, now: int): Option<Content> {
    match b
    case Markdown => if content.Text? then Some(Text(HtmlToMarkdown(content.text))) else None
    case EditorJs => if content.Text? then Some(ToDocument(HtmlToMarkdown(content.text), now)) else None
    case Html => Some(content)
  }

  /** The `editorjs_to_markdown` and `editorjs_to_html` cases. */
  function FromEditorJs(content: Content, b: Format): Option<Content> {
    match EditorJsContentToMarkdown(content)
    case None => if b == EditorJs then Some(content) else None
    case Some(md) =>
      match b
      case Markdown => Some(Text(md))
      case Html => Some(Text(MarkdownToHtml(md)))
      case EditorJs => Some(content)
  }

  /**
    `convert(content, from, to)`, with `now` standing for `Date.now()`.
    Equal names return the input. Otherwise the switch case is the one whose
    label is `from + '_to_' + to` (see `RouteNameSplits`), and a thrown
    exception is caught and returns the input as well.
  */
  function Convert(content: Content, from: string, to: string, now: int): (r: Content)
    ensures from == to ==> r == content
    ensures FormatNamed(from).None? || FormatNamed(to).None? ==> r == content
  {
    if from == to then content
    else
      match (FormatNamed(from), FormatNamed(to))
      case (Some(a), Some(b)) =>
        (match Route(content, a, b, now)
         case Some(r) => r
         case None => content)
      case _ => content
  }

  // ------------------------------------------------------------ lemmas

  /** The three names differ (the first two at their first letter). */
  lemma FormatNamesDiffer()
    ensures "markdown" != "editorjs" && "markdown" != "html" && "html" != "editorjs"
  {
    assert "markdown"[0] != "editorjs"[0];
  }

  lemma FormatNameParses(f: Format)
    ensures FormatNamed(FormatName(f)) == Some(f)
  {
  }

  /** No format name holds an underscore. */
  lemma FormatNameNoUnderscore(f: Format)
    ensures '_' !in FormatName(f)
  {
  }

  /**
    `_to_` occurs once in a label built from two underscore-free names, so
    the label splits back into those names only.
  */
  lemma RouteNameSplits(from: string, to: string, a: string, b: string)
    requires '_' !in a && '_' !in b
    ensures RouteName(from, to) == RouteName(a, b) <==> from == a && to == b
  {
    var s := RouteName(a, b);
    if RouteName(from, to) == s {
      assert forall j :: 0 <= j < |a| ==> s[j] == a[j] && a[j] != '_';
      assert forall j :: 0 <= j < |b| ==> s[|a| + 4 + j] == b[j] && b[j] != '_';
      assert s[|from|] == '_' && s[|from| + 3] == '_';
      assert |from| == |a|;
      assert from == s[..|from|] && a == s[..|a|];
      assert to == s[|from| + 4..] && b == s[|a| + 4..];
    }
  }

  /**
    The switch takes the case labelled `a_to_b` exactly when `from` names
    `a` and `to` names `b`.
  */
  lemma SwitchCase(from: string, to: string, a: Format, b: Format)
    ensures RouteName(from, to) == RouteName(FormatName(a), FormatName(b))
        <==> FormatNamed(from) == Some(a) && FormatNamed(to) == Some(b)
  {
    FormatNameNoUnderscore(a);
    FormatNameNoUnderscore(b);
    RouteNameSplits(from, to, FormatName(a), FormatName(b));
    FormatNameParses(a);
    FormatNameParses(b);
  }

  /**
    A conversion out of markdown or HTML calls a string method, which throws
    on anything but a string: such content comes back unchanged.
  */
  lemma StringMethodKeepsNonText(content: Content, from: string, to: string, now: int)
    requires !content.Text?
    requires FormatNamed(from) == Some(Markdown) || FormatNamed(from) == Some(Html)
    ensures Convert(content, from, to, now) == content
  {
  }

  /**
    Between two different formats named by their own names, `convert` is
    the route's result, or the input when the route throws.
  */
  lemma ConvertTakesRoute(content: Content, a: Format, b: Format, now: int)
    requires a != b
    ensures Convert(content, FormatName(a), FormatName(b), now)
         == (if Route(content, a, b, now).Some? then Route(content, a, b, now).value else content)
  {
    FormatNamesDiffer();
    FormatNameParses(a);
    FormatNameParses(b);
  }

  /** Markdown to HTML on a string is the fallback chain. */
  lemma MarkdownToHtmlRoute(md: string, now: int)
    ensures Convert(Text(md), "markdown", "html", now) == Text(MarkdownToHtml(md))
  {
    ConvertTakesRoute(Text(md), Markdown, Html, now);
  }

  /** HTML to markdown on a string is the rewrite chain. */
  lemma HtmlToMarkdownRoute(html: string, now: int)
    ensures Convert(Text(html), "html", "markdown", now) == Text(HtmlToMarkdown(html))
  {
    ConvertTakesRoute(Text(html), Html, Markdown, now);
  }

  /** Markdown to Editor.js on a string is the block scan, stamped with the clock. */
  lemma MarkdownToEditorJsRoute(md: string, now: int)
    ensures Convert(Text(md), "markdown", "editorjs", now) == Document(now, MarkdownToBlocks(md))
  {
    ConvertTakesRoute(Text(md), Markdown, EditorJs, now);
    var d := ToDocument(md, now);
    assert FromMarkdown(Text(md), EditorJs, now) == Some(d);
  }

  /** HTML to Editor.js on a string is the rewrite chain and then the block scan. */
  lemma HtmlToEditorJsRoute(html: string, now: int)
    ensures Convert(Text(html), "html", "editorjs", now) == Document(now, MarkdownToBlocks(HtmlToMarkdown(html)))
  {
    ConvertTakesRoute(Text(html), Html, EditorJs, now);
    var d := ToDocument(HtmlToMarkdown(html), now);
    assert FromHtml(Text(html), EditorJs, now) == Some(d);
  }

  /**
    Editor.js to markdown: a document or a block array gives its blocks'
    markdown, any other present value the empty string, and a throwing
    header or a missing value gives the input back.
  */
  lemma EditorJsToMarkdownRoute(content: Content, now: int)
    ensures Convert(content, "editorjs", "markdown", now)
         == (if content.Missing? then content
             else if content.Blocks? || content.Document? then
               (if Serialize(content.blocks).Some? then Text(Serialize(content.blocks).value) else content)
             else Text(""))
  {
    ConvertTakesRoute(content, EditorJs, Markdown, now);
  }

  /** Editor.js to HTML: the blocks' markdown through the fallback chain, or the input when that throws. */
  lemma EditorJsToHtmlRoute(content: Content, now: int)
    ensures Convert(content, "editorjs", "html", now)
         == (if content.Missing? then content
             else if content.Blocks? || content.Document? then
               (if Serialize(content.blocks).Some? then Text(MarkdownToHtml(Serialize(content.blocks).value)) else content)
             else Text(MarkdownToHtml("")))
  {
    ConvertTakesRoute(content, EditorJs, Html, now);
    var md := EditorJsContentToMarkdown(content);
    if md.Some? {
      assert FromEditorJs(content, Html) == Some(Text(MarkdownToHtml(md.value)));
    }
  }

  /** HTML to Editor.js is HTML to markdown followed by markdown to Editor.js, on every input. */
  lemma HtmlToEditorJsPivot(content: Content, now: int)
    ensures Convert(content, "html", "editorjs", now)
         == Convert(Convert(content, "html", "markdown", now), "markdown", "editorjs", now)
  {
    if content.Text? {
      HtmlToEditorJsRoute(content.text, now);
      HtmlToMarkdownRoute(content.text, now);
      MarkdownToEditorJsRoute(HtmlToMarkdown(content.text), now);
    } else {
      StringMethodKeepsNonText(content, "html", "editorjs", now);
      StringMethodKeepsNonText(content, "html", "markdown", now);
      StringMethodKeepsNonText(content, "markdown", "editorjs", now);
    }
  }

  /** Editor.js to HTML is Editor.js to markdown followed by markdown to HTML, on every input. */
  lemma EditorJsToHtmlPivot(content: Content, now: int)
    ensures Convert(content, "editorjs", "html", now)
         == Convert(Convert(content, "editorjs", "markdown", now), "markdown", "html", now)
  {
    EditorJsToHtmlRoute(content, now);
    EditorJsToMarkdownRoute(content, now);
    var mid := Convert(content, "editorjs", "markdown", now);
    if mid.Text? {
      MarkdownToHtmlRoute(mid.text, now);
    } else {
      StringMethodKeepsNonText(mid, "markdown", "html", now);
    }
  }

  /** A header with a negative level throws inside the `try`: the document comes back as it was. */
  lemma NegativeHeaderKeepsContent(time: int, bs: seq<Block>, i: nat, now: int)
    requires i < |bs| && bs[i].Header? && bs[i].level < 0
    ensures Convert(Document(time, bs), "editorjs", "markdown", now) == Document(time, bs)
  {
    EditorJsToMarkdownRoute(Document(time, bs), now);
    assert Fragment(bs[i]).None?;
  }

  /**
    Headers of level 1 to 6, quotes and plain single-line paragraphs come
    back from Editor.js to markdown and back again, stamped with the clock.
  */
  lemma BlocksSurviveMarkdown(time: int, bs: seq<Block>, now: int)
    requires forall i :: 0 <= i < |bs| ==> ReadsBack(bs[i])
    ensures Convert(Convert(Document(time, bs), "editorjs", "markdown", now), "markdown", "editorjs", now)
         == Document(now, bs)
  {
    BlocksRoundTrip(bs);
    EditorJsToMarkdownRoute(Document(time, bs), now);
    MarkdownToEditorJsRoute(Serialize(bs).value, now);
  }

  /**
    An HTML heading of level 1 to 3 converts to its markdown heading line
    alone (`<h2>X</h2>` to `## X`): the blank line the rewrite leaves after
    it is trimmed away.
  */
  lemma HtmlHeadingConverts(k: nat, text: string, now: int)
    requires 1 <= k <= 3 && |text| > 0 && IsTrimmed(text)
    requires '<' !in text && NoLineTerminator(text)
    ensures Convert(Text(HeadingOpen(k) + text + HeadingClose(k)), "html", "markdown", now)
         == Text(HeadingLine(k, text))
  {
    HtmlToMarkdownRoute(HeadingOpen(k) + text + HeadingClose(k), now);
    HtmlHeadingToMarkdown(k, text);
  }

  /**
    A heading line, a blank line and a plain paragraph line switch to blocks
    as a header and a paragraph (`# T`, ``, `para` to a level-1 header `T`
    and a paragraph `para`).
  */
  lemma HeaderParagraphConverts(level: nat, title: string, para: string, now: int)
    requires 1 <= level <= 6 && |title| > 0 && IsTrimmed(title) && NoLineTerminator(title)
    requires |para| > 0 && '\n' !in para && IsTrimmed(para) && Classify(para) == TextLine
    ensures Convert(Text(Repeat('#', level) + " " + title + "\n\n" + para), "markdown", "editorjs", now)
         == Document(now, [Header(level, title), Paragraph(para)])
  {
    MarkdownToEditorJsRoute(Repeat('#', level) + " " + title + "\n\n" + para, now);
    HeaderThenParagraph(level, title, para);
  }
}

=== FILE: html_conversion.dfy ===
/**
  The two HTML conversions of scripts/format-converter.js: the fallback
  `markdownToHtml` chain used when the `marked` library is absent, and
  `htmlToMarkdown`, a fixed chain of tag rewrites followed by tag
  stripping, newline collapsing and trimming.
*/
module HtmlConversion {
  import opened JsString
  import opened RegexPasses

  /** `<hk>`, the opening tag of a heading of level `k`. */
  function HeadingOpen(k: nat): string
    requires 1 <= k <= 3
  {
    "<h" + [DigitChar(k)] + ">"
  }

  /** `</hk>`, the closing tag of a heading of level `k`. */
  function HeadingClose(k: nat): string
    requires 1 <= k <= 3
  {
    "</h" + [DigitChar(k)] + ">"
  }

  /** `k` hashes and a space: what opens a markdown heading of level `k`. */
  function HeadingMark(k: nat): string {
    Repeat('#', k) + " "
  }

  /** The markdown heading line of level `k`: `k` hashes, a space, the text. */
  function HeadingLine(k: nat, text: string): string {
    HeadingMark(k) + text
  }

  /** `^### (.*$)`, `^## (.*$)`, `^# (.*$)` in that order, under the `m` flag. */
  function HeadingPasses(s: string): string {
    var h3 := MapLines(s, HeadingRule(3));
    var h2 := MapLines(h3, HeadingRule(2));
    MapLines(h2, HeadingRule(1))
  }

  /** `^#{k} (.*$)` replaced by `<hk>$1</hk>`, on one line. */
  function HeadingRule(k: nat): string -> string
    requires 1 <= k <= 3
  {
    PrefixRule(HeadingMark(k), HeadingOpen(k), HeadingClose(k))
  }

  /** The greedy `\*\*(.*)\*\*`, `\*(.*)\*` and `` `(.*)` `` passes, in that order. */
  function EmphasisPasses(s: string): string {
    var bold := MapLines(s, GreedyRule("**", "<strong>", "</strong>"));
    var italic := MapLines(bold, GreedyRule("*", "<em>", "</em>"));
    MapLines(italic, GreedyRule("`", "<code>", "</code>"))
  }

  /**
    The fallback `markdownToHtml`: headings, emphasis, code spans, then every
    newline becomes `<br>`, so the result is a single line.
  */
  function MarkdownToHtml(md: string): (html: string)
    ensures '\n' !in html
  {
    NewlinesToBr(EmphasisPasses(HeadingPasses(md)))
  }

  /** `/\n/g` replaced by `<br>`: no newline is left. */
  function NewlinesToBr(s: string): (r: string)
    ensures '\n' !in r
  {
    ReplaceAllRemovesChar(s, '\n', "<br>");
    ReplaceAll(s, "\n", "<br>")
  }

  // ------------------------------------------------------------ lemmas

  lemma PrefixRuleIdentity(s: string, prefix: string, open: string, close: string)
    requires |prefix| > 0 && prefix[0] !in s
    ensures MapLines(s, PrefixRule(prefix, open, close)) == s
  {
    var c := prefix[0];
    LinesInherit(s, x => x != c);
    forall l | l in Lines(s)
      ensures PrefixRule(prefix, open, close)(l) == l
    {
      if |prefix| <= |l| {
        assert l[..|prefix|][0] != prefix[0];
      }
    }
    MapLinesIdentity(s, PrefixRule(prefix, open, close));
  }

  lemma GreedyRuleIdentity(s: string, d: string, open: string, close: string)
    requires |d| > 0 && !IsLetter(d[0]) && d[0] !in s
    ensures MapLines(s, GreedyRule(d, open, close)) == s
  {
    var c := d[0];
    LinesInherit(s, x => x != c);
    forall l | l in Lines(s)
      ensures GreedyRule(d, open, close)(l) == l
    {
      assert c !in l by {
        forall i | 0 <= i < |l| ensures l[i] != c { }
      }
      NoMatchWithoutFirstChar(l, d);
    }
    MapLinesIdentity(s, GreedyRule(d, open, close));
  }

  /** Text without `#` has no heading line. */
  lemma HeadingPassesIdentity(s: string)
    requires '#' !in s
    ensures HeadingPasses(s) == s
  {
    PrefixRuleIdentity(s, HeadingMark(3), HeadingOpen(3), HeadingClose(3));
    PrefixRuleIdentity(s, HeadingMark(2), HeadingOpen(2), HeadingClose(2));
    PrefixRuleIdentity(s, HeadingMark(1), HeadingOpen(1), HeadingClose(1));
  }

  /** Text without `*` or a backtick has no emphasis or code span. */
  lemma EmphasisPassesIdentity(s: string)
    requires '*' !in s && '`' !in s
    ensures EmphasisPasses(s) == s
  {
    GreedyRuleIdentity(s, "**", "<strong>", "</strong>");
    GreedyRuleIdentity(s, "*", "<em>", "</em>");
    GreedyRuleIdentity(s, "`", "<code>", "</code>");
  }

  lemma HeadingLineNoTerminator(k: nat, text: string)
    requires NoLineTerminator(text)
    ensures NoLineTerminator(HeadingLine(k, text))
  {
    var line := HeadingLine(k, text);
    forall i | 0 <= i < |line| ensures !IsLineTerminator(line[i]) {
      if i > k { assert line[i] == text[i - k - 1]; }
    }
  }

  lemma HeadingElementNoTerminator(k: nat, text: string)
    requires 1 <= k <= 3 && NoLineTerminator(text)
    ensures NoLineTerminator(HeadingOpen(k) + text + HeadingClose(k))
  {
    var e := HeadingOpen(k) + text + HeadingClose(k);
    forall i | 0 <= i < |e| ensures !IsLineTerminator(e[i]) {
      if 4 <= i < 4 + |text| { assert e[i] == text[i - 4]; }
    }
  }

  /** One heading rule on a heading line: its own level rewrites it, another level leaves it. */
  lemma HeadingRuleOnLine(k: nat, m: nat, text: string)
    requires 1 <= k <= 3 && 1 <= m <= 3 && NoLineTerminator(text)
    ensures MapLines(HeadingLine(k, text), HeadingRule(m))
         == if k == m then HeadingOpen(k) + text + HeadingClose(k) else HeadingLine(k, text)
  {
    var line := HeadingLine(k, text);
    var mark := HeadingMark(m);
    HeadingLineNoTerminator(k, text);
    MapLinesSingle(line, HeadingRule(m));
    if k == m {
      assert line[..|mark|] == mark;
      assert line[|mark|..] == text;
    } else if m > k {
      assert line[k] == ' ' && mark[k] == '#';
      if |mark| <= |line| {
        assert line[..|mark|][k] != mark[k];
      }
    } else {
      assert line[m] == '#' && mark[m] == ' ';
      assert line[..|mark|][m] != mark[m];
    }
  }

  /** A heading rule leaves a heading element alone. */
  lemma HeadingRuleOnElement(k: nat, m: nat, text: string)
    requires 1 <= k <= 3 && 1 <= m <= 3 && NoLineTerminator(text)
    ensures MapLines(HeadingOpen(k) + text + HeadingClose(k), HeadingRule(m)) == HeadingOpen(k) + text + HeadingClose(k)
  {
    var e := HeadingOpen(k) + text + HeadingClose(k);
    HeadingElementNoTerminator(k, text);
    MapLinesSingle(e, HeadingRule(m));
    assert e[0] == '<' && HeadingMark(m)[0] == '#';
    assert |HeadingMark(m)| <= |e| ==> e[..|HeadingMark(m)|][0] != HeadingMark(m)[0];
  }

  /** A heading line of level 1 to 3 becomes the matching heading element. */
  lemma HeadingPassesOnHeading(k: nat, text: string)
    requires 1 <= k <= 3 && NoLineTerminator(text)
    ensures HeadingPasses(HeadingLine(k, text)) == HeadingOpen(k) + text + HeadingClose(k)
  {
    HeadingRuleOnLine(k, 3, text);
    if k == 3 {
      HeadingRuleOnElement(k, 2, text);
      HeadingRuleOnElement(k, 1, text);
    } else {
      HeadingRuleOnLine(k, 2, text);
      if k == 2 {
        HeadingRuleOnElement(k, 1, text);
      } else {
        HeadingRuleOnLine(k, 1, text);
      }
    }
  }

  /**
    A heading line of level 1 to 3 whose text holds no emphasis markers
    renders as exactly one heading element.
  */
  lemma MarkdownHeadingToHtml(k: nat, text: string)
    requires 1 <= k <= 3 && NoLineTerminator(text)
    requires '*' !in text && '`' !in text
    ensures MarkdownToHtml(HeadingLine(k, text)) == HeadingOpen(k) + text + HeadingClose(k)
  {
    var h := HeadingOpen(k) + text + HeadingClose(k);
    HeadingPassesOnHeading(k, text);
    assert '\n' !in text by {
      assert forall i :: 0 <= i < |text| ==> !IsLineTerminator(text[i]);
    }
    HeadingElementAvoids(k, text, '*');
    HeadingElementAvoids(k, text, '`');
    HeadingElementAvoids(k, text, '\n');
    EmphasisPassesIdentity(h);
    ReplaceAllIdentity(h, "\n", "<br>");
  }

  /** A character that is neither in the text nor in the tags is not in the element. */
  lemma HeadingElementAvoids(k: nat, text: string, c: char)
    requires 1 <= k <= 3 && c !in text
    requires c != '<' && c != '>' && c != '/' && c != 'h' && !IsDigit(c)
    ensures c !in HeadingOpen(k) + text + HeadingClose(k)
  {
    var h := HeadingOpen(k) + text + HeadingClose(k);
    forall i | 0 <= i < |h| ensures h[i] != c {
      if 4 <= i < 4 + |text| {
        assert h[i] == text[i - 4];
      }
    }
  }

  /** Text with no markdown markers and no newline renders unchanged. */
  lemma MarkdownPlainToHtml(s: string)
    requires '#' !in s && '*' !in s && '`' !in s && '\n' !in s
    ensures MarkdownToHtml(s) == s
  {
    HeadingPassesIdentity(s);
    EmphasisPassesIdentity(s);
    ReplaceAllIdentity(s, "\n", "<br>");
  }

  // ---------------------------------------------------- html to markdown

  /** Trimming keeps a text free of three newlines in a row. */
  lemma TrimKeepsNoTripleNewline(s: string)
    requires NoTripleNewline(s)
    ensures NoTripleNewline(Trim(s))
  {
    var t := TrimStart(s);
    NoTripleNewlineSlice(s, |s| - |t|, |s|);
    NoTripleNewlineSlice(t, 0, |TrimEnd(t)|);
  }

  /** `<hk>(.*?)<\/hk>` replaced by `k` hashes, a space, the text and a blank line, for k = 1, 2, 3. */
  function HeadingRewrites(html: string): string {
    var h1 := LazyPairs(html, HeadingOpen(1), HeadingClose(1), HeadingMark(1), "\n\n");
    var h2 := LazyPairs(h1, HeadingOpen(2), HeadingClose(2), HeadingMark(2), "\n\n");
    LazyPairs(h2, HeadingOpen(3), HeadingClose(3), HeadingMark(3), "\n\n")
  }

  /** The strong, em and code rewrites, then `<br>` to a newline. */
  function InlineRewrites(s: string): string {
    var bold := LazyPairs(s, "<strong>", "</strong>", "**", "**");
    var italic := LazyPairs(bold, "<em>", "</em>", "*", "*");
    var code := LazyPairs(italic, "<code>", "</code>", "`", "`");
    BrToNewline(code)
  }

  /** The tag rewrites of `htmlToMarkdown`, before the remaining tags are stripped. */
  function TagRewrites(html: string): string {
    InlineRewrites(HeadingRewrites(html))
  }

  /**
    `htmlToMarkdown`: rewrite the known tags, strip every other tag, collapse
    runs of three or more newlines to two, trim. The result never starts or
    ends with whitespace and never holds three newlines in a row.
  */
  function HtmlToMarkdown(html: string): (md: string)
    ensures IsTrimmed(md)
    ensures NoTripleNewline(md)
  {
    var collapsed := CollapseNewlines(StripTags(TagRewrites(html)));
    TrimKeepsNoTripleNewline(collapsed);
    Trim(collapsed)
  }

  /** Text with no tag, no run of three newlines and no surrounding whitespace passes through. */
  lemma HtmlToMarkdownIdentity(html: string)
    requires '<' !in html && NoTripleNewline(html) && IsTrimmed(html)
    ensures HtmlToMarkdown(html) == html
  {
    TagRewritesIdentity(html);
    CollapseNewlinesIdentity(html);
  }

  lemma InlineRewritesIdentity(s: string)
    requires '<' !in s
    ensures InlineRewrites(s) == s
  {
    LazyPairsIdentity(s, "<strong>", "</strong>", "**", "**");
    LazyPairsIdentity(s, "<em>", "</em>", "*", "*");
    LazyPairsIdentity(s, "<code>", "</code>", "`", "`");
    BrToNewlineIdentity(s);
  }

  lemma TagRewritesIdentity(s: string)
    requires '<' !in s
    ensures TagRewrites(s) == s
  {
    LazyPairsIdentity(s, HeadingOpen(1), HeadingClose(1), HeadingMark(1), "\n\n");
    LazyPairsIdentity(s, HeadingOpen(2), HeadingClose(2), HeadingMark(2), "\n\n");
    LazyPairsIdentity(s, HeadingOpen(3), HeadingClose(3), HeadingMark(3), "\n\n");
    InlineRewritesIdentity(s);
  }

  /** Nowhere in a heading element of another level does this level's open tag occur. */
  lemma OtherHeadingOpenAbsent(k: nat, m: nat, text: string)
    requires 1 <= k <= 3 && 1 <= m <= 3 && k != m && '<' !in text
    ensures forall j :: !MatchesAt(HeadingOpen(k) + text + HeadingClose(k), j, HeadingOpen(m))
  {
    var o, c := HeadingOpen(k), HeadingClose(k);
    var s := o + text + c;
    var pat := HeadingOpen(m);
    assert DigitChar(k) != DigitChar(m) by {
      assert k == 1 || k == 2 || k == 3;
      assert m == 1 || m == 2 || m == 3;
    }
    forall j
      ensures !MatchesAt(s, j, pat)
    {
      if 0 <= j && j + 4 <= |s| {
        if j == 0 {
          assert s[2] == o[2] == DigitChar(k) && pat[2] == DigitChar(m);
          FoldNonLetter(s[0 + 2], pat[2]);
        } else if j < 4 {
          assert s[j] == o[j] && o[j] != '<';
          FoldNonLetter(s[j + 0], pat[0]);
        } else if j < 4 + |text| {
          assert s[j] == text[j - 4];
          assert text[j - 4] in text;
          FoldNonLetter(s[j + 0], pat[0]);
        } else if j == 4 + |text| {
          assert s[j + 1] == c[1] == '/' && pat[1] == 'h';
          assert Fold(s[j + 1]) != pat[1];
        } else {
          assert s[j] == c[j - 4 - |text|] && c[j - 4 - |text|] != '<';
          FoldNonLetter(s[j + 0], pat[0]);
        }
      }
    }
  }

  lemma LazyPairsNoOpen(s: string, open: string, close: string, left: string, right: string)
    requires |open| > 0 && |close| > 0
    requires forall j :: !MatchesAt(s, j, open)
    ensures LazyPairs(s, open, close, left, right) == s
    decreases |s|
  {
    if |s| > 0 {
      forall j
        ensures !MatchesAt(s[1..], j, open)
      {
        if 0 <= j && j + |open| <= |s| - 1 {
          assert !MatchesAt(s, j + 1, open);
          var k :| 0 <= k < |open| && Fold(s[j + 1 + k]) != open[k];
          assert s[1..][j + k] == s[j + 1 + k];
        }
      }
      LazyPairsNoOpen(s[1..], open, close, left, right);
      assert s == [s[0]] + s[1..];
    }
  }

  /** One heading pass over a heading element: its own level rewrites it, another level leaves it. */
  lemma HeadingPassOnElement(k: nat, m: nat, text: string)
    requires 1 <= k <= 3 && 1 <= m <= 3
    requires '<' !in text && NoLineTerminator(text)
    ensures LazyPairs(HeadingOpen(k) + text + HeadingClose(k), HeadingOpen(m), HeadingClose(m), HeadingMark(m), "\n\n")
         == if k == m then HeadingLine(k, text) + "\n\n" else HeadingOpen(k) + text + HeadingClose(k)
  {
    if k == m {
      assert forall i :: 0 <= i < |HeadingOpen(k)| ==> Fold(HeadingOpen(k)[i]) == HeadingOpen(k)[i];
      assert forall i :: 0 <= i < |HeadingClose(k)| ==> Fold(HeadingClose(k)[i]) == HeadingClose(k)[i];
      LazyPairsOnPair(text, HeadingOpen(k), HeadingClose(k), HeadingMark(k), "\n\n");
    } else {
      OtherHeadingOpenAbsent(k, m, text);
      LazyPairsNoOpen(HeadingOpen(k) + text + HeadingClose(k), HeadingOpen(m), HeadingClose(m), HeadingMark(m), "\n\n");
    }
  }

  /** A heading line followed by a blank line has no tag and no run of three newlines. */
  lemma HeadingBlockIsPlain(k: nat, text: string)
    requires 1 <= k <= 3 && '<' !in text && NoLineTerminator(text)
    ensures '<' !in HeadingLine(k, text) + "\n\n"
    ensures NoTripleNewline(HeadingLine(k, text) + "\n\n")
  {
    var md := HeadingLine(k, text) + "\n\n";
    forall i | 0 <= i < |md| ensures md[i] != '<' && (i < k + 1 + |text| ==> md[i] != '\n') {
      if k + 1 <= i < k + 1 + |text| {
        assert md[i] == text[i - k - 1];
      }
    }
  }

  /** The heading rewrites turn a heading element into its markdown line and a blank line. */
  lemma HeadingRewritesOnElement(k: nat, text: string)
    requires 1 <= k <= 3 && '<' !in text && NoLineTerminator(text)
    ensures HeadingRewrites(HeadingOpen(k) + text + HeadingClose(k)) == HeadingLine(k, text) + "\n\n"
  {
    var e := HeadingOpen(k) + text + HeadingClose(k);
    var md := HeadingLine(k, text) + "\n\n";
    HeadingBlockIsPlain(k, text);
    HeadingPassOnElement(k, 1, text);
    if k == 1 {
      LazyPairsIdentity(md, HeadingOpen(2), HeadingClose(2), HeadingMark(2), "\n\n");
      LazyPairsIdentity(md, HeadingOpen(3), HeadingClose(3), HeadingMark(3), "\n\n");
    } else {
      HeadingPassOnElement(k, 2, text);
      if k == 2 {
        LazyPairsIdentity(md, HeadingOpen(3), HeadingClose(3), HeadingMark(3), "\n\n");
      } else {
        HeadingPassOnElement(k, 3, text);
      }
    }
  }

  /**
    A heading element of level 1 to 3 around plain trimmed text becomes the
    markdown heading line, with no trailing blank line: the final trim
    removes the two newlines the rewrite appended.
  */
  lemma HtmlHeadingToMarkdown(k: nat, text: string)
    requires 1 <= k <= 3 && |text| > 0 && IsTrimmed(text)
    requires '<' !in text && NoLineTerminator(text)
    ensures HtmlToMarkdown(HeadingOpen(k) + text + HeadingClose(k)) == HeadingLine(k, text)
  {
    var line := HeadingLine(k, text);
    var md := line + "\n\n";
    HeadingRewritesOnElement(k, text);
    HeadingBlockIsPlain(k, text);
    InlineRewritesIdentity(md);
    CollapseNewlinesIdentity(md);
    assert IsTrimmed(line) by {
      assert line[0] == '#';
      assert line[|line| - 1] == text[|text| - 1];
    }
    TrimDropsTrailingSpace(line, "\n\n");
  }

  /**
    A markdown heading of level 1 to 3 with plain trimmed text survives the
    trip to HTML and back.
  */
  lemma HeadingSurvivesHtmlRoundTrip(k: nat, text: string)
    requires 1 <= k <= 3 && |text| > 0 && IsTrimmed(text)
    requires '<' !in text && '*' !in text && '`' !in text && NoLineTerminator(text)
    ensures HtmlToMarkdown(MarkdownToHtml(HeadingLine(k, text))) == HeadingLine(k, text)
  {
    MarkdownHeadingToHtml(k, text);
    HtmlHeadingToMarkdown(k, text);
  }
}

=== FILE: js_string.dfy ===
/**
  The slice of JavaScript's string semantics the editor's text code relies on:
  the whitespace class shared by `\s` and `String.prototype.trim`, the line
  terminators that end `.` and `$` in a multiline regular expression,
  `trim`, `split` with a one-character separator, `join`, `repeat`, decimal
  formatting of an index, and the case folding of a regular expression
  carrying the `i` flag, as it applies to ASCII patterns.
*/
module JsString {

  /** ECMAScript WhiteSpace and LineTerminator: what `\s` matches and `trim` removes. */
  predicate IsSpace(c: char) {
    || c == '\t' || c == '\n' || c == '\U{000B}' || c == '\U{000C}' || c == '\r' || c == ' '
    || c == '\U{00A0}' || c == '\U{1680}' || ('\U{2000}' <= c <= '\U{200A}')
    || c == '\U{2028}' || c == '\U{2029}' || c == '\U{202F}' || c == '\U{205F}'
    || c == '\U{3000}' || c == '\U{FEFF}'
  }

  /** The characters `.` refuses and before which `$` matches in multiline mode. */
  predicate IsLineTerminator(c: char) {
    c == '\n' || c == '\r' || c == '\U{2028}' || c == '\U{2029}'
  }

  predicate NoLineTerminator(s: string) {
    forall i :: 0 <= i < |s| ==> !IsLineTerminator(s[i])
  }

  predicate IsTrimmed(s: string) {
    |s| == 0 || (!IsSpace(s[0]) && !IsSpace(s[|s| - 1]))
  }

  function TrimStart(s: string): (r: string)
    ensures |r| <= |s| && r == s[|s| - |r|..]
    ensures forall i :: 0 <= i < |s| - |r| ==> IsSpace(s[i])
    ensures |r| > 0 ==> !IsSpace(r[0])
    decreases |s|
  {
    if |s| > 0 && IsSpace(s[0]) then TrimStart(s[1..]) else s
  }

  function TrimEnd(s: string): (r: string)
    ensures |r| <= |s| && r == s[..|r|]
    ensures forall i :: |r| <= i < |s| ==> IsSpace(s[i])
    ensures |r| > 0 ==> !IsSpace(r[|r| - 1])
    decreases |s|
  {
    if |s| > 0 && IsSpace(s[|s| - 1]) then TrimEnd(s[..|s| - 1]) else s
  }

  /** `String.prototype.trim`. */
  function Trim(s: string): (r: string)
    ensures IsTrimmed(r)
    ensures |r| <= |s|
    ensures IsTrimmed(s) ==> r == s
    ensures r == [] <==> forall i :: 0 <= i < |s| ==> IsSpace(s[i])
  {
    var t := TrimStart(s);
    var r := TrimEnd(t);
    assert |r| > 0 ==> r[0] == t[0];
    TrimmedAwayIsSpace(s, t, r);
    r
  }

  lemma TrimmedAwayIsSpace(s: string, t: string, r: string)
    requires t == TrimStart(s) && r == TrimEnd(t)
    ensures r == [] ==> forall i :: 0 <= i < |s| ==> IsSpace(s[i])
  {
    if r == [] {
      assert |t| == 0;
    }
  }

  /** The number of occurrences of `c` in `s`. */
  function Count(s: string, c: char): nat {
    if |s| == 0 then 0 else (if s[0] == c then 1 else 0) + Count(s[1..], c)
  }

  /** `s.split(sep)` for a one-character separator `sep`. */
  function Split(s: string, sep: char): (r: seq<string>)
    ensures |r| >= 1
    ensures forall k :: 0 <= k < |r| ==> sep !in r[k]
    decreases |s|
  {
    if |s| == 0 then [""]
    else
      var rest := Split(s[1..], sep);
      if s[0] == sep then [""] + rest else [[s[0]] + rest[0]] + rest[1..]
  }

  /** `parts.join(sep)`. */
  function Join(parts: seq<string>, sep: string): string {
    if |parts| == 0 then ""
    else if |parts| == 1 then parts[0]
    else parts[0] + sep + Join(parts[1..], sep)
  }

  /** Splitting at a separator and joining with it again gives back the string. */
  lemma {:induction false} JoinSplit(s: string, sep: char)
    ensures Join(Split(s, sep), [sep]) == s
    decreases |s|
  {
    if |s| > 0 {
      var rest := Split(s[1..], sep);
      JoinSplit(s[1..], sep);
      if s[0] == sep {
        assert s == [sep] + s[1..];
      } else if |rest| == 1 {
        assert s == [s[0]] + s[1..];
      } else {
        assert Join(rest, [sep]) == rest[0] + [sep] + Join(rest[1..], [sep]);
        assert s == [s[0]] + s[1..];
      }
    }
  }

  /** A string splits into one more piece than it has separators. */
  lemma {:induction false} SplitLength(s: string, sep: char)
    ensures |Split(s, sep)| == Count(s, sep) + 1
    decreases |s|
  {
    if |s| > 0 {
      SplitLength(s[1..], sep);
    }
  }

  /** A string without the separator is a single piece. */
  lemma {:induction false} SplitWithoutSeparator(s: string, sep: char)
    requires sep !in s
    ensures Split(s, sep) == [s]
    decreases |s|
  {
    if |s| > 0 {
      assert s == [s[0]] + s[1..];
      SplitWithoutSeparator(s[1..], sep);
      assert s == [s[0]] + s[1..];
    }
  }

  /** A separator-free head is the first piece and the rest splits on its own. */
  lemma {:induction false} SplitAfterPiece(a: string, rest: string, sep: char)
    requires sep !in a
    ensures Split(a + [sep] + rest, sep) == [a] + Split(rest, sep)
    decreases |a|
  {
    if |a| == 0 {
      assert a + [sep] + rest == [sep] + rest;
      assert ([sep] + rest)[1..] == rest;
    } else {
      var s := a + [sep] + rest;
      assert s[0] == a[0];
      assert s[1..] == a[1..] + [sep] + rest;
      assert a == [a[0]] + a[1..];
      SplitAfterPiece(a[1..], rest, sep);
      assert a == [a[0]] + a[1..];
    }
  }

  predicate StartsWith(s: string, prefix: string) {
    |prefix| <= |s| && s[..|prefix|] == prefix
  }

  /** The length of the run of whitespace that `s` starts with. */
  function SpaceRun(s: string): (n: nat)
    ensures n <= |s|
    ensures forall i :: 0 <= i < n ==> IsSpace(s[i])
    ensures n < |s| ==> !IsSpace(s[n])
    decreases |s|
  {
    if |s| > 0 && IsSpace(s[0]) then 1 + SpaceRun(s[1..]) else 0
  }

  /** The length of the run of `c` that `s` starts with. */
  function LeadingRun(s: string, c: char): (n: nat)
    ensures n <= |s|
    ensures forall i :: 0 <= i < n ==> s[i] == c
    ensures n < |s| ==> s[n] != c
    decreases |s|
  {
    if |s| > 0 && s[0] == c then 1 + LeadingRun(s[1..], c) else 0
  }

  /** `c.repeat(n)` for a count JavaScript accepts. */
  function Repeat(c: char, n: nat): (r: string)
    ensures |r| == n
    ensures forall i :: 0 <= i < n ==> r[i] == c
  {
    if n == 0 then "" else [c] + Repeat(c, n - 1)
  }

  function DigitChar(d: nat): char
    requires d < 10
  {
    ['0', '1', '2', '3', '4', '5', '6', '7', '8', '9'][d]
  }

  predicate IsDigit(c: char) {
    '0' <= c <= '9'
  }

  /** The decimal text of `n`, as a template literal `${n}` writes it. */
  function Decimal(n: nat): (r: string)
    ensures |r| > 0
    ensures forall i :: 0 <= i < |r| ==> IsDigit(r[i])
  {
    if n < 10 then [DigitChar(n)] else Decimal(n / 10) + [DigitChar(n % 10)]
  }

  /**
    Canonicalisation under the `i` flag without `u`, restricted to ASCII
    letters. Every pattern matched with it is ASCII, and no other character
    canonicalises to an ASCII letter, so for those patterns this is exact.
  */
  function Fold(c: char): char {
    if 'A' <= c <= 'Z' then (c as int + 32) as char else c
  }

  /** `pat` (written in lower case) occurs in `s` at `i`, ignoring ASCII case. */
  predicate MatchesAt(s: string, i: int, pat: string) {
    0 <= i && i + |pat| <= |s| && forall k :: 0 <= k < |pat| ==> Fold(s[i + k]) == pat[k]
  }


  /** Trailing whitespace after trimmed text is what `trim` removes. */
  lemma {:induction false} TrimDropsTrailingSpace(x: string, w: string)
    requires IsTrimmed(x) && |x| > 0
    requires forall i :: 0 <= i < |w| ==> IsSpace(w[i])
    ensures Trim(x + w) == x
    decreases |w|
  {
    if |w| == 0 {
      assert x + w == x;
    } else {
      var s := x + w;
      assert TrimStart(s) == s;
      assert s[..|s| - 1] == x + w[..|w| - 1];
      TrimDropsTrailingSpace(x, w[..|w| - 1]);
      assert TrimStart(x + w[..|w| - 1]) == x + w[..|w| - 1];
    }
  }

  /** Joining pieces without the separator and splitting again gives the pieces back. */
  lemma {:induction false} SplitJoin(parts: seq<string>, sep: char)
    requires |parts| >= 1
    requires forall k :: 0 <= k < |parts| ==> sep !in parts[k]
    ensures Split(Join(parts, [sep]), sep) == parts
    decreases |parts|
  {
    if |parts| == 1 {
      SplitWithoutSeparator(parts[0], sep);
    } else {
      SplitJoin(parts[1..], sep);
      SplitAfterPiece(parts[0], Join(parts[1..], [sep]), sep);
      assert parts == [parts[0]] + parts[1..];
    }
  }
}

=== FILE: mode_manager.dfy ===
/**
  `ModeManager` of scripts/mode-manager.js: the current mode, the mode it
  was switched from, and a history of at most ten earlier modes, with the
  fixed mode-to-format and mode-to-view tables and the Ctrl/Meta number
  keys. The editor core whose content the manager hands across a switch is
  a parameter: a state `S` with a reader and a writer per format.
*/
module ModeManager {
  import opened Options
  import F = FormatConverter

  /** The five editing modes, named in the UI `markdown`, `wysiwyg`, `code`, `blocks`, `split`. */
  datatype Mode = Markdown | Wysiwyg | Code | Blocks | Split

  function ModeName(m: Mode): string {
    match m
    case Markdown => "markdown"
    case Wysiwyg => "wysiwyg"
    case Code => "code"
    case Blocks => "blocks"
    case Split => "split"
  }

  /** `getFormatForMode`: the format the core is asked for when a mode's content moves. */
  function FormatFor(m: Mode): F.Format {
    match m
    case Markdown => F.Markdown
    case Wysiwyg => F.Html
    case Code => F.Markdown
    case Blocks => F.EditorJs
    case Split => F.Markdown
  }

  /** `getViewId`: the element shown for a mode. */
  function ViewId(m: Mode): string {
    match m
    case Markdown => "toastui-editor"
    case Wysiwyg => "toastui-editor"
    case Code => "monaco-editor"
    case Blocks => "editorjs-container"
    case Split => "split-view"
  }

  /** The bound on `modeHistory` that `switchMode` keeps by dropping the oldest entry. */
  const MaxHistory: nat := 10

  /** The manager's fields `currentMode`, `previousMode` (`null` is `None`) and `modeHistory`. */
  datatype ModeState = ModeState(current: Mode, previous: Option<Mode>, history: seq<Mode>)

  /** The state the constructor sets up. */
  function Initial(): ModeState {
    ModeState(Markdown, None, [])
  }

  /**
    What every reachable state satisfies: the history stays within its bound
    and never ends in the mode that is current.
  */
  predicate Valid(st: ModeState) {
    |st.history| <= MaxHistory
    && (|st.history| > 0 ==> st.history[|st.history| - 1] != st.current)
  }

  predicate IsSuffix<T(==)>(a: seq<T>, b: seq<T>) {
    |a| <= |b| && a == b[|b| - |a|..]
  }

  /**
    The bookkeeping of `switchMode`: switching to the current mode does
    nothing; otherwise the outgoing mode is pushed, the oldest entry is
    shifted out once the history holds more than ten, and the outgoing mode
    becomes the previous one.
  */
  function SwitchMode(st: ModeState, to: Mode): (r: ModeState)
    ensures to == st.current ==> r == st
    ensures to != st.current ==> r.current == to && r.previous == Some(st.current)
    ensures to != st.current ==> |r.history| > 0 && r.history[|r.history| - 1] == st.current
    ensures to != st.current ==> IsSuffix(r.history, st.history + [st.current])
    ensures to != st.current ==>
      |r.history| == if |st.history| < MaxHistory then |st.history| + 1 else |st.history|
  {
    if st.current == to then st
    else
      var pushed := st.history + [st.current];
      var kept := if |pushed| > MaxHistory then pushed[1..] else pushed;
      ModeState(to, Some(st.current), kept)
  }

  /**
    `goBack`: with an empty history nothing happens; otherwise the last
    entry is popped and switched to (which pushes the mode being left).
  */
  function GoBack(st: ModeState): (r: ModeState)
    ensures |st.history| == 0 ==> r == st
  {
    if |st.history| == 0 then st
    else
      var last := st.history[|st.history| - 1];
      SwitchMode(st.(history := st.history[..|st.history| - 1]), last)
  }

  /** The mode selected by Ctrl or Meta with the key `key`, if any. */
  function KeyMode(key: string, ctrl: bool, meta: bool): (r: Option<Mode>)
    ensures r.Some? ==> ctrl || meta
  {
    if !(ctrl || meta) then None
    else if key == "1" then Some(Markdown)
    else if key == "2" then Some(Wysiwyg)
    else if key == "3" then Some(Code)
    else if key == "4" then Some(Blocks)
    else if key == "5" then Some(Split)
    else None
  }

  /** The digit key that selects a mode: its position on the toolbar. */
  function KeyOf(m: Mode): string {
    match m
    case Markdown => "1"
    case Wysiwyg => "2"
    case Code => "3"
    case Blocks => "4"
    case Split => "5"
  }

  /** The snapshot `getState` returns: the three fields, the history copied. */
  datatype Snapshot = Snapshot(currentMode: Mode, previousMode: Option<Mode>, history: seq<Mode>)

  function GetState(st: ModeState): (r: Snapshot)
    ensures r.currentMode == st.current && r.previousMode == st.previous && r.history == st.history
  {
    Snapshot(st.current, st.previous, st.history)
  }

  /** The inputs that drive the manager: a mode button, `goBack`, or a key press. */
  datatype Event = Press(mode: Mode) | Back | Key(key: string, ctrl: bool, meta: bool)

  function Handle(st: ModeState, e: Event): ModeState {
    match e
    case Press(m) => SwitchMode(st, m)
    case Back => GoBack(st)
    case Key(k, c, m) =>
      match KeyMode(k, c, m)
      case Some(mode) => SwitchMode(st, mode)
      case None => st
  }

  function Run(st: ModeState, events: seq<Event>): ModeState
    decreases |events|
  {
    if |events| == 0 then st else Run(Handle(st, events[0]), events[1..])
  }

  /**
    The content side of `switchMode`: `saveCurrentContent` writes the
    outgoing mode's format back to itself, then `loadContentToNewMode`
    reads it again and writes it in the incoming mode's format.
  */
  function Transfer<S, C>(core: S, from: Mode, to: Mode, read: (S, F.Format) -> C, write: (S, C, F.Format) -> S): S {
    var saved := write(core, read(core, FormatFor(from)), FormatFor(from));
    write(saved, read(saved, FormatFor(from)), FormatFor(to))
  }

  /** `switchMode` as a whole: the bookkeeping and, unless the mode is unchanged, the content transfer. */
  function Switch<S, C>(st: ModeState, core: S, to: Mode, read: (S, F.Format) -> C, write: (S, C, F.Format) -> S)
    : (r: (ModeState, S))
    ensures r.0 == SwitchMode(st, to)
    ensures to == st.current ==> r.1 == core
  {
    if st.current == to then (st, core)
    else (SwitchMode(st, to), Transfer(core, st.current, to, read, write))
  }

  // ------------------------------------------------------------ lemmas

  lemma InitialValid()
    ensures Valid(Initial())
  {
  }

  /** `switchMode` keeps the history bounded and not ending in the current mode. */
  lemma SwitchKeepsValid(st: ModeState, to: Mode)
    requires Valid(st)
    ensures Valid(SwitchMode(st, to))
  {
  }

  /**
    With a non-empty history, `goBack` exchanges the last entry and the
    current mode, and the mode left becomes the previous one.
  */
  lemma GoBackSwaps(st: ModeState)
    requires Valid(st) && |st.history| > 0
    ensures GoBack(st).current == st.history[|st.history| - 1]
    ensures GoBack(st).previous == Some(st.current)
    ensures GoBack(st).history == st.history[..|st.history| - 1] + [st.current]
  {
    var h := st.history[..|st.history| - 1];
    assert |h + [st.current]| <= MaxHistory;
  }

  lemma GoBackKeepsValid(st: ModeState)
    requires Valid(st)
    ensures Valid(GoBack(st))
  {
    if |st.history| > 0 {
      GoBackSwaps(st);
    }
  }

  /** Going back twice restores the current mode and the history. */
  lemma GoBackTwice(st: ModeState)
    requires Valid(st) && |st.history| > 0
    ensures GoBack(GoBack(st)).current == st.current
    ensures GoBack(GoBack(st)).history == st.history
    ensures GoBack(GoBack(st)).previous == Some(st.history[|st.history| - 1])
  {
    var once := GoBack(st);
    GoBackSwaps(st);
    GoBackKeepsValid(st);
    GoBackSwaps(once);
    var h := st.history[..|st.history| - 1];
    assert once.history[..|once.history| - 1] == h;
    assert h + [st.history[|st.history| - 1]] == st.history;
  }

  lemma HandleKeepsValid(st: ModeState, e: Event)
    requires Valid(st)
    ensures Valid(Handle(st, e))
  {
    match e
    case Press(m) => SwitchKeepsValid(st, m);
    case Back => GoBackKeepsValid(st);
    case Key(k, c, m) =>
      if KeyMode(k, c, m).Some? {
        SwitchKeepsValid(st, KeyMode(k, c, m).value);
      }
  }

  /** Whatever the buttons, keys and `goBack` do, the history never exceeds ten entries. */
  lemma {:induction false} RunKeepsValid(st: ModeState, events: seq<Event>)
    requires Valid(st)
    ensures Valid(Run(st, events))
    ensures |Run(st, events).history| <= MaxHistory
    decreases |events|
  {
    if |events| > 0 {
      HandleKeepsValid(st, events[0]);
      RunKeepsValid(Handle(st, events[0]), events[1..]);
    }
  }

  /** Ctrl or Meta with the digits 1 to 5 select the five modes in order, and nothing else selects one. */
  lemma KeyTable(key: string, ctrl: bool, meta: bool, m: Mode)
    ensures KeyMode(key, ctrl, meta) == Some(m) <==> (ctrl || meta) && key == KeyOf(m)
  {
  }

  /** Markdown, code and split hand content over as markdown, wysiwyg as HTML, blocks as Editor.js. */
  lemma FormatTable(m: Mode)
    ensures FormatFor(m) == F.Markdown <==> m == Markdown || m == Code || m == Split
    ensures FormatFor(m) == F.Html <==> m == Wysiwyg
    ensures FormatFor(m) == F.EditorJs <==> m == Blocks
  {
  }

  /** Only markdown and wysiwyg share a view, the Toast UI editor. */
  lemma ViewTable(a: Mode, b: Mode)
    ensures ViewId(a) == ViewId(b) <==> a == b || (a in {Markdown, Wysiwyg} && b in {Markdown, Wysiwyg})
  {
  }

  /**
    If writing a format and reading it back gives what was written, and
    writing back what was just read changes nothing, a switch leaves the
    incoming mode's format holding what the outgoing mode's format held.
  */
  lemma ContentFollowsSwitch<S, C>(st: ModeState, core: S, to: Mode, read: (S, F.Format) -> C, write: (S, C, F.Format) -> S)
    requires forall s: S, v: C, f: F.Format :: read(write(s, v, f), f) == v
    requires forall s: S, f: F.Format :: write(s, read(s, f), f) == s
    ensures read(Switch(st, core, to, read, write).1, FormatFor(to)) == read(core, FormatFor(st.current))
  {
    if st.current != to {
      var from, into := FormatFor(st.current), FormatFor(to);
      var saved := write(core, read(core, from), from);
      assert saved == core;
      var after := write(saved, read(saved, from), into);
      assert Switch(st, core, to, read, write).1 == after;
      ReadAfterWrite(read, write, saved, read(saved, from), into);
    }
  }

  /** The write-then-read law at one point, with the written value as a variable of its own. */
  lemma ReadAfterWrite<S, C>(read: (S, F.Format) -> C, write: (S, C, F.Format) -> S, s: S, v: C, f: F.Format)
    requires forall t: S, w: C, g: F.Format :: read(write(t, w, g), g) == w
    ensures read(write(s, v, f), f) == v
  {
  }
}

=== FILE: options.dfy ===
/** An optional value: JavaScript's `undefined`/`null` results and "no match" outcomes. */
module Options {

  datatype Option<T> = None | Some(value: T) {

    /** The wrapped value, or `default` when there is none. */
    function GetOr(default: T): T {
      match this
      case Some(v) => v
      case None => default
    }
  }
}

=== FILE: regex_passes.dfy ===
/**
  The individual `String.prototype.replace` passes the editor's converters
  chain together, each written as a concrete function with the behaviour
  the ECMAScript regular expression engine gives that one pattern (global
  flag, and where present the `m` and `i` flags). No general regular
  expression machinery is modelled.

  Two families:
  - line-local passes (`^P(.*$)`, `D(.*)D`, `[..](..)`): a match cannot cross
    a line terminator and the replacement inserts none, so the pass is a
    rewrite of each line on its own (`MapLines`);
  - whole-string passes (`<h1>(.*?)</h1>`, `<br\s*\/?>`, `<[^>]*>`,
    `\n{3,}`, `\n\n`, `<ul>\s*<li>`): scanned left to right, resuming after
    each match, as the global flag does.
*/
module RegexPasses {
  import opened Options
  import opened JsString

  // ---------------------------------------------------------------- lines

  /** Index of the first line terminator of `s`, or `|s|`. */
  function LineEnd(s: string): (n: nat)
    ensures n <= |s|
    ensures forall i :: 0 <= i < n ==> !IsLineTerminator(s[i])
    ensures n < |s| ==> IsLineTerminator(s[n])
    decreases |s|
  {
    if |s| == 0 || IsLineTerminator(s[0]) then 0 else 1 + LineEnd(s[1..])
  }

  /** The lines of `s`: the pieces between its line terminators. */
  function Lines(s: string): (r: seq<string>)
    ensures |r| >= 1
    decreases |s|
  {
    var n := LineEnd(s);
    if n == |s| then [s] else [s[..n]] + Lines(s[n + 1..])
  }

  /** Rewrites every line of `s` with `f`, keeping the terminators between them. */
  function MapLines(s: string, f: string -> string): string
    decreases |s|
  {
    var n := LineEnd(s);
    if n == |s| then f(s) else f(s[..n]) + [s[n]] + MapLines(s[n + 1..], f)
  }

  lemma LineEndAt(a: string, t: char, b: string)
    requires NoLineTerminator(a) && IsLineTerminator(t)
    ensures LineEnd(a + [t] + b) == |a|
  {
    var s := a + [t] + b;
    assert forall i :: 0 <= i < |a| ==> s[i] == a[i];
    assert s[|a|] == t;
  }

  lemma LineEndWhole(s: string)
    requires NoLineTerminator(s)
    ensures LineEnd(s) == |s|
  {
  }

  /** A line-free string is rewritten as one line. */
  lemma MapLinesSingle(s: string, f: string -> string)
    requires NoLineTerminator(s)
    ensures MapLines(s, f) == f(s)
    ensures Lines(s) == [s]
  {
    LineEndWhole(s);
  }

  /** The first line is rewritten on its own and the rest independently. */
  lemma MapLinesStep(a: string, t: char, b: string, f: string -> string)
    requires NoLineTerminator(a) && IsLineTerminator(t)
    ensures MapLines(a + [t] + b, f) == f(a) + [t] + MapLines(b, f)
    ensures Lines(a + [t] + b) == [a] + Lines(b)
  {
    var s := a + [t] + b;
    LineEndAt(a, t, b);
    assert s[..|a|] == a;
    assert s[|a| + 1..] == b;
  }

  /** A rewrite that leaves every line alone leaves the text alone. */
  lemma {:induction false} MapLinesIdentity(s: string, f: string -> string)
    requires forall l :: l in Lines(s) ==> f(l) == l
    ensures MapLines(s, f) == s
    decreases |s|
  {
    var n := LineEnd(s);
    if n == |s| {
      assert s in Lines(s);
    } else {
      var head, rest := s[..n], s[n + 1..];
      assert Lines(s) == [head] + Lines(rest);
      assert head in Lines(s);
      forall l | l in Lines(rest)
        ensures f(l) == l
      {
        assert l in Lines(s);
      }
      MapLinesIdentity(rest, f);
      assert MapLines(s, f) == f(head) + [s[n]] + MapLines(rest, f);
      assert s == head + [s[n]] + rest;
    }
  }

  /** A property of every character of `s` holds of every character of each of its lines. */
  lemma {:induction false} LinesInherit(s: string, p: char -> bool)
    requires forall i :: 0 <= i < |s| ==> p(s[i])
    ensures forall l, i :: l in Lines(s) && 0 <= i < |l| ==> p(l[i])
    decreases |s|
  {
    var n := LineEnd(s);
    if n < |s| {
      LinesInherit(s[n + 1..], p);
      forall l, i | l in Lines(s) && 0 <= i < |l|
        ensures p(l[i])
      {
        if l == s[..n] {
          assert l[i] == s[i];
        } else {
          assert l in Lines(s[n + 1..]);
        }
      }
    }
  }

  // ------------------------------------------------------- search helpers

  /** The first index at or after `from` where `pat` matches. */
  function FirstMatch(s: string, pat: string, from: nat): (r: Option<nat>)
    requires |pat| > 0
    ensures r.Some? ==> from <= r.value && MatchesAt(s, r.value, pat)
    ensures r.Some? ==> forall j :: from <= j < r.value ==> !MatchesAt(s, j, pat)
    ensures r.None? ==> forall j :: from <= j ==> !MatchesAt(s, j, pat)
    decreases |s| - from
  {
    if from + |pat| > |s| then None
    else if MatchesAt(s, from, pat) then Some(from)
    else FirstMatch(s, pat, from + 1)
  }

  /** `FirstMatch` from `from` finds `at` when `pat` matches there and nowhere in between. */
  lemma FirstMatchIs(s: string, pat: string, from: nat, at: nat)
    requires |pat| > 0 && from <= at && MatchesAt(s, at, pat)
    requires forall j :: from <= j < at ==> !MatchesAt(s, j, pat)
    ensures FirstMatch(s, pat, from) == Some(at)
  {
  }

  /** The last index below `bound` where `pat` matches. */
  function LastMatchBelow(s: string, pat: string, bound: nat): (r: Option<nat>)
    ensures r.Some? ==> r.value < bound && MatchesAt(s, r.value, pat)
    ensures r.Some? ==> forall j :: r.value < j < bound ==> !MatchesAt(s, j, pat)
    ensures r.None? ==> forall j :: 0 <= j < bound ==> !MatchesAt(s, j, pat)
    decreases bound
  {
    if bound == 0 then None
    else if MatchesAt(s, bound - 1, pat) then Some(bound - 1)
    else LastMatchBelow(s, pat, bound - 1)
  }

  /** The first index at or after `from` holding `c`. */
  function IndexOfChar(s: string, c: char, from: nat): (r: Option<nat>)
    ensures r.Some? ==> from <= r.value < |s| && s[r.value] == c
    ensures r.Some? ==> forall j :: from <= j < r.value ==> s[j] != c
    ensures r.None? ==> forall j :: from <= j < |s| ==> s[j] != c
    decreases |s| - from
  {
    if from >= |s| then None
    else if s[from] == c then Some(from)
    else IndexOfChar(s, c, from + 1)
  }

  /** `IndexOfChar` from `from` finds `at` when `c` is there and nowhere in between. */
  lemma IndexOfCharIs(s: string, c: char, from: nat, at: nat)
    requires from <= at < |s| && s[at] == c
    requires forall j :: from <= j < at ==> s[j] != c
    ensures IndexOfChar(s, c, from) == Some(at)
  {
  }

  /** Under case folding a non-letter matches only itself. */
  lemma FoldNonLetter(c: char, x: char)
    requires !('a' <= x <= 'z') && !('A' <= x <= 'Z')
    ensures Fold(c) == x <==> c == x
  {
    if 'A' <= c <= 'Z' {
      assert 'a' <= Fold(c) <= 'z';
    }
  }

  predicate IsLetter(c: char) {
    ('a' <= c <= 'z') || ('A' <= c <= 'Z')
  }

  /** A pattern opening with a non-letter does not match where that character is not. */
  lemma NoMatchAt(s: string, j: nat, pat: string)
    requires |pat| > 0 && !IsLetter(pat[0]) && j < |s| && s[j] != pat[0]
    ensures !MatchesAt(s, j, pat)
  {
    FoldNonLetter(s[j + 0], pat[0]);
  }

  /** A pattern opening with a non-letter absent from `s` matches nowhere in `s`. */
  lemma NoMatchWithoutFirstChar(s: string, pat: string)
    requires |pat| > 0 && !IsLetter(pat[0]) && pat[0] !in s
    ensures forall j :: !MatchesAt(s, j, pat)
  {
    forall j
      ensures !MatchesAt(s, j, pat)
    {
      if 0 <= j < |s| {
        FoldNonLetter(s[j + 0], pat[0]);
        assert s[j] in s;
      }
    }
  }

  // ---------------------------------------------------- line-local rules

  /** `^P(.*$)` replaced by `open + $1 + close`, on one line. */
  function PrefixRule(prefix: string, open: string, close: string): string -> string {
    line => if StartsWith(line, prefix) then open + line[|prefix|..] + close else line
  }

  /** The length of the run of ASCII digits `s` starts with. */
  function DigitRun(s: string): (n: nat)
    ensures n <= |s|
    ensures forall i :: 0 <= i < n ==> IsDigit(s[i])
    ensures n < |s| ==> !IsDigit(s[n])
    decreases |s|
  {
    if |s| > 0 && IsDigit(s[0]) then 1 + DigitRun(s[1..]) else 0
  }

  /** `^(\d+)\. (.*$)` replaced by `<ol><li>$2</li></ol>`, on one line. */
  function OrderedItemRule(): string -> string {
    line =>
      var d := DigitRun(line);
      if d > 0 && StartsWith(line[d..], ". ") then "<ol><li>" + line[d + 2..] + "</li></ol>" else line
  }

  /** `d` opens at `p` and closes at `q` with at least nothing in between: a match of `d(.*)d` on a line. */
  predicate IsDelimitedSpan(line: string, d: string, p: int, q: int) {
    MatchesAt(line, p, d) && MatchesAt(line, q, d) && p + |d| <= q
  }

  /**
    Where the greedy `d(.*)d` matches a terminator-free line: the engine tries
    the leftmost start first and, from it, the longest stretch.
  */
  function GreedySpan(line: string, d: string): (r: Option<(nat, nat)>)
    requires |d| > 0
    ensures r.Some? ==> IsDelimitedSpan(line, d, r.value.0, r.value.1)
    ensures r.Some? ==> forall p, q :: IsDelimitedSpan(line, d, p, q) ==>
              r.value.0 <= p && (p == r.value.0 ==> q <= r.value.1)
    ensures r.None? ==> forall p, q :: !IsDelimitedSpan(line, d, p, q)
  {
    match FirstMatch(line, d, 0)
    case None => None
    case Some(p) =>
      match LastMatchBelow(line, d, |line| + 1)
      case None => None
      case Some(q) => if p + |d| <= q then Some((p, q)) else None
  }

  /**
    `d(.*)d` replaced by `open + $1 + close` on one line. After the one
    greedy match no further delimiter starts on the line, so the global flag
    adds no second replacement.
  */
  function GreedyRule(d: string, open: string, close: string): string -> string
    requires |d| > 0
  {
    line =>
      match GreedySpan(line, d)
      case Some((p, q)) => line[..p] + open + line[p + |d|..q] + close + line[q + |d|..]
      case None => line
  }

  /** The inline style of a rendered image, in its three declarations. */
  const ImageStyle: string := "max-width: 100%; " + "border-radius: 4px; " + "margin: 10px 0;"

  /** `![alt](src)` as the editor renders an image. */
  function ImageHtml(alt: string, src: string): string {
    "<img alt=\"" + alt + "\" src=\"" + src + "\" style=\"" + ImageStyle + "\">"
  }

  /** What the link pass writes between the `href` value and the link text. */
  const AnchorAttrs: string := "\" target=\"_blank\" " + "style=\"color: #007bff; " + "text-decoration: none;\">"

  /** `[text](href)` as the editor renders a link. */
  function AnchorHtml(text: string, href: string): string {
    "<a href=\"" + href + AnchorAttrs + text + "</a>"
  }

  /**
    A match of `lead(.*?)\]\((.*?)\)` starting at 0 of a terminator-free line:
    the first `](` after the lead, then the first `)` after it.
  */
  function LinkAt(line: string, lead: string): (r: Option<(nat, nat)>)
    requires |lead| > 0
    ensures r.Some? ==> |lead| <= r.value.0 && r.value.0 + 2 <= r.value.1 < |line|
    ensures r.Some? ==> MatchesAt(line, r.value.0, "](") && line[r.value.1] == ')'
  {
    if MatchesAt(line, 0, lead) then
      match FirstMatch(line, "](", |lead|)
      case None => None
      case Some(a) =>
        match IndexOfChar(line, ')', a + 2)
        case None => None
        case Some(b) => Some((a, b))
    else None
  }

  /** `LinkAt` is assembled from its three searches. */
  lemma LinkAtIs(line: string, lead: string, a: nat, c: nat, b: nat)
    requires |lead| > 0 && MatchesAt(line, 0, lead)
    requires FirstMatch(line, "](", |lead|) == Some(a)
    requires c == a + 2 && IndexOfChar(line, ')', c) == Some(b)
    ensures LinkAt(line, lead) == Some((a, b))
  {
  }

  /**
    One step of the image (`lead` = `![`) or link (`lead` = `[`) pass: the
    element for a match at the start of the line and the characters it used,
    or else the first character, kept.
  */
  function LinkStep(line: string, lead: string, image: bool): (r: (string, nat))
    requires |lead| > 0 && |line| > 0
    ensures 1 <= r.1 <= |line|
  {
    match LinkAt(line, lead)
    case Some((a, b)) =>
      var text := line[|lead|..a];
      var target := line[a + 2..b];
      (if image then ImageHtml(text, target) else AnchorHtml(text, target), b + 1)
    case None => ([line[0]], 1)
  }

  /** The image or link pass over one line. */
  function LinkLine(line: string, lead: string, image: bool): string
    requires |lead| > 0
    decreases |line|
  {
    if |line| == 0 then ""
    else
      var (out, used) := LinkStep(line, lead, image);
      out + LinkLine(line[used..], lead, image)
  }

  /** A match at the start of the line is replaced by its element. */
  lemma LinkStepAt(line: string, lead: string, image: bool, a: nat, b: nat)
    requires |lead| > 0 && |line| > 0 && LinkAt(line, lead) == Some((a, b))
    ensures LinkStep(line, lead, image).1 == b + 1
    ensures image ==> LinkStep(line, lead, image).0 == ImageHtml(line[|lead|..a], line[a + 2..b])
    ensures !image ==> LinkStep(line, lead, image).0 == AnchorHtml(line[|lead|..a], line[a + 2..b])
  {
  }

  /** A line that is exactly one link (or image) becomes exactly its element. */
  lemma LinkLineWhole(line: string, lead: string, image: bool, a: nat, b: nat)
    requires |lead| > 0 && LinkAt(line, lead) == Some((a, b)) && b + 1 == |line|
    ensures image ==> LinkLine(line, lead, image) == ImageHtml(line[|lead|..a], line[a + 2..b])
    ensures !image ==> LinkLine(line, lead, image) == AnchorHtml(line[|lead|..a], line[a + 2..b])
  {
    LinkStepAt(line, lead, image, a, b);
    var element := LinkStep(line, lead, image).0;
    assert LinkLine(line, lead, image) == element + LinkLine(line[b + 1..], lead, image);
    assert LinkLine(line[b + 1..], lead, image) == "" by {
      assert |line[b + 1..]| == 0;
    }
    assert element + "" == element;
  }

  function LinkRule(lead: string, image: bool): string -> string
    requires |lead| > 0
  {
    line => LinkLine(line, lead, image)
  }

  /** A line without the lead's first character has no link in it. */
  lemma {:induction false} LinkLineIdentity(line: string, lead: string, image: bool)
    requires |lead| > 0 && !IsLetter(lead[0]) && lead[0] !in line
    ensures LinkLine(line, lead, image) == line
    decreases |line|
  {
    if |line| > 0 {
      NoMatchWithoutFirstChar(line, lead);
      assert line == [line[0]] + line[1..];
      LinkLineIdentity(line[1..], lead, image);
    }
  }

  // ------------------------------------------------ whole-string passes

  /** `pat` replaced by `repl` everywhere, left to right, matches not overlapping. */
  function ReplaceAll(s: string, pat: string, repl: string): string
    requires |pat| > 0
    decreases |s|
  {
    if |s| == 0 then ""
    else if MatchesAt(s, 0, pat) then repl + ReplaceAll(s[|pat|..], pat, repl)
    else [s[0]] + ReplaceAll(s[1..], pat, repl)
  }

  /** Replacing a one-character pattern by text without it leaves none behind. */
  lemma {:induction false} ReplaceAllRemovesChar(s: string, c: char, repl: string)
    requires !IsLetter(c) && c !in repl
    ensures c !in ReplaceAll(s, [c], repl)
    decreases |s|
  {
    if |s| > 0 {
      FoldNonLetter(s[0 + 0], c);
      if MatchesAt(s, 0, [c]) {
        ReplaceAllRemovesChar(s[1..], c, repl);
      } else {
        ReplaceAllRemovesChar(s[1..], c, repl);
        assert s[0] != c;
      }
    }
  }

  /** Text without the pattern's first character is left alone. */
  lemma {:induction false} ReplaceAllIdentity(s: string, pat: string, repl: string)
    requires |pat| > 0 && !IsLetter(pat[0]) && pat[0] !in s
    ensures ReplaceAll(s, pat, repl) == s
    decreases |s|
  {
    if |s| > 0 {
      NoMatchWithoutFirstChar(s, pat);
      assert s == [s[0]] + s[1..];
      ReplaceAllIdentity(s[1..], pat, repl);
    }
  }

  /**
    Where a lazy `(.*?)close` that starts at `from` stops: the first `close`
    with no line terminator before it.
  */
  function LazyClose(s: string, close: string, from: nat): (r: Option<nat>)
    requires |close| > 0
    ensures r.Some? ==> from <= r.value && MatchesAt(s, r.value, close)
    ensures r.Some? ==> forall j :: from <= j < r.value ==> !MatchesAt(s, j, close)
    ensures r.Some? ==> forall j :: from <= j < r.value ==> !IsLineTerminator(s[j])
    decreases |s| - from
  {
    if from >= |s| then None
    else if MatchesAt(s, from, close) then Some(from)
    else if IsLineTerminator(s[from]) then None
    else LazyClose(s, close, from + 1)
  }

  /** `open(.*?)close` replaced by `left + $1 + right`, case-insensitively, everywhere. */
  function LazyPairs(s: string, open: string, close: string, left: string, right: string): string
    requires |open| > 0 && |close| > 0
    decreases |s|
  {
    if |s| == 0 then ""
    else if MatchesAt(s, 0, open) then
      match LazyClose(s, close, |open|)
      case Some(q) => left + s[|open|..q] + right + LazyPairs(s[q + |close|..], open, close, left, right)
      case None => [s[0]] + LazyPairs(s[1..], open, close, left, right)
    else [s[0]] + LazyPairs(s[1..], open, close, left, right)
  }

  /** Text with no `<` holds no tag pair. */
  lemma {:induction false} LazyPairsIdentity(s: string, open: string, close: string, left: string, right: string)
    requires |open| > 0 && |close| > 0 && open[0] == '<' && '<' !in s
    ensures LazyPairs(s, open, close, left, right) == s
    decreases |s|
  {
    if |s| > 0 {
      NoMatchWithoutFirstChar(s, open);
      assert s == [s[0]] + s[1..];
      LazyPairsIdentity(s[1..], open, close, left, right);
    }
  }

  /** The close tag is found right after a run free of terminators and of `<`. */
  lemma {:induction false} LazyCloseAfterText(s: string, close: string, from: nat, q: nat)
    requires |close| > 0 && close[0] == '<'
    requires from <= q && MatchesAt(s, q, close)
    requires forall j :: from <= j < q ==> s[j] != '<' && !IsLineTerminator(s[j])
    ensures LazyClose(s, close, from) == Some(q)
    decreases q - from
  {
    if from < q {
      if MatchesAt(s, from, close) {
        FoldNonLetter(s[from + 0], close[0]);
      }
      LazyCloseAfterText(s, close, from + 1, q);
    }
  }

  /** A whole `open + text + close` pair with plain text in between is rewritten. */
  lemma LazyPairsOnPair(text: string, open: string, close: string, left: string, right: string)
    requires |open| > 0 && |close| > 0 && open[0] == '<' && close[0] == '<'
    requires forall k :: 0 <= k < |open| ==> Fold(open[k]) == open[k]
    requires forall k :: 0 <= k < |close| ==> Fold(close[k]) == close[k]
    requires '<' !in text && NoLineTerminator(text)
    ensures LazyPairs(open + text + close, open, close, left, right) == left + text + right
  {
    var s := open + text + close;
    assert MatchesAt(s, 0, open) by {
      forall k | 0 <= k < |open| ensures Fold(s[0 + k]) == open[k] {
        assert s[k] == open[k];
      }
    }
    var q := |open| + |text|;
    assert MatchesAt(s, q, close) by {
      forall k | 0 <= k < |close| ensures Fold(s[q + k]) == close[k] {
        assert s[q + k] == close[k];
      }
    }
    forall j | |open| <= j < q
      ensures s[j] != '<' && !IsLineTerminator(s[j])
    {
      assert s[j] == text[j - |open|];
    }
    LazyCloseAfterText(s, close, |open|, q);
    assert s[|open|..q] == text;
    assert s[q + |close|..] == "";
  }

  /** The length of a `<br\s*\/?>` match at the start of `s`, if any. */
  function BrTagAt(s: string): (r: Option<nat>)
    ensures r.Some? ==> 4 <= r.value <= |s| && s[0] == '<'
  {
    if MatchesAt(s, 0, "<br") then
      var k := 3 + SpaceRun(s[3..]);
      var k' := if k < |s| && s[k] == '/' then k + 1 else k;
      assert Fold(s[0 + 0]) == "<br"[0];
      FoldNonLetter(s[0 + 0], '<');
      if k' < |s| && s[k'] == '>' then Some(k' + 1)
      else None
    else None
  }

  /** `<br\s*\/?>` replaced by a newline, everywhere. */
  function BrToNewline(s: string): string
    decreases |s|
  {
    if |s| == 0 then ""
    else
      match BrTagAt(s)
      case Some(n) => "\n" + BrToNewline(s[n..])
      case None => [s[0]] + BrToNewline(s[1..])
  }

  lemma {:induction false} BrToNewlineIdentity(s: string)
    requires '<' !in s
    ensures BrToNewline(s) == s
    decreases |s|
  {
    if |s| > 0 {
      assert s[0] in s;
      assert s == [s[0]] + s[1..];
      BrToNewlineIdentity(s[1..]);
    }
  }

  /**
    `<[^>]*>` removed everywhere. What survives holds no `<` that a later
    `>` closes, and text without `<` survives whole.
  */
  function StripTags(s: string): (r: string)
    ensures forall i, j :: 0 <= i < j < |r| && r[i] == '<' ==> r[j] != '>'
    ensures '<' !in s ==> r == s
    decreases |s|
  {
    if |s| == 0 then ""
    else if s[0] == '<' then
      match IndexOfChar(s, '>', 1)
      case Some(j) => StripTags(s[j + 1..])
      case None => s
    else
      assert s == [s[0]] + s[1..];
      [s[0]] + StripTags(s[1..])
  }

  predicate NoTripleNewline(s: string) {
    forall i :: 0 <= i && i + 2 < |s| ==> !(s[i] == '\n' && s[i + 1] == '\n' && s[i + 2] == '\n')
  }

  /** A stretch of text without three newlines in a row keeps that property. */
  lemma NoTripleNewlineSlice(s: string, a: nat, b: nat)
    requires a <= b <= |s| && NoTripleNewline(s)
    ensures NoTripleNewline(s[a..b])
  {
    var t := s[a..b];
    forall i | 0 <= i && i + 2 < |t|
      ensures !(t[i] == '\n' && t[i + 1] == '\n' && t[i + 2] == '\n')
    {
      assert t[i] == s[a + i] && t[i + 1] == s[a + i + 1] && t[i + 2] == s[a + i + 2];
    }
  }

  /**
    `\n{3,}` replaced by two newlines, everywhere: afterwards no three
    newlines stand in a row.
  */
  function CollapseNewlines(s: string): (r: string)
    ensures NoTripleNewline(r)
    ensures |s| > 0 && s[0] != '\n' ==> |r| > 0 && r[0] == s[0]
    decreases |s|
  {
    if |s| == 0 then ""
    else if s[0] != '\n' then [s[0]] + CollapseNewlines(s[1..])
    else
      var n := LeadingRun(s, '\n');
      var head := if n >= 3 then "\n\n" else s[..n];
      var rest := CollapseNewlines(s[n..]);
      assert forall i :: 0 <= i < |head| ==> head[i] == '\n';
      assert |rest| > 0 ==> rest[0] != '\n';
      head + rest
  }

  /** Text that never had three newlines in a row is left unchanged. */
  lemma {:induction false} CollapseNewlinesIdentity(s: string)
    requires NoTripleNewline(s)
    ensures CollapseNewlines(s) == s
    decreases |s|
  {
    if |s| > 0 {
      if s[0] != '\n' {
        assert CollapseNewlines(s[1..]) == s[1..] by {
          NoTripleNewlineSlice(s, 1, |s|);
          CollapseNewlinesIdentity(s[1..]);
        }
        assert s == [s[0]] + s[1..];
      } else {
        var n := LeadingRun(s, '\n');
        assert n < 3 by {
          if |s| >= 3 {
            assert !(s[0] == '\n' && s[1] == '\n' && s[2] == '\n');
          }
        }
        assert CollapseNewlines(s[n..]) == s[n..] by {
          NoTripleNewlineSlice(s, n, |s|);
          CollapseNewlinesIdentity(s[n..]);
        }
        assert s == s[..n] + s[n..];
      }
    }
  }

  /**
    The length of a match of `a\s*b` at the start of `s`, if any. Every `b`
    the editor uses opens with `<`, so the greedy `\s*` never has to give
    back a character for `b` to match.
  */
  function SpacedPairAt(s: string, a: string, b: string): (r: Option<nat>)
    ensures r.Some? ==> |a| + |b| <= r.value <= |s| && MatchesAt(s, 0, a)
  {
    if MatchesAt(s, 0, a) then
      var n := |a| + SpaceRun(s[|a|..]);
      if MatchesAt(s, n, b) then Some(n + |b|) else None
    else None
  }

  /** `a\s*b` replaced by `repl`, case-insensitively, everywhere. */
  function SpacedPairs(s: string, a: string, b: string, repl: string): string
    requires |a| > 0
    decreases |s|
  {
    if |s| == 0 then ""
    else
      match SpacedPairAt(s, a, b)
      case Some(n) => repl + SpacedPairs(s[n..], a, b, repl)
      case None => [s[0]] + SpacedPairs(s[1..], a, b, repl)
  }

  /** A character in neither the text nor the replacement is not in the result. */
  lemma {:induction false} SpacedPairsKeepsOut(s: string, a: string, b: string, repl: string, c: char)
    requires |a| > 0 && c !in s && c !in repl
    ensures c !in SpacedPairs(s, a, b, repl)
    decreases |s|
  {
    if |s| > 0 {
      match SpacedPairAt(s, a, b)
      case Some(n) =>
        assert forall i :: 0 <= i < |s[n..]| ==> s[n..][i] == s[n + i];
        SpacedPairsKeepsOut(s[n..], a, b, repl, c);
      case None =>
        assert forall i :: 0 <= i < |s[1..]| ==> s[1..][i] == s[1 + i];
        SpacedPairsKeepsOut(s[1..], a, b, repl, c);
    }
  }

  /** Dropping the first character shifts every match one place to the left. */
  lemma MatchesAtTail(s: string, i: nat, pat: string)
    requires |s| > 0
    ensures MatchesAt(s[1..], i, pat) <==> MatchesAt(s, i + 1, pat)
  {
    if i + |pat| <= |s| - 1 {
      assert forall k :: 0 <= k < |pat| ==> (Fold(s[1..][i + k]) == pat[k] <==> Fold(s[i + 1 + k]) == pat[k]);
    }
  }

  /** Where `a` matches nowhere, nothing is replaced. */
  lemma {:induction false} SpacedPairsIdentity(s: string, a: string, b: string, repl: string)
    requires |a| > 0
    requires forall i :: 0 <= i < |s| ==> !MatchesAt(s, i, a)
    ensures SpacedPairs(s, a, b, repl) == s
    decreases |s|
  {
    if |s| > 0 {
      forall i | 0 <= i < |s[1..]|
        ensures !MatchesAt(s[1..], i, a)
      {
        MatchesAtTail(s, i, a);
      }
      SpacedPairsIdentity(s[1..], a, b, repl);
      assert s == [s[0]] + s[1..];
    }
  }
}

=== FILE: text_insertion.dfy ===
/**
  The text surgery of `UnifiedEditor.insertText` (scripts/unified-editors.js):
  wrapping the selection in a pair of markers, and prefixing the line that
  holds the selection start, found by walking the lines and summing their
  lengths plus one for each newline.
*/
module TextInsertion {
  import opened JsString

  // ------------------------------------------------------------- wrapping

  /**
    `text.substring(0, start) + before + selectedText + after +
    text.substring(end)` and the cursor placed after `after`. A textarea's
    selection always satisfies `start <= end <= |text|`.
  */
  function Wrap(text: string, start: nat, end: nat, before: string, after: string): (r: (string, nat))
    requires start <= end <= |text|
    ensures |r.0| == |text| + |before| + |after|
    ensures r.1 == end + |before| + |after|
    ensures r.0[..start] == text[..start]
    ensures r.0[start..start + |before|] == before
    ensures r.0[start + |before|..r.1 - |after|] == text[start..end]
    ensures r.0[r.1 - |after|..r.1] == after
    ensures r.0[r.1..] == text[end..]
  {
    var selected := text[start..end];
    var s := text[..start] + before + selected + after + text[end..];
    var cursor := start + |before| + |selected| + |after|;
    assert s[..start] == text[..start];
    assert s[start..start + |before|] == before;
    assert s[start + |before|..cursor - |after|] == selected;
    assert s[cursor - |after|..cursor] == after;
    assert s[cursor..] == text[end..];
    (s, cursor)
  }

  /** Cutting the two markers back out of the wrapped text gives the original. */
  lemma WrapUndone(text: string, start: nat, end: nat, before: string, after: string)
    requires start <= end <= |text|
    ensures var (s, cursor) := Wrap(text, start, end, before, after);
      s[..start] + s[start + |before|..cursor - |after|] + s[cursor..] == text
  {
    var (s, cursor) := Wrap(text, start, end, before, after);
    assert text == text[..start] + text[start..end] + text[end..];
  }

  // ----------------------------------------------------------- line start

  /**
    Where line `k` of `lines` starts once they are joined with newlines:
    each earlier line contributes its length plus one.
  */
  function Offset(lines: seq<string>, k: nat): nat
    requires k <= |lines|
  {
    if k == 0 then 0 else |lines[0]| + 1 + Offset(lines[1..], k - 1)
  }

  /** Adding one more line to the sum is what the loop of `insertText` does. */
  lemma {:induction false} OffsetStep(lines: seq<string>, k: nat)
    requires k < |lines|
    ensures Offset(lines, k + 1) == Offset(lines, k) + |lines[k]| + 1
  {
    if k > 0 {
      OffsetStep(lines[1..], k - 1);
    }
  }

  /** Later lines start further on. */
  lemma {:induction false} OffsetMonotone(lines: seq<string>, a: nat, b: nat)
    requires a <= b <= |lines|
    ensures Offset(lines, a) <= Offset(lines, b)
    decreases b - a
  {
    if a < b {
      OffsetStep(lines, a);
      OffsetMonotone(lines, a + 1, b);
    }
  }

  /**
    The loop of `insertText`: the first line whose running sum of lengths
    plus newlines passes `start`, or line 0 when none does.
  */
  method FindLine(lines: seq<string>, start: nat) returns (k: nat)
    requires |lines| >= 1
    ensures k < |lines|
    ensures start < Offset(lines, |lines|) ==> Offset(lines, k) <= start < Offset(lines, k + 1)
    ensures start >= Offset(lines, |lines|) ==> k == 0
  {
    k := 0;
    var charCount := 0;
    var i := 0;
    while i < |lines|
      invariant 0 <= i <= |lines|
      invariant charCount == Offset(lines, i)
      invariant charCount <= start
      invariant k == 0
    {
      OffsetStep(lines, i);
      charCount := charCount + |lines[i]| + 1;
      if charCount > start {
        OffsetMonotone(lines, i + 1, |lines|);
        k := i;
        return;
      }
      i := i + 1;
    }
  }

  /** The index where the line holding `pos` starts: just after the last newline before `pos`. */
  function LineStart(text: string, pos: nat): (r: nat)
    requires pos <= |text|
    ensures r <= pos
    ensures r == 0 || text[r - 1] == '\n'
    ensures '\n' !in text[r..pos]
    decreases pos
  {
    if pos == 0 then 0
    else if text[pos - 1] == '\n' then pos
    else
      var r := LineStart(text, pos - 1);
      assert text[r..pos] == text[r..pos - 1] + [text[pos - 1]];
      r
  }

  /** Those three properties pin the line start down. */
  lemma LineStartUnique(text: string, pos: nat, r: nat)
    requires r <= pos <= |text|
    requires r == 0 || text[r - 1] == '\n'
    requires '\n' !in text[r..pos]
    ensures LineStart(text, pos) == r
  {
    var q := LineStart(text, pos);
    assert forall i :: q <= i < pos ==> text[q..pos][i - q] == text[i];
    assert forall i :: r <= i < pos ==> text[r..pos][i - r] == text[i];
  }

  /** Line `k` sits at its offset in the joined text, right after a newline. */
  lemma {:induction false} JoinAt(lines: seq<string>, k: nat)
    requires k < |lines|
    ensures Offset(lines, k) + |lines[k]| <= |Join(lines, "\n")|
    ensures Join(lines, "\n")[Offset(lines, k)..Offset(lines, k) + |lines[k]|] == lines[k]
    ensures k > 0 ==> Join(lines, "\n")[Offset(lines, k) - 1] == '\n'
  {
    var j := Join(lines, "\n");
    if |lines| > 1 {
      var rest := Join(lines[1..], "\n");
      assert j == lines[0] + "\n" + rest;
      if k > 0 {
        JoinAt(lines[1..], k - 1);
        var o := Offset(lines[1..], k - 1);
        assert Offset(lines, k) == |lines[0]| + 1 + o;
        assert j[|lines[0]| + 1..] == rest;
      }
    }
  }

  /** The joined text is one shorter than the sum over all lines. */
  lemma {:induction false} JoinLength(lines: seq<string>)
    requires |lines| >= 1
    ensures |Join(lines, "\n")| + 1 == Offset(lines, |lines|)
  {
    if |lines| > 1 {
      JoinLength(lines[1..]);
    }
  }

  /** Prefixing line `k` inserts the prefix at that line's offset in the joined text. */
  lemma {:induction false} JoinPrefixLine(lines: seq<string>, k: nat, before: string)
    requires k < |lines|
    ensures Offset(lines, k) <= |Join(lines, "\n")|
    ensures var j := Join(lines, "\n");
      Join(lines[k := before + lines[k]], "\n") == j[..Offset(lines, k)] + before + j[Offset(lines, k)..]
  {
    JoinAt(lines, k);
    var j := Join(lines, "\n");
    var updated := lines[k := before + lines[k]];
    if k == 0 {
      if |lines| > 1 {
        assert updated[1..] == lines[1..];
        assert Join(updated, "\n") == (before + lines[0]) + "\n" + Join(lines[1..], "\n");
      }
    } else {
      var rest := Join(lines[1..], "\n");
      assert updated[1..] == lines[1..][k - 1 := before + lines[k]];
      JoinPrefixLine(lines[1..], k - 1, before);
      var o := Offset(lines[1..], k - 1);
      assert j == lines[0] + "\n" + rest;
      assert Join(updated, "\n") == lines[0] + "\n" + (rest[..o] + before + rest[o..]);
      assert j[..Offset(lines, k)] == lines[0] + "\n" + rest[..o];
      assert j[Offset(lines, k)..] == rest[o..];
    }
  }

  /** The number of newlines in a concatenation adds up. */
  lemma {:induction false} CountAppend(a: string, b: string, c: char)
    ensures Count(a + b, c) == Count(a, c) + Count(b, c)
    decreases |a|
  {
    if |a| == 0 {
      assert a + b == b;
    } else {
      assert (a + b)[0] == a[0];
      assert (a + b)[1..] == a[1..] + b;
      CountAppend(a[1..], b, c);
    }
  }

  lemma {:induction false} CountAbsent(s: string, c: char)
    requires c !in s
    ensures Count(s, c) == 0
    decreases |s|
  {
    if |s| > 0 {
      CountAbsent(s[1..], c);
    }
  }

  /** Exactly `k` newlines come before line `k` of the joined text. */
  lemma {:induction false} NewlinesBeforeLine(lines: seq<string>, k: nat)
    requires k < |lines|
    requires forall i :: 0 <= i < |lines| ==> '\n' !in lines[i]
    ensures Offset(lines, k) <= |Join(lines, "\n")|
    ensures Count(Join(lines, "\n")[..Offset(lines, k)], '\n') == k
  {
    JoinAt(lines, k);
    if k > 0 {
      var j := Join(lines, "\n");
      var rest := Join(lines[1..], "\n");
      NewlinesBeforeLine(lines[1..], k - 1);
      var o := Offset(lines[1..], k - 1);
      assert j == lines[0] + "\n" + rest;
      assert j[..Offset(lines, k)] == lines[0] + "\n" + rest[..o];
      CountAppend(lines[0] + "\n", rest[..o], '\n');
      CountAppend(lines[0], "\n", '\n');
      CountAbsent(lines[0], '\n');
    }
  }

  /**
    The line-start form of `insertText`: split into lines, find the line
    holding `start`, prefix it with `before`, join again; the cursor moves
    by the prefix's length.
  */
  method InsertAtLineStart(text: string, start: nat, before: string) returns (newText: string, cursor: nat)
    requires start <= |text|
    ensures newText == text[..LineStart(text, start)] + before + text[LineStart(text, start)..]
    ensures cursor == start + |before|
    ensures Count(text[..start], '\n') < |Split(text, '\n')|
    ensures '\n' !in before ==>
      var lines, k := Split(text, '\n'), Count(text[..start], '\n');
      Split(newText, '\n') == lines[k := before + lines[k]]
  {
    var lines := Split(text, '\n');
    JoinSplit(text, '\n');
    JoinLength(lines);
    var k := FindLine(lines, start);
    PrefixedLine(text, start, before, k);
    newText := Join(lines[k := before + lines[k]], "\n");
    cursor := start + |before|;
  }

  /** What prefixing the line found by the loop does to the whole text and to its lines. */
  lemma PrefixedLine(text: string, start: nat, before: string, k: nat)
    requires k < |Split(text, '\n')|
    requires Offset(Split(text, '\n'), k) <= start < Offset(Split(text, '\n'), k + 1)
    requires start <= |text|
    ensures var lines := Split(text, '\n');
      Join(lines[k := before + lines[k]], "\n")
        == text[..LineStart(text, start)] + before + text[LineStart(text, start)..]
    ensures k == Count(text[..start], '\n')
    ensures '\n' !in before ==>
      var lines := Split(text, '\n');
      Split(Join(lines[k := before + lines[k]], "\n"), '\n') == lines[k := before + lines[k]]
  {
    var lines := Split(text, '\n');
    JoinSplit(text, '\n');
    OffsetStep(lines, k);
    JoinAt(lines, k);
    var o := Offset(lines, k);
    assert '\n' !in text[o..start] by {
      assert text[o..start] == text[o..o + |lines[k]|][..start - o];
    }
    PrefixedLineText(text, start, before, k);
    LineIndex(text, start, k);
    if '\n' !in before {
      var updated := lines[k := before + lines[k]];
      assert forall i :: 0 <= i < |updated| ==> '\n' !in updated[i];
      SplitJoin(updated, '\n');
    }
  }

  /** The line at offset `o` starts where `LineStart` says, and the prefix lands there. */
  lemma PrefixedLineText(text: string, start: nat, before: string, k: nat)
    requires k < |Split(text, '\n')|
    requires Offset(Split(text, '\n'), k) <= start <= |text|
    requires '\n' !in text[Offset(Split(text, '\n'), k)..start]
    ensures var lines := Split(text, '\n');
      Join(lines[k := before + lines[k]], "\n")
        == text[..LineStart(text, start)] + before + text[LineStart(text, start)..]
  {
    var lines := Split(text, '\n');
    JoinSplit(text, '\n');
    JoinAt(lines, k);
    JoinPrefixLine(lines, k, before);
    LineStartUnique(text, start, Offset(lines, k));
  }

  /** The line found is the one numbered by the newlines before `start`. */
  lemma LineIndex(text: string, start: nat, k: nat)
    requires k < |Split(text, '\n')|
    requires Offset(Split(text, '\n'), k) <= start <= |text|
    requires '\n' !in text[Offset(Split(text, '\n'), k)..start]
    ensures k == Count(text[..start], '\n')
  {
    var lines := Split(text, '\n');
    JoinSplit(text, '\n');
    var o := Offset(lines, k);
    NewlinesBeforeLine(lines, k);
    assert text[..start] == text[..o] + text[o..start];
    CountAppend(text[..o], text[o..start], '\n');
    CountAbsent(text[o..start], '\n');
  }
}

=== FILE: unified_editor.dfy ===
/**
  `UnifiedEditor` of scripts/unified-editors.js: one text held in four
  views (a markdown textarea with its preview, a WYSIWYG surface holding
  HTML, a code textarea, a split textarea with its preview), of which the
  current mode's view is live. Switching modes flushes the live view into
  `content` and loads `content` into the incoming view; the toolbar and
  shortcuts edit the live textarea; saving copies the live view to
  `content` and to browser storage.
*/
module UnifiedEditor {
  import opened Options
  import opened JsString
  import TextInsertion
  import EditorMarkdown
  import EditorStats
  import RegexPasses

  /** The modes the toolbar offers, in the order the number keys select them. */
  const Modes: seq<string> := ["markdown", "wysiwyg", "code", "split"]

  /** The status-bar sync label: ready, unsaved changes, saved. */
  datatype SyncStatus = Ready | Unsaved | Saved

  /** The link and image dialogs. */
  datatype Dialog = LinkDialog | ImageDialog

  /**
    The editor's state. `mode` is a string because `setMode` accepts any
    value; `stored` is the `unified-editor-content` entry of local storage.
  */
  datatype Editor = Editor(
    mode: string,
    content: string,
    mdText: string,
    wysiwygHtml: string,
    codeText: string,
    splitText: string,
    mdPreview: string,
    splitPreview: string,
    status: SyncStatus,
    dialog: Option<Dialog>,
    stored: Option<string>)

  /**
    The editor's HTML rendering (`markdownToHtml`), used by both previews
    and the WYSIWYG view: the stages of the editor's chain, as
    `EditorMarkdown.EditorMarkdownToHtml` runs them.
  */
  function Render(md: string): string {
    EditorMarkdown.RunStages(EditorMarkdown.Chain, md)
  }

  /**
    The value a textarea reports after `s` is assigned to it: the browser
    turns every CRLF pair and every lone CR into LF.
  */
  function TextareaValue(s: string): (r: string)
    ensures '\r' !in r
    ensures '\r' !in s ==> r == s
    ensures |r| <= |s|
    decreases |s|
  {
    if |s| == 0 then ""
    else if s[0] == '\r' then
      "\n" + TextareaValue(if |s| > 1 && s[1] == '\n' then s[2..] else s[1..])
    else
      assert s == [s[0]] + s[1..];
      [s[0]] + TextareaValue(s[1..])
  }

  /** The three textareas hold values the browser could report: no CR. */
  predicate AreasNormal(e: Editor) {
    '\r' !in e.mdText && '\r' !in e.codeText && '\r' !in e.splitText
  }

  /** What the constructor leaves before `loadContent`: markdown mode, initial views. */
  function New(initial: string, storage: Option<string>): (e: Editor)
    ensures e.mode == Modes[0] && e.content == initial && e.stored == storage
  {
    Editor("markdown", initial, "", "", "", "", "", "", Ready, None, storage)
  }

  // ------------------------------------------------------ content access

  /** The view a mode name selects in the `switch` statements; other names select none. */
  datatype View = MarkdownView | WysiwygView | CodeView | SplitView | NoView

  function ViewOf(mode: string): (v: View)
    ensures v == MarkdownView <==> mode == "markdown"
    ensures v == WysiwygView <==> mode == "wysiwyg"
    ensures v == CodeView <==> mode == "code"
    ensures v == SplitView <==> mode == "split"
  {
    if mode == "markdown" then MarkdownView
    else if mode == "wysiwyg" then WysiwygView
    else if mode == "code" then CodeView
    else if mode == "split" then SplitView
    else NoView
  }

  /** `getContent`: the live view's text, or `content` for a mode with no view. */
  function GetContent(e: Editor): string {
    match ViewOf(e.mode)
    case MarkdownView => e.mdText
    case WysiwygView => e.wysiwygHtml
    case CodeView => e.codeText
    case SplitView => e.splitText
    case NoView => e.content
  }

  /**
    `setContent`: every view receives the text. The textareas report it
    with normalised line breaks, the WYSIWYG view holds it rendered, and
    each preview renders its textarea's value.
  */
  function SetContent(e: Editor, c: string): (r: Editor)
    ensures r.content == c && r.mode == e.mode && r.stored == e.stored && r.status == Ready
    ensures ViewOf(e.mode) == WysiwygView ==> GetContent(r) == Render(c)
    ensures ViewOf(e.mode) == NoView ==> GetContent(r) == c
    ensures ActiveArea(e.mode).Some? ==> GetContent(r) == TextareaValue(c)
    ensures r.mdPreview == Render(r.mdText) && r.splitPreview == Render(r.splitText)
    ensures AreasNormal(r)
  {
    var v := TextareaValue(c);
    e.(content := c, mdText := v, wysiwygHtml := Render(c), codeText := v, splitText := v,
       mdPreview := Render(v), splitPreview := Render(v), status := Ready)
  }

  /** `saveCurrentContent`: the live view is flushed into `content`. */
  function SaveCurrent(e: Editor): (r: Editor)
    ensures r.content == GetContent(e)
    ensures GetContent(r) == GetContent(e)
    ensures r.(content := e.content) == e
  {
    match ViewOf(e.mode)
    case MarkdownView => e.(content := e.mdText)
    case WysiwygView => e.(content := e.wysiwygHtml)
    case CodeView => e.(content := e.codeText)
    case SplitView => e.(content := e.splitText)
    case NoView => e
  }

  /**
    `loadContentToMode`: `content` goes into the incoming view, rendered
    for the WYSIWYG one; markdown and split refresh their previews from
    their textarea's value.
  */
  function LoadInto(e: Editor, m: string): Editor {
    var c := e.content;
    var v := TextareaValue(c);
    match ViewOf(m)
    case MarkdownView => e.(mdText := v, mdPreview := Render(v))
    case WysiwygView => e.(wysiwygHtml := Render(c))
    case CodeView => e.(codeText := v)
    case SplitView => e.(splitText := v, splitPreview := Render(v))
    case NoView => e
  }

  /**
    `switchMode`: nothing for the current mode; otherwise flush, load into
    the new mode, make it current and show the ready status. The new mode's
    view then shows what the old one did: rendered to HTML when the new
    mode is WYSIWYG, with normalised line breaks in a textarea.
  */
  function SwitchMode(e: Editor, m: string): (r: Editor)
    ensures m == e.mode ==> r == e
    ensures m != e.mode ==> r.mode == m && r.content == GetContent(e) && r.status == Ready
    ensures m != e.mode && ViewOf(m) == WysiwygView ==> GetContent(r) == Render(GetContent(e))
    ensures m != e.mode && ActiveArea(m).Some? ==> GetContent(r) == TextareaValue(GetContent(e))
    ensures m != e.mode && ViewOf(m) == NoView ==> GetContent(r) == GetContent(e)
    ensures r.stored == e.stored
    ensures AreasNormal(e) ==> AreasNormal(r)
  {
    if e.mode == m then e
    else LoadInto(SaveCurrent(e), m).(mode := m, status := Ready)
  }

  /** `save`: the live view becomes `content` and the stored copy. */
  function Save(e: Editor): (r: Editor)
    ensures r.stored == Some(GetContent(e)) && r.content == GetContent(e)
    ensures GetContent(r) == GetContent(e) && r.status == Saved
  {
    var c := GetContent(e);
    SaveCurrent(e).(stored := Some(c), status := Saved)
  }

  /** `loadContent`: a non-empty stored copy wins over a non-empty initial text; otherwise nothing. */
  function LoadContent(e: Editor, initial: string): (r: Editor)
    ensures e.stored.Some? && e.stored.value != "" ==> r == SetContent(e, e.stored.value)
    ensures (e.stored.None? || e.stored.value == "") && initial != "" ==> r == SetContent(e, initial)
    ensures (e.stored.None? || e.stored.value == "") && initial == "" ==> r == e
  {
    match e.stored
    case Some(saved) =>
      if saved != "" then SetContent(e, saved)
      else if initial != "" then SetContent(e, initial)
      else e
    case None =>
      if initial != "" then SetContent(e, initial) else e
  }

  /** The editor after construction and `init` with the given stored entry. */
  function Init(initial: string, storage: Option<string>): Editor {
    LoadContent(New(initial, storage), initial)
  }

  /** `updateStats`: the counters shown for the editor's current text. */
  function ShownStats(e: Editor): EditorStats.Stats {
    EditorStats.StatsOf(GetContent(e))
  }

  // ----------------------------------------------------------- insertion

  /** The three textareas; the WYSIWYG surface is not one. */
  datatype Area = MarkdownArea | CodeArea | SplitArea

  /** `getActiveTextArea`. */
  function ActiveArea(mode: string): (r: Option<Area>)
    ensures r.None? <==> ViewOf(mode) in {WysiwygView, NoView}
  {
    match ViewOf(mode)
    case MarkdownView => Some(MarkdownArea)
    case CodeView => Some(CodeArea)
    case SplitView => Some(SplitArea)
    case _ => None
  }

  function AreaValue(e: Editor, a: Area): string {
    match a
    case MarkdownArea => e.mdText
    case CodeArea => e.codeText
    case SplitArea => e.splitText
  }

  function WithArea(e: Editor, a: Area, v: string): (r: Editor)
    ensures AreaValue(r, a) == v
  {
    match a
    case MarkdownArea => e.(mdText := v)
    case CodeArea => e.(codeText := v)
    case SplitArea => e.(splitText := v)
  }

  /** A textarea's selection lies within its value. */
  predicate SelectionFits(e: Editor, start: nat, end: nat) {
    ActiveArea(e.mode).Some? ==> start <= end <= |AreaValue(e, ActiveArea(e.mode).value)|
  }

  /**
    What `insertText` leaves: the editor and the cursor. Without a textarea
    nothing changes. Otherwise only the active textarea and the status
    change: the line form puts `before` at the start of the line holding
    `start`, the wrap form puts `before` and `after` around the selection.
  */
  function Inserted(e: Editor, before: string, after: string, lineStart: bool, start: nat, end: nat): (Editor, Option<nat>)
    requires SelectionFits(e, start, end)
  {
    match ActiveArea(e.mode)
    case None => (e, None)
    case Some(a) =>
      var text := AreaValue(e, a);
      if lineStart then
        var ls := TextInsertion.LineStart(text, start);
        (WithArea(e, a, text[..ls] + before + text[ls..]).(status := Unsaved), Some(start + |before|))
      else
        (WithArea(e, a, text[..start] + before + text[start..end] + after + text[end..]).(status := Unsaved),
         Some(end + |before| + |after|))
  }

  /** What `Inserted` does to the active textarea and where it puts the cursor. */
  lemma InsertedShape(e: Editor, before: string, after: string, lineStart: bool, start: nat, end: nat)
    requires SelectionFits(e, start, end)
    ensures var (r, cursor) := Inserted(e, before, after, lineStart, start, end);
      && (ActiveArea(e.mode).None? ==> r == e && cursor == None)
      && (ActiveArea(e.mode).Some? ==>
        var a := ActiveArea(e.mode).value;
        var text := AreaValue(e, a);
        r == WithArea(e, a, AreaValue(r, a)).(status := Unsaved) && cursor.Some?
        && (lineStart ==>
              var ls := TextInsertion.LineStart(text, start);
              AreaValue(r, a) == text[..ls] + before + text[ls..] && cursor.value == start + |before|)
        && (!lineStart ==>
              AreaValue(r, a) == text[..start] + before + text[start..end] + after + text[end..]
              && cursor.value == end + |before| + |after|))
  {
  }

  /**
    `insertText`: without a textarea nothing happens. Otherwise either the
    line holding the selection start receives `before` (and `after` is not
    used), or the selection is wrapped in `before` and `after`; the cursor
    is placed as the returned position, and the status turns unsaved.
    Nothing else changes: in particular neither preview is refreshed.
  */
  method InsertText(e: Editor, before: string, after: string, lineStart: bool, start: nat, end: nat)
    returns (r: Editor, cursor: Option<nat>)
    requires SelectionFits(e, start, end)
    ensures ActiveArea(e.mode).None? ==> r == e && cursor == None
    ensures ActiveArea(e.mode).Some? ==>
      var a := ActiveArea(e.mode).value;
      var text := AreaValue(e, a);
      r == WithArea(e, a, AreaValue(r, a)).(status := Unsaved) && cursor.Some?
      && (lineStart ==>
            var ls := TextInsertion.LineStart(text, start);
            AreaValue(r, a) == text[..ls] + before + text[ls..] && cursor.value == start + |before|)
      && (!lineStart ==>
            AreaValue(r, a) == text[..start] + before + text[start..end] + after + text[end..]
            && cursor.value == end + |before| + |after|)
    ensures (r, cursor) == Inserted(e, before, after, lineStart, start, end)
  {
    match ActiveArea(e.mode) {
      case None =>
        r, cursor := e, None;
      case Some(a) =>
        var text := AreaValue(e, a);
        var newText: string, pos: nat;
        if lineStart {
          newText, pos := TextInsertion.InsertAtLineStart(text, start, before);
        } else {
          var w := TextInsertion.Wrap(text, start, end, before, after);
          newText, pos := w.0, w.1;
          assert newText == text[..start] + before + text[start..end] + after + text[end..] by {
            TextInsertion.WrapUndone(text, start, end, before, after);
            assert newText == newText[..start] + newText[start..start + |before|]
              + newText[start + |before|..pos - |after|] + newText[pos - |after|..pos] + newText[pos..];
          }
        }
        r := WithArea(e, a, newText).(status := Unsaved);
        cursor := Some(pos);
    }
    InsertedShape(e, before, after, lineStart, start, end);
  }

  /** The table `insertTable` puts at the cursor. */
  const TableMarkdown: string :=
    "\n| Заголовок 1 | Заголовок 2 | Заголовок 3 |\n|-------------|-------------|-------------|\n| Ячейка 1    | Ячейка 2    | Ячейка 3    |\n| Ячейка 4    | Ячейка 5    | Ячейка 6    |\n\n"

  /** What a toolbar command does: an insertion, or opening a dialog. */
  datatype Action = Insert(before: string, after: string, lineStart: bool) | Open(dialog: Dialog) | Nothing

  /** `executeCommand`'s table of commands. */
  function CommandAction(command: string): Action {
    match command
    case "bold" => Insert("**", "**", false)
    case "italic" => Insert("*", "*", false)
    case "underline" => Insert("<u>", "</u>", false)
    case "h1" => Insert("# ", "", true)
    case "h2" => Insert("## ", "", true)
    case "h3" => Insert("### ", "", true)
    case "ul" => Insert("- ", "", true)
    case "ol" => Insert("1. ", "", true)
    case "blockquote" => Insert("> ", "", true)
    case "code" => Insert("```\n", "\n```", true)
    case "link" => Open(LinkDialog)
    case "image" => Open(ImageDialog)
    case "table" => Insert(TableMarkdown, "", false)
    case _ => Nothing
  }

  /** `executeCommand`: run the command's insertion or show its dialog. */
  method ExecuteCommand(e: Editor, command: string, start: nat, end: nat) returns (r: Editor, cursor: Option<nat>)
    requires SelectionFits(e, start, end)
    ensures CommandAction(command).Nothing? ==> r == e && cursor == None
    ensures CommandAction(command).Open? ==> r == e.(dialog := Some(CommandAction(command).dialog)) && cursor == None
    ensures CommandAction(command).Insert? && ActiveArea(e.mode).None? ==> r == e && cursor == None
    ensures CommandAction(command).Insert? && ActiveArea(e.mode).Some? ==> cursor.Some? && r.status == Unsaved
    ensures CommandAction(command).Insert? ==>
      var act := CommandAction(command);
      (r, cursor) == Inserted(e, act.before, act.after, act.lineStart, start, end)
  {
    match CommandAction(command)
    case Insert(before, after, lineStart) =>
      r, cursor := InsertText(e, before, after, lineStart, start, end);
    case Open(d) =>
      r, cursor := e.(dialog := Some(d)), None;
    case Nothing =>
      r, cursor := e, None;
  }

  /** The markdown `insertLink` inserts: the text defaults to the URL, and an empty URL inserts nothing. */
  function LinkMarkup(url: string, text: string): (r: Option<string>)
    ensures r.Some? <==> url != ""
    ensures r.Some? ==> r.value == "[" + (if text == "" then url else text) + "](" + url + ")"
  {
    if url == "" then None else Some("[" + (if text == "" then url else text) + "](" + url + ")")
  }

  /** The alternative text `insertImage` uses when none is given. */
  const DefaultAlt: string := "Изображение"

  /** The markdown `insertImage` inserts. */
  function ImageMarkup(url: string, alt: string): (r: Option<string>)
    ensures r.Some? <==> url != ""
    ensures r.Some? ==> r.value == "![" + (if alt == "" then DefaultAlt else alt) + "](" + url + ")"
  {
    if url == "" then None else Some("![" + (if alt == "" then DefaultAlt else alt) + "](" + url + ")")
  }

  /**
    `insertLink` / `insertImage` with the dialog's fields: with a URL the
    markup is inserted at the selection and the dialogs close; without one
    nothing happens.
  */
  method InsertMarkup(e: Editor, markup: Option<string>, start: nat, end: nat) returns (r: Editor, cursor: Option<nat>)
    requires SelectionFits(e, start, end)
    ensures markup.None? ==> r == e && cursor == None
    ensures markup.Some? ==> r.dialog == None
    ensures markup.Some? && ActiveArea(e.mode).Some? ==>
      var a := ActiveArea(e.mode).value;
      var text := AreaValue(e, a);
      AreaValue(r, a) == text[..start] + markup.value + text[start..end] + text[end..]
      && cursor == Some(end + |markup.value|)
    ensures markup.Some? ==>
      var (ins, pos) := Inserted(e, markup.value, "", false, start, end);
      r == ins.(dialog := None) && cursor == pos
  {
    match markup
    case None =>
      r, cursor := e, None;
    case Some(m) =>
      r, cursor := InsertText(e, m, "", false, start, end);
      r := r.(dialog := None);
  }

  // ----------------------------------------------------------- shortcuts

  /** What a key press does. */
  datatype KeyAction = ToMode(mode: string) | Run(command: string) | SaveNow

  /** The document-wide shortcuts: Ctrl or Meta without Alt, with 1 to 4, b, i, u or s. */
  function Shortcut(key: string, ctrl: bool, meta: bool, alt: bool): (r: Option<KeyAction>)
    ensures r.Some? ==> (ctrl || meta) && !alt
  {
    if !((ctrl || meta) && !alt) then None
    else match key
      case "1" => Some(ToMode(Modes[0]))
      case "2" => Some(ToMode(Modes[1]))
      case "3" => Some(ToMode(Modes[2]))
      case "4" => Some(ToMode(Modes[3]))
      case "b" => Some(Run("bold"))
      case "i" => Some(Run("italic"))
      case "u" => Some(Run("underline"))
      case "s" => Some(SaveNow)
      case _ => None
  }

  // -------------------------------------------------------------- lemmas

  /** In a textarea mode the content is the active textarea's value. */
  lemma ActiveAreaIsContent(e: Editor)
    requires ActiveArea(e.mode).Some?
    ensures GetContent(e) == AreaValue(e, ActiveArea(e.mode).value)
  {
  }

  /**
    What `setContent` puts in is what `getContent` gives back: a textarea
    reports it with normalised line breaks, the WYSIWYG view rendered, and
    an unknown mode returns `content` itself.
  */
  lemma SetThenGet(e: Editor, c: string)
    ensures e.mode == "wysiwyg" ==> GetContent(SetContent(e, c)) == Render(c)
    ensures e.mode in Modes && e.mode != "wysiwyg" ==> GetContent(SetContent(e, c)) == TextareaValue(c)
    ensures e.mode !in Modes ==> GetContent(SetContent(e, c)) == c
    ensures e.mode != "wysiwyg" && '\r' !in c ==> GetContent(SetContent(e, c)) == c
  {
    var r := SetContent(e, c);
    if e.mode in Modes && e.mode != "wysiwyg" {
      assert ActiveArea(e.mode).Some?;
    } else if e.mode !in Modes {
      assert ViewOf(e.mode) == NoView;
    }
  }

  /** A textarea's value is already normalised: assigning it again changes nothing. */
  lemma TextareaValueIdempotent(s: string)
    ensures TextareaValue(TextareaValue(s)) == TextareaValue(s)
  {
  }

  /** A leading CRLF reads back as one LF. */
  lemma CrLfHead(b: string)
    requires '\r' !in b
    ensures TextareaValue("\r\n" + b) == "\n" + b
  {
    var tail := "\r\n" + b;
    assert tail[0] == '\r' && tail[1] == '\n' && tail[2..] == b;
  }

  /** A leading CR not followed by LF reads back as LF. */
  lemma LoneCrHead(b: string)
    requires '\r' !in b && (|b| == 0 || b[0] != '\n')
    ensures TextareaValue("\r" + b) == "\n" + b
  {
    var tail := "\r" + b;
    assert tail[0] == '\r' && tail[1..] == b;
  }

  /** A CRLF pair reads back as one LF. */
  lemma CrLfReadsAsLf(a: string, b: string)
    requires '\r' !in a && '\r' !in b
    ensures TextareaValue(a + "\r\n" + b) == a + "\n" + b
  {
    var tail := "\r\n" + b;
    CrLfHead(b);
    TextareaValueSkips(a, tail);
    assert a + "\r\n" + b == a + tail;
  }

  /** A CR not followed by LF reads back as one LF. */
  lemma LoneCrReadsAsLf(a: string, b: string)
    requires '\r' !in a && '\r' !in b && (|b| == 0 || b[0] != '\n')
    ensures TextareaValue(a + "\r" + b) == a + "\n" + b
  {
    var tail := "\r" + b;
    LoneCrHead(b);
    TextareaValueSkips(a, tail);
    assert a + "\r" + b == a + tail;
  }

  /** A first character other than CR reads back as itself. */
  lemma TextareaValueKeeps(a: string, b: string)
    requires |a| > 0 && a[0] != '\r'
    ensures TextareaValue(a + b) == [a[0]] + TextareaValue(a[1..] + b)
  {
    assert (a + b)[0] == a[0] && (a + b)[1..] == a[1..] + b;
  }

  /** A character missing from a sequence is missing from its tail. */
  lemma NotInTail(c: char, s: string)
    requires |s| > 0 && c !in s
    ensures c !in s[1..]
  {
    forall i | 0 <= i < |s| - 1
      ensures s[1..][i] != c
    {
      assert s[1..][i] == s[i + 1] && s[i + 1] in s;
    }
  }

  /** A CR-free prefix is copied as it stands. */
  lemma {:induction false} TextareaValueSkips(a: string, b: string)
    requires '\r' !in a
    ensures TextareaValue(a + b) == a + TextareaValue(b)
    decreases |a|
  {
    if |a| > 0 {
      assert a[0] in a;
      TextareaValueKeeps(a, b);
      NotInTail('\r', a);
      TextareaValueSkips(a[1..], b);
      assert [a[0]] + (a[1..] + TextareaValue(b)) == a + TextareaValue(b) by {
        assert a == [a[0]] + a[1..];
      }
    } else {
      assert a + b == b;
    }
  }

  /** Saving twice is saving once. */
  lemma SaveIdempotent(e: Editor)
    ensures Save(Save(e)) == Save(e)
  {
  }

  /**
    Markdown to WYSIWYG and back does not restore the markdown: the
    markdown view receives the HTML the WYSIWYG view was loaded with.
  */
  lemma WysiwygDetourKeepsHtml(e: Editor)
    requires e.mode == "markdown"
    ensures GetContent(SwitchMode(SwitchMode(e, "wysiwyg"), "markdown")) == TextareaValue(Render(GetContent(e)))
  {
    var w := SwitchMode(e, "wysiwyg");
    assert ViewOf("wysiwyg") == WysiwygView;
    assert GetContent(w) == Render(GetContent(e));
    assert ActiveArea("markdown").Some?;
  }

  /** Between the textarea modes a switch carries the text over unchanged, both ways. */
  lemma TextModesShareText(e: Editor, m: string)
    requires e.mode in {"markdown", "code", "split"} && m in {"markdown", "code", "split"}
    ensures m != e.mode ==> GetContent(SwitchMode(SwitchMode(e, m), e.mode)) == TextareaValue(GetContent(e))
    ensures '\r' !in GetContent(e) ==> GetContent(SwitchMode(SwitchMode(e, m), e.mode)) == GetContent(e)
  {
    if m != e.mode {
      var there := SwitchMode(e, m);
      assert ActiveArea(m).Some? && ActiveArea(e.mode).Some?;
      assert GetContent(there) == TextareaValue(GetContent(e));
      TextareaValueIdempotent(GetContent(e));
    }
  }

  /**
    What was saved comes back on the next start in markdown mode; a saved
    empty text falls back to the initial one.
  */
  lemma SaveThenReload(e: Editor, initial: string)
    ensures var next := Init(initial, Save(e).stored);
      next.mode == "markdown"
      && GetContent(next) == TextareaValue(if GetContent(e) != "" then GetContent(e) else initial)
    ensures '\r' !in GetContent(e) && GetContent(e) != "" ==> GetContent(Init(initial, Save(e).stored)) == GetContent(e)
  {
    var start := New(initial, Save(e).stored);
    assert ActiveArea(start.mode).Some?;
    assert TextareaValue("") == "";
  }

  /** After `setContent` the counters are those of the new text outside WYSIWYG mode. */
  lemma StatsAfterSetContent(e: Editor, c: string)
    requires e.mode != "wysiwyg"
    ensures var t := if e.mode in Modes then TextareaValue(c) else c;
      var st := ShownStats(SetContent(e, c));
      st.chars == |t| && st.lines == Count(t, '\n') + 1 && st.words == EditorStats.WordStarts(t, true)
    ensures '\r' !in c ==> ShownStats(SetContent(e, c)).chars == |c|
    ensures '\r' !in c ==> ShownStats(SetContent(e, c)).lines == Count(c, '\n') + 1
    ensures '\r' !in c ==> ShownStats(SetContent(e, c)).words == EditorStats.WordStarts(c, true)
  {
    var r := SetContent(e, c);
    var t := if e.mode in Modes then TextareaValue(c) else c;
    SetThenGet(e, c);
    StatsOfText(r, t);
  }

  lemma StatsOfText(e: Editor, c: string)
    requires GetContent(e) == c
    ensures ShownStats(e).chars == |c| && ShownStats(e).lines == Count(c, '\n') + 1
    ensures ShownStats(e).words == EditorStats.WordStarts(c, true)
  {
  }

  /** Ctrl/Meta with 1 to 4 selects the toolbar modes in order, and no other key switches mode. */
  lemma ModeKeys(key: string, ctrl: bool, meta: bool, alt: bool, k: nat)
    requires 1 <= k <= 4
    ensures Shortcut(key, ctrl, meta, alt) == Some(ToMode(Modes[k - 1]))
      <==> (ctrl || meta) && !alt && key == [('0' as int + k) as char]
  {
  }

  /** The line-start commands ignore `after`: the code command adds its opening fence and no closing one. */
  lemma CodeFenceUnclosed(text: string, start: nat)
    requires start <= |text|
    ensures CommandAction("code").lineStart
    ensures var ls := TextInsertion.LineStart(text, start);
      Count(text[..ls] + CommandAction("code").before + text[ls..], '`') == Count(text, '`') + 3
  {
    var ls := TextInsertion.LineStart(text, start);
    var fence := "```\n";
    TextInsertion.CountAppend(text[..ls] + fence, text[ls..], '`');
    TextInsertion.CountAppend(text[..ls], fence, '`');
    TextInsertion.CountAppend(text[..ls], text[ls..], '`');
    assert text[..ls] + text[ls..] == text;
  }

  /** Where each part of `lead[t](u)` sits in the line. */
  lemma MarkupChars(lead: string, t: string, u: string)
    ensures var line := lead + t + "](" + u + ")";
      && |line| == |lead| + |t| + 3 + |u|
      && (forall k :: 0 <= k < |lead| ==> line[k] == lead[k])
      && (forall k :: 0 <= k < |t| ==> line[|lead| + k] == t[k])
      && line[|lead| + |t|] == ']' && line[|lead| + |t| + 1] == '('
      && (forall k :: 0 <= k < |u| ==> line[|lead| + |t| + 2 + k] == u[k])
      && line[|lead| + |t| + 2 + |u|] == ')'
  {
    var p1 := lead + t;
    var p2 := p1 + "](";
    var p3 := p2 + u;
    var line := p3 + ")";
    assert forall k :: 0 <= k < |lead| ==> p1[k] == lead[k];
    assert forall k :: 0 <= k < |t| ==> p1[|lead| + k] == t[k];
    assert forall k :: 0 <= k < |p1| ==> p3[k] == p1[k] by {
      assert forall k :: 0 <= k < |p1| ==> p2[k] == p1[k];
    }
    assert forall k :: 0 <= k < |u| ==> p3[|p2| + k] == u[k];
    assert forall k :: 0 <= k < |p3| ==> line[k] == p3[k];
    assert p3[|p1|] == ']' && p3[|p1| + 1] == '(' by {
      assert p2[|p1|] == ']' && p2[|p1| + 1] == '(';
    }
  }

  /** The text of `lead[t](u)`, as a slice of the line. */
  lemma MarkupTextSlice(lead: string, t: string, u: string)
    ensures (lead + t + "](" + u + ")")[|lead|..|lead| + |t|] == t
  {
    var line := lead + t + "](" + u + ")";
    MarkupChars(lead, t, u);
    forall k | 0 <= k < |t|
      ensures line[|lead|..|lead| + |t|][k] == t[k]
    {
      assert line[|lead| + k] == t[k];
    }
  }

  /** The target of `lead[t](u)`, as a slice of the line. */
  lemma MarkupTargetSlice(lead: string, t: string, u: string)
    ensures (lead + t + "](" + u + ")")[|lead| + |t| + 2..|lead| + |t| + 2 + |u|] == u
  {
    var line := lead + t + "](" + u + ")";
    MarkupChars(lead, t, u);
    forall k | 0 <= k < |u|
      ensures line[|lead| + |t| + 2..|lead| + |t| + 2 + |u|][k] == u[k]
    {
      assert line[|lead| + |t| + 2 + k] == u[k];
    }
  }

  /** In `lead[t](u)` the `](` after `t` matches. */
  lemma MarkupBracketMatches(lead: string, t: string, u: string)
    ensures MatchesAt(lead + t + "](" + u + ")", |lead| + |t|, "](")
  {
    var line := lead + t + "](" + u + ")";
    MarkupChars(lead, t, u);
    assert line[|lead| + |t| + 0] == ']';
  }

  /** Inside `t` of `lead[t](u)` no `](` starts when `t` has no `]`. */
  lemma MarkupTextHasNoBracket(lead: string, t: string, u: string)
    requires ']' !in t
    ensures forall j :: |lead| <= j < |lead| + |t| ==> !MatchesAt(lead + t + "](" + u + ")", j, "](")
  {
    var line := lead + t + "](" + u + ")";
    MarkupChars(lead, t, u);
    forall j | |lead| <= j < |lead| + |t|
      ensures !MatchesAt(line, j, "](")
    {
      assert line[|lead| + (j - |lead|)] == t[j - |lead|];
      RegexPasses.NoMatchAt(line, j, "](");
    }
  }

  /** In `[t](u)` (or `![t](u)`) the first `](` after the lead is the one that closes `t`. */
  lemma MarkupCloseBracket(lead: string, t: string, u: string)
    requires ']' !in t
    ensures RegexPasses.FirstMatch(lead + t + "](" + u + ")", "](", |lead|) == Some(|lead| + |t|)
  {
    MarkupBracketMatches(lead, t, u);
    MarkupTextHasNoBracket(lead, t, u);
    RegexPasses.FirstMatchIs(lead + t + "](" + u + ")", "](", |lead|, |lead| + |t|);
  }

  /** After any `head`, the first `)` of `u)` is its last character when `u` has none. */
  lemma ParenCloses(head: string, u: string)
    requires ')' !in u
    ensures RegexPasses.IndexOfChar(head + u + ")", ')', |head|) == Some(|head| + |u|)
  {
    var line := head + u + ")";
    forall j | |head| <= j < |head| + |u|
      ensures line[j] != ')'
    {
      assert line[j] == u[j - |head|];
    }
    RegexPasses.IndexOfCharIs(line, ')', |head|, |head| + |u|);
  }

  /** A lead that reads the same under case folding matches at the start of `lead[t](u)`. */
  lemma MarkupLeadMatches(lead: string, t: string, u: string)
    requires MatchesAt(lead, 0, lead)
    ensures MatchesAt(lead + t + "](" + u + ")", 0, lead)
  {
    var line := lead + t + "](" + u + ")";
    MarkupChars(lead, t, u);
    forall k | 0 <= k < |lead|
      ensures Fold(line[k]) == lead[k]
    {
      assert line[k] == lead[k];
      assert Fold(lead[0 + k]) == lead[k];
    }
  }

  /**
    In `[t](u)` the link pattern, and in `![t](u)` the image pattern, finds
    `t` between the brackets and `u` between the parentheses.
  */
  lemma MarkupLinkAt(lead: string, t: string, u: string)
    requires |lead| > 0 && MatchesAt(lead, 0, lead)
    requires ']' !in t && ')' !in u
    ensures RegexPasses.LinkAt(lead + t + "](" + u + ")", lead) == Some((|lead| + |t|, |lead| + |t| + 2 + |u|))
  {
    MarkupLeadMatches(lead, t, u);
    MarkupCloseBracket(lead, t, u);
    ParenCloses(lead + t + "](", u);
    RegexPasses.LinkAtIs(lead + t + "](" + u + ")", lead, |lead| + |t|, |lead + t + "]("|, |lead + t + "]("| + |u|);
  }

  /** A line that is exactly `lead[t](u)` becomes exactly the element for `t` and `u`. */
  lemma MarkupRenders(lead: string, t: string, u: string, image: bool)
    requires |lead| > 0 && MatchesAt(lead, 0, lead)
    requires ']' !in t && ')' !in u
    ensures image ==> RegexPasses.LinkLine(lead + t + "](" + u + ")", lead, image) == RegexPasses.ImageHtml(t, u)
    ensures !image ==> RegexPasses.LinkLine(lead + t + "](" + u + ")", lead, image) == RegexPasses.AnchorHtml(t, u)
  {
    MarkupLinkAt(lead, t, u);
    MarkupTextSlice(lead, t, u);
    MarkupTargetSlice(lead, t, u);
    RegexPasses.LinkLineWhole(lead + t + "](" + u + ")", lead, image, |lead| + |t|, |lead| + |t| + 2 + |u|);
  }

  /** A link inserted through the dialog is one the link pass renders as an anchor to the URL. */
  lemma InsertedLinkRenders(url: string, text: string)
    requires url != "" && ')' !in url && ']' !in text && ']' !in url
    ensures RegexPasses.LinkLine(LinkMarkup(url, text).value, "[", false)
      == RegexPasses.AnchorHtml(if text == "" then url else text, url)
  {
    var shown := if text == "" then url else text;
    MarkupRenders("[", shown, url, false);
  }

  /** An image inserted through the dialog is one the image pass renders as an `<img>` of that text and URL. */
  lemma InsertedImageRenders(url: string, alt: string)
    requires url != "" && ')' !in url && ']' !in alt
    ensures RegexPasses.LinkLine(ImageMarkup(url, alt).value, "![", true)
      == RegexPasses.ImageHtml(if alt == "" then DefaultAlt else alt, url)
  {
    var shown := if alt == "" then DefaultAlt else alt;
    assert ']' !in shown;
    MarkupRenders("![", shown, url, true);
  }

  /** A character in neither part is not in their concatenation. */
  lemma NotInAppend(c: char, a: string, b: string)
    requires c !in a && c !in b
    ensures c !in a + b
  {
    forall i | 0 <= i < |a + b|
      ensures (a + b)[i] != c
    {
      if i < |a| {
        assert (a + b)[i] == a[i];
      } else {
        assert (a + b)[i] == b[i - |a|];
      }
    }
  }

  /** A character not in `s` is not in any slice of it. */
  lemma NotInSlice(c: char, s: string, i: nat, j: nat)
    requires i <= j <= |s| && c !in s
    ensures c !in s[i..j]
  {
    forall k | 0 <= k < j - i
      ensures s[i..j][k] != c
    {
      assert s[i..j][k] == s[i + k] && s[i + k] in s;
    }
  }

  /** Inserting CR-free strings keeps every textarea free of CR. */
  lemma InsertedKeepsAreasNormal(e: Editor, before: string, after: string, lineStart: bool, start: nat, end: nat)
    requires SelectionFits(e, start, end) && AreasNormal(e) && '\r' !in before && '\r' !in after
    ensures AreasNormal(Inserted(e, before, after, lineStart, start, end).0)
  {
    match ActiveArea(e.mode)
    case None =>
    case Some(a) =>
      var text := AreaValue(e, a);
      assert '\r' !in text;
      var v: string;
      if lineStart {
        var ls := TextInsertion.LineStart(text, start);
        NotInSlice('\r', text, 0, ls);
        NotInSlice('\r', text, ls, |text|);
        NotInAppend('\r', text[..ls], before);
        NotInAppend('\r', text[..ls] + before, text[ls..]);
        v := text[..ls] + before + text[ls..];
      } else {
        NotInSlice('\r', text, 0, start);
        NotInSlice('\r', text, start, end);
        NotInSlice('\r', text, end, |text|);
        NotInAppend('\r', text[..start], before);
        NotInAppend('\r', text[..start] + before, text[start..end]);
        NotInAppend('\r', text[..start] + before + text[start..end], after);
        NotInAppend('\r', text[..start] + before + text[start..end] + after, text[end..]);
        v := text[..start] + before + text[start..end] + after + text[end..];
      }
      assert Inserted(e, before, after, lineStart, start, end).0 == WithArea(e, a, v).(status := Unsaved);
  }

  /** The `<img>` element holds no `[` unless its text or source does. */
  lemma ImageHtmlHasNoBracket(alt: string, src: string)
    requires '[' !in alt && '[' !in src
    ensures '[' !in RegexPasses.ImageHtml(alt, src)
  {
    var open, mid, styleOpen, close := "<img alt=\"", "\" src=\"", "\" style=\"", "\">";
    var s1, s2, s3 := "max-width: 100%; ", "border-radius: 4px; ", "margin: 10px 0;";
    assert '[' !in open && '[' !in mid && '[' !in styleOpen && '[' !in close;
    assert '[' !in s1 && '[' !in s2 && '[' !in s3;
    NotInAppend('[', s1, s2);
    NotInAppend('[', s1 + s2, s3);
    assert RegexPasses.ImageStyle == s1 + s2 + s3;
    var style := RegexPasses.ImageStyle;
    NotInAppend('[', open, alt);
    NotInAppend('[', open + alt, mid);
    NotInAppend('[', open + alt + mid, src);
    NotInAppend('[', open + alt + mid + src, styleOpen);
    NotInAppend('[', open + alt + mid + src + styleOpen, style);
    NotInAppend('[', open + alt + mid + src + styleOpen + style, close);
  }

  /** Image markup is one line when its text and URL are. */
  lemma ImageMarkupOneLine(url: string, alt: string)
    requires url != "" && NoLineTerminator(url) && NoLineTerminator(alt)
    ensures NoLineTerminator(ImageMarkup(url, alt).value)
  {
    var shown := if alt == "" then DefaultAlt else alt;
    var m := ImageMarkup(url, alt).value;
    assert NoLineTerminator(shown);
    forall i | 0 <= i < |m|
      ensures !IsLineTerminator(m[i])
    {
      if 2 <= i < 2 + |shown| {
        assert m[i] == shown[i - 2];
      } else if 4 + |shown| <= i < 4 + |shown| + |url| {
        assert m[i] == url[i - 4 - |shown|];
      }
    }
  }

  /**
    In the preview, the image pass and the link pass after it turn an
    inserted one-line image into exactly its `<img>` element.
  */
  lemma InsertedImagePreview(url: string, alt: string)
    requires url != "" && ')' !in url && ']' !in alt
    requires NoLineTerminator(url) && NoLineTerminator(alt) && '[' !in url && '[' !in alt
    ensures EditorMarkdown.LinkPasses(ImageMarkup(url, alt).value)
      == RegexPasses.ImageHtml(if alt == "" then DefaultAlt else alt, url)
  {
    var shown := if alt == "" then DefaultAlt else alt;
    var markup := ImageMarkup(url, alt).value;
    ImageMarkupOneLine(url, alt);
    RegexPasses.MapLinesSingle(markup, RegexPasses.LinkRule("![", true));
    InsertedImageRenders(url, alt);
    assert '[' !in shown;
    ImageHtmlHasNoBracket(shown, url);
    EditorMarkdown.LinkPassIdentity(RegexPasses.ImageHtml(shown, url), "[", false);
  }

  /**
    In the preview, an inserted one-line link without `!` passes the image
    pass unchanged and the link pass turns it into exactly its anchor.
  */
  lemma InsertedLinkPreview(url: string, text: string)
    requires url != "" && ')' !in url && ']' !in text && ']' !in url
    requires NoLineTerminator(url) && NoLineTerminator(text) && '!' !in url && '!' !in text
    ensures EditorMarkdown.LinkPasses(LinkMarkup(url, text).value)
      == RegexPasses.AnchorHtml(if text == "" then url else text, url)
  {
    var shown := if text == "" then url else text;
    var markup := LinkMarkup(url, text).value;
    assert NoLineTerminator(shown) && '!' !in shown;
    assert NoLineTerminator(markup) && '!' !in markup by {
      assert markup == "[" + shown + "](" + url + ")";
    }
    EditorMarkdown.LinkPassIdentity(markup, "![", true);
    RegexPasses.MapLinesSingle(markup, RegexPasses.LinkRule("[", false));
    InsertedLinkRenders(url, text);
  }
}
